=== FILE: README.md ===
# Inventory transactions: a verified model of the stock engine

The system is a multi-location inventory service. Products are rows keyed by
(item code, location) and hold a stock count. Transactions move that stock:

- a **sale** or **outbound** takes stock out of a source location;
- a **transfer** moves it from a source to a destination location;
- a **purchase** is an order. Approving it spawns one linked **inbound**.
- the inbound's approval books the received quantities at the destination.

A transaction goes through the statuses draft, pending, approved, rejected and
cancelled. The approval and cancellation handlers run inside one database
session that is aborted on any error. Purchases get a yearly
`<year>-<five digits>` PO number from a save hook. Two client pages show each
product's stock adjusted by the loaded transactions. One of them also imports
products from CSV.

The model is a set of Dafny modules:

| module | file | what it holds |
|---|---|---|
| `Common` | common.dfy | options, results, ids, the error taxonomy and its HTTP statuses |
| `Text` | text.dfy | `trim`, `toLowerCase`, `String(n)`, `padStart`, `parseInt` on strings |
| `TransactionModel` | transaction_model.dfy | the record, its enums, the PO-number hook, the sparse unique index |
| `Catalog` | catalog.dfy | the product table as a class: create, update, rename a code, import, list |
| `StockEffects` | stock_effects.dfy | the per-type stock passes of approval and cancellation, as folds and as loops |
| `LedgerState` | ledger_state.dfy | the database value (records, rows, next id) and its stored-data invariant |
| `Creation` | creation.dfy | createTransaction: guards, price snapshots, transfer provisioning, the new record |
| `Approval` | approval.dfy | approveTransaction and cancelTransaction |
| `Lifecycle` | lifecycle.dfy | the status-only handlers, the two edit handlers, the status diagram |
| `Listing` | listing.dfy | getTransactions: filter, newest first, margin redaction |
| `TransactionStore` | store.dfy | the live database as a class whose handlers commit only on success |
| `PendingStock` | pending_stock.dfy | the two client calculators of pending and available stock |
| `CsvLine` | csv_line.dfy | the line splitter and `parseCSVLine` |
| `CsvImport` | csv_import.dfy | the client import: header mapping, the two passes, the name creation |

Each handler is a pure function from the database to `Result<new state, error>`.
A method carries the source's loops and is proved equal to that function. The
`TransactionStore.Store` and `Catalog.ProductTable` classes hold the tables as
fields. Their methods write the new state only when the function succeeds.
That is how the session's all-or-nothing behaviour is stated.

Ids are indices. A product id is the row's position in a `seq`, and products are
never deleted in the core. Transactions live in a `map` with a counter for
fresh ids. Stock and quantities are unbounded integers; prices are `real`.

Some behaviours follow the code where one would expect otherwise:

- Approval populates the lines' products first (transactionController.js:352),
  so a line whose product was deleted reads a null and the handler answers
  500 (:371). Cancelling skips such a line (:633). Products are never deleted
  in the core, so the case cannot arise from the modelled handlers; the model
  passes over such a line in every pass, and the lemmas about single rows
  assume that every line names a row.
- Cancelling subtracts from the destination rows without a negativity check.
- Cancelling deletes the first linked inbound only.
- updateInboundTransaction checks the type and not the status, so an approved
  inbound's received quantities can still be edited. A later cancel then
  reverses the edited amounts. `Approval.ApproveInboundThenCancel` is the
  exact round trip when no edit comes between.
- createTransaction accepts any `linkedTransactionId` on an inbound
  (transactionController.js:154). "At most one inbound per purchase" is
  therefore not an invariant of the stored data; what is proved is that an
  approval never adds a second one (`Approval.ApprovePurchase`).
- importProducts is not rolled back. When the schema refuses a row, the rows,
  locations and categories written before it stay.
- Insufficient stock is a thrown error and is answered with 500.
- The listing populates each line's product with its current `costPrice` and
  `sellingPrice` (transactionController.js:185) before it hides the line's
  `costPriceAtTransaction` and `sellingPrice` from non-admins (:191-198). A
  non-admin therefore still receives each product's current cost and selling
  price inside the populated product. The model leaves populate out
  (`Listing.ListingRedacts` speaks of the line fields only).
- On the client, the products tab matches transfer lines by item code and the
  products page matches them by id. `PendingStock.TransferByCode` shows an input
  where the two differ.

## Model

| member | source | states |
|---|---|---|
| Text.Trim | backend/controllers/productController.js:291 | the result is no longer than the input and has no whitespace (the full JavaScript set, no-break and Unicode spaces included) at either end |
| Text.TrimCuts | backend/controllers/productController.js:291 | trim cuts off only whitespace, and only at the two ends: the result is a contiguous piece of the input with nothing but whitespace before and after it |
| Text.TrimIdempotent | frontend/src/components/ProductTab.jsx:104 | trimming a trimmed string changes nothing |
| Text.BlankIffTrimEmpty | backend/controllers/productController.js:248-250 | `!s.trim()` holds exactly when every character is whitespace |
| Text.Lower | frontend/src/components/ProductTab.jsx:130 | same length; ASCII capitals become lower case, every other character is kept |
| Text.PadStart | backend/models/Transaction.js:94 | the result has the requested width (or the input's length), ends with the input and is filled in front |
| Text.LeadingDigits | backend/models/Transaction.js:90 | the longest prefix of decimal digits, stopped at the first non-digit |
| Text.ParseIntPrefix | backend/models/Transaction.js:90 | `parseInt` without a minus sign never yields a negative number |
| Text.ParseDigits | backend/models/Transaction.js:90 | `parseInt` of a string of digits is its decimal value |
| Text.ParseIntAuto | frontend/src/components/ProductTab.jsx:254 | `parseInt` with no radix agrees with base 10 unless the digits start with `0x`, and never gives a negative number without a minus sign |
| Text.ParseHex | frontend/src/components/ProductTab.jsx:254 | `parseInt` of `0x` followed by hexadecimal digits is their hexadecimal value |
| Text.ParseDigitsAuto | frontend/src/components/ProductTab.jsx:254 | `parseInt` with no radix reads a digit string as its decimal value |
| Text.LeadingHex | frontend/src/components/ProductTab.jsx:254 | the longest prefix of hexadecimal digits, stopped at the first other character |
| Text.HexDigitValue | frontend/src/components/ProductTab.jsx:254 | a hexadecimal digit is worth less than 16 |
| Text.NatToStringValue | backend/models/Transaction.js:94 | `String(n)` reads back as `n` |
| Text.PaddedRoundTrip | backend/models/Transaction.js:90-94 | `parseInt` of a zero-padded `String(n)` is `n` |
| Text.NatToStringLength | backend/models/Transaction.js:94 | `String(n)` has exactly k digits when 10^(k-1) <= n < 10^k |
| TransactionModel.ParseType | backend/models/Transaction.js:5-9 | a type string is accepted exactly when it names one of the five types, and then yields that type |
| TransactionModel.InitialStatus | backend/controllers/transactionController.js:109 | a new record is draft exactly when draft is requested, otherwise pending |
| TransactionModel.UpToDash | backend/models/Transaction.js:90 | the text before the first dash: a dash-free prefix followed by a dash or by the end |
| TransactionModel.SecondSegment | backend/models/Transaction.js:90 | the second dash-separated piece, when there is one, holds no dash |
| TransactionModel.PoSequence | backend/models/Transaction.js:90 | the parsed sequence number is never negative |
| TransactionModel.NextSequence | backend/models/Transaction.js:88-92 | the latest number plus one when it parses, otherwise 1; never 0 |
| TransactionModel.SaveHook | backend/models/Transaction.js:60-100 | every non-purchase loses its poNumber; a purchase always leaves with a non-empty one |
| TransactionModel.HookIdempotent | backend/models/Transaction.js:76 | saving twice is saving once, in any year and with any latest record |
| TransactionModel.HookKeepsAssigned | backend/models/Transaction.js:76 | a purchase that has a poNumber keeps it unchanged |
| TransactionModel.PoRoundTrip | backend/models/Transaction.js:90-94 | reading the sequence back out of a generated poNumber gives the number that was formatted |
| TransactionModel.SecondSegmentOf | backend/models/Transaction.js:90 | splitting `a-b` on dashes gives `b` second when neither part has a dash |
| TransactionModel.PoFormat | backend/models/Transaction.js:94 | for a four-digit year and 1 <= n <= 99999 the poNumber has length 10, a dash at index 4 and digits elsewhere |
| TransactionModel.FourDigitYear | backend/models/Transaction.js:94 | a year from 1000 to 9999 prints with four digits |
| TransactionModel.FiveDigitSequence | backend/models/Transaction.js:94 | a number up to 99999 pads to exactly five digits |
| TransactionModel.NextAfterGenerated | backend/models/Transaction.js:88-94 | after `<year>-k` the next number is k+1 |
| TransactionModel.LatestPoWithPrefix | backend/models/Transaction.js:81-86 | a found poNumber belongs to a purchase with the year's prefix below the bound, and no later record below the bound matches; none found means no purchase has one |
| TransactionModel.InsertKeepsPoUnique | backend/models/Transaction.js:4 | inserting a record whose poNumber is absent or untaken keeps present poNumbers pairwise distinct |
| LedgerState.FirstLinked | backend/controllers/transactionController.js:381-384 | the lowest-id inbound linked to the purchase, or none when no record is linked |
| LedgerState.ResaveKeepsPo | backend/models/Transaction.js:60-76 | re-saving a stored record leaves its poNumber as it is |
| LedgerState.ReplaceKeepsValid | backend/models/Transaction.js:4 | replacing a record with one of the same type and poNumber and a valid destination keeps the stored-data invariant |
| LedgerState.RemoveKeepsValid | backend/controllers/transactionController.js:660 | deleting a record keeps the stored-data invariant |
| Creation.ValidateCreate | backend/controllers/transactionController.js:22-57 | succeeds exactly for a known type whose company and locations are given and exist; invalid type and missing company are reported exactly in their cases |
| Creation.DiscountBounds | backend/controllers/transactionController.js:78-86 | a discount from 0 to 100 percent gives a price between 0 and the unit price; 0 keeps it, 100 zeroes it |
| Creation.SnapshotLine | backend/controllers/transactionController.js:60-106 | every line captures cost and selling price; purchase prices from the given price or cost; sale price is the custom or selling price; other types keep the price fields at 0 |
| Creation.Snapshots | backend/controllers/transactionController.js:60-106 | succeeds exactly when every requested product exists, one snapshot line per request; on failure the error names the first missing product by position |
| Creation.CreateOutcome | backend/controllers/transactionController.js:7-167 | fails exactly on a guard, a missing product or a taken poNumber; otherwise one fresh record with the parsed type, the snapshots and the initial status. It holds the requested company and locations for the fields its type uses and none for the rest, plus the requested linkedTransaction, deliverTo and deliveryDate. Its poNumber is the one the save hook generates (present exactly for purchases), its creation time is now, and the per-code stock totals are unchanged |
| Creation.CreateKeepsValid | backend/controllers/transactionController.js:112-159 | a successful create keeps the stored-data invariant and the product table sound |
| Creation.ConsecutivePurchases | backend/models/Transaction.js:81-94 | right after `<year>-n` is created, the next purchase of the year gets `<year>-(n+1)` |
| Creation.CreateNumbersInOrder | backend/models/Transaction.js:81-94 | when the hook would number a purchase `<year>-n`, creating it stores `<year>-n` and the hook then numbers the next one `<year>-(n+1)` |
| Creation.NextAfterInsert | backend/models/Transaction.js:81-94 | once a purchase `<year>-n` is the newest record the hook generates `<year>-(n+1)` |
| Creation.FormatPoHasPrefix | backend/models/Transaction.js:83 | a generated poNumber matches its year's `^<year>-` query |
| Creation.LatestAfterInsert | backend/models/Transaction.js:81-86 | the newest matching purchase is the one the hook's query finds |
| Creation.FirstPurchaseOfYear | backend/models/Transaction.js:88-94 | with no purchase of the year yet, the number is `<year>-00001` |
| Creation.CreateStep | backend/controllers/transactionController.js:7-167 | the handler's steps compute exactly the create effect |
| StockEffects.SaleFold | backend/controllers/transactionController.js:368-378 | a failed pass is an insufficient-stock error for a product one of the lines names |
| StockEffects.DemandUnreferenced | backend/controllers/transactionController.js:368-378 | a row no line names is asked for nothing |
| StockEffects.SaleEffect | backend/controllers/transactionController.js:368-378 | a successful sale/outbound pass takes from every row exactly the total its lines ask for |
| StockEffects.SaleNeverNegative | backend/controllers/transactionController.js:368-378 | after a successful pass no row a line names has negative stock |
| StockEffects.SaleOkIff | backend/controllers/transactionController.js:368-378 | with non-negative quantities the pass succeeds exactly when every named row covers its total demand |
| StockEffects.DemandNonNeg | backend/controllers/transactionController.js:368-378 | non-negative quantities give a non-negative demand |
| StockEffects.ApplySale | backend/controllers/transactionController.js:368-378 | the loop computes the sale/outbound pass |
| StockEffects.AddAt | backend/controllers/transactionController.js:528-552 | when the code has a row at the destination, that row alone gains q; otherwise the table is the old one followed by a copy of the source at the destination holding q |
| StockEffects.AddAtSum | backend/controllers/transactionController.js:528-552 | adding q to a code's destination row raises that code's total by q and leaves other codes' totals alone |
| StockEffects.AddAtKeepsSound | backend/models/Product.js:16 | adding at a destination keeps the (itemCode, location) index unique and references valid |
| StockEffects.AddAtKeepsUnique | backend/controllers/transactionController.js:528-552 | adding at a destination keeps the (itemCode, location) index unique |
| StockEffects.AddAtSlot | backend/controllers/transactionController.js:528-552 | afterwards the code has a row at the destination; filled slots stay where they were; exactly the code's destination slot gains q |
| StockEffects.FindSelf | backend/models/Product.js:16 | under the unique index a row is the one found for its own code and location |
| StockEffects.TransferFold | backend/controllers/transactionController.js:518-554 | a failed transfer is an insufficient-stock error for a product one of the lines names |
| StockEffects.MoveSlot | backend/controllers/transactionController.js:519-552 | under the unique index one line takes q off the source slot and adds q to the code's destination slot; every other slot keeps its stock and no filled slot empties |
| StockEffects.MoveKeepsUnique | backend/controllers/transactionController.js:519-552 | one transfer line keeps the (itemCode, location) index unique |
| StockEffects.TransferFoldAppend | backend/controllers/transactionController.js:518-554 | running the pass over a + b is running it over a and then over b, stopping at the first error |
| StockEffects.ShortFails | backend/controllers/transactionController.js:522-523 | the first line that finds its row short aborts the pass with that product's error |
| StockEffects.TransferFailsIff | backend/controllers/transactionController.js:518-554 | the transfer fails exactly when some line finds its row short after the lines before it, and then with that line's product |
| StockEffects.TransferOkIff | backend/controllers/transactionController.js:518-554 | with every line's row away from the destination and non-negative quantities, the transfer succeeds exactly when every named row covers all the lines take from it |
| StockEffects.TransferLikeSale | backend/controllers/transactionController.js:518-554 | away from the destination a transfer checks its source rows exactly as a sale pass on the same rows does |
| StockEffects.MoveLikeTake | backend/controllers/transactionController.js:519-526 | one transfer line away from the destination changes the rows away from it as one sale line does |
| StockEffects.FlowsGrown | backend/controllers/transactionController.js:518-554 | stock-only changes and rows appended at the destination leave what the lines take and deliver unchanged |
| StockEffects.DemandIsOutflow | backend/controllers/transactionController.js:518-554 | under the unique index what the lines take from a row is what they take out of its slot |
| StockEffects.OutflowEmpty | backend/controllers/transactionController.js:518-554 | nothing is taken out of a slot no row sits in |
| StockEffects.TransferSlots | backend/controllers/transactionController.js:518-554 | a successful transfer keeps the index unique, changes only stocks and appends only at the destination; every slot loses what the lines take out of it and the code's destination slot gains what arrives under that code |
| StockEffects.TransferOpensSlots | backend/controllers/transactionController.js:528-552 | afterwards every item code a line carries has a row at the destination |
| StockEffects.TransferRows | backend/controllers/transactionController.js:518-554 | a successful transfer: every existing row loses what the lines take from it and, at the destination, gains what arrives under its code; each appended row sits at the destination in a slot that was empty and holds what arrived under its code |
| StockEffects.MoveConserves | backend/controllers/transactionController.js:518-554 | one transfer line keeps every item code's total stock |
| StockEffects.TransferConserves | backend/controllers/transactionController.js:518-554 | a successful transfer keeps every item code's total stock across locations |
| StockEffects.TransferNeverNegative | backend/controllers/transactionController.js:518-554 | with non-negative quantities a successful transfer leaves no negative stock anywhere |
| StockEffects.TransferKeepsSound | backend/controllers/transactionController.js:518-554 | a transfer keeps the product table sound |
| StockEffects.MoveKeepsSound | backend/controllers/transactionController.js:518-554 | one transfer line keeps the product table sound |
| StockEffects.ApplyTransfer | backend/controllers/transactionController.js:518-554 | the loop computes the transfer pass, whose failure, per-row and per-slot results are stated by `TransferFailsIff`, `TransferRows` and `TransferSlots` |
| StockEffects.MoveOne | backend/controllers/transactionController.js:519-552 | the loop body computes `MoveStock`: the source row loses q, the code's destination row gains q or is created with q, nothing else changes |
| StockEffects.AddStock | backend/controllers/transactionController.js:528-552 | the find-or-create computes `AddAt`: the existing destination row alone gains q, or one row holding q is appended |
| StockEffects.InboundEffect | backend/controllers/transactionController.js:465-504 | approving an inbound whose lines sit at the destination adds to every row exactly what its lines book |
| StockEffects.InboundSlots | backend/controllers/transactionController.js:465-504 | under the unique index every slot at the destination gains what was booked under its code, other slots keep their stock, and only stocks change or rows at the destination are added |
| StockEffects.InboundRows | backend/controllers/transactionController.js:465-504 | an existing row at the destination gains what was booked under its code, other rows are unchanged, and each appended row sits at the destination in a slot that was empty and holds what was booked under its code |
| StockEffects.CancelEffect | backend/controllers/transactionController.js:630-653 | when every line points at an existing row at the destination (`AtDestination`, as the lines of an inbound made by a purchase approval do), cancelling takes off every row exactly what the lines booked onto it, without a negativity check |
| StockEffects.CancelRows | backend/controllers/transactionController.js:630-653 | for lines pointing anywhere, under the unique index alone: no row is added, a row at the destination loses what the lines book under its item code, and every other row keeps its stock |
| StockEffects.CancelUndoesInbound | backend/controllers/transactionController.js:630-653 | cancelling after an inbound approval restores every row exactly |
| StockEffects.StockOnlyChange | backend/models/Product.js:16 | rows changed only in stock keep the unique index and the destination placement |
| StockEffects.InboundKeepsSound | backend/controllers/transactionController.js:465-504 | inbound approval keeps the product table sound |
| StockEffects.CancelKeepsSound | backend/controllers/transactionController.js:630-653 | the cancel pass keeps the product table sound and its size |
| StockEffects.ApplyInbound | backend/controllers/transactionController.js:465-504 | the loop computes the inbound pass |
| StockEffects.ApplyCancel | backend/controllers/transactionController.js:630-653 | the loop computes the cancel pass |
| StockEffects.InboundLine | backend/controllers/transactionController.js:430-440 | an inbound line points at the destination row, expects the ordered quantity and has received 0 |
| StockEffects.ProvisionFacts | backend/controllers/transactionController.js:393-441 | provisioning changes no existing row, adds only empty rows at the destination, keeps the table sound, and emits lines at the destination expecting the ordered quantities |
| StockEffects.ProvisionLines | backend/controllers/transactionController.js:393-441 | one inbound line per purchase line, in order, each the purchase line re-pointed at a destination row of the same item code |
| StockEffects.ProvisionKeepsStock | backend/controllers/transactionController.js:393-441 | provisioning keeps every item code's total stock |
| StockEffects.ProvisionPrefix | backend/controllers/transactionController.js:393-441 | provisioning only appends rows, each with stock 0 at the destination |
| StockEffects.ZeroTailSum | backend/controllers/transactionController.js:409-424 | rows added with stock 0 change no total |
| StockEffects.ApplyProvision | backend/controllers/transactionController.js:393-441 | the loop computes the provisioned rows and the inbound lines |
| StockEffects.ProvisionLine | backend/controllers/transactionController.js:394-440 | one loop iteration computes one line's provisioning |
| StockEffects.ProvisionUnfold | backend/controllers/transactionController.js:393-441 | the pass on lines i.. is line i's step followed by the pass on the rest |
| Approval.ApproveOutcome | backend/controllers/transactionController.js:356-363 | not found exactly for an unknown id, already processed exactly for a non-pending record; an approval stores approver and time; stock errors only for sale, outbound and transfer |
| Approval.ApproveSale | backend/controllers/transactionController.js:368-378 | with non-negative quantities approval succeeds exactly when every named row covers its demand; then each row loses exactly its demand and none ends negative |
| Approval.ApproveSaleRows | backend/controllers/transactionController.js:368-378 | for any quantities, negative ones included, a successful sale or outbound approval approves only that record and takes from every row exactly its demand |
| Approval.ApproveTransferFails | backend/controllers/transactionController.js:518-554 | a transfer approval fails exactly when some line finds its row short, with that line's product; away from the destination with non-negative quantities, it succeeds exactly when every named row covers its demand |
| Approval.ApproveTransferRows | backend/controllers/transactionController.js:518-554 | a successful transfer approval approves the record only, and every existing row loses its demand and gains, at the destination, what arrived under its code; appended rows are at the destination and every carried code ends up with a row there |
| Approval.ApproveTransferConserves | backend/controllers/transactionController.js:518-554 | a transfer approval keeps every item code's total stock |
| Approval.ApprovePurchase | backend/controllers/transactionController.js:380-452 | moves no stock; with a linked inbound already there only the purchase is approved; otherwise existing rows stay, new rows are empty at the destination, and one pending inbound is added at the next id, linked to the purchase, with one line per purchase line at a destination row of the same item code, expecting its quantity and receiving 0 |
| Approval.ApproveInbound | backend/controllers/transactionController.js:454-515 | always succeeds on a pending inbound; approves it and a still-pending linked purchase and changes no other record; under the unique index every destination row gains what was booked under its code, new rows hold the booked amount, no other row changes |
| Approval.CancelOutcome | backend/controllers/transactionController.js:611-669 | succeeds exactly for an approved purchase; it becomes cancelled with its time, the first linked inbound is deleted, and stock moves only when that inbound was approved |
| Approval.CancelReversesRows | backend/controllers/transactionController.js:626-653 | when the first linked inbound was approved, each row at its destination loses what the inbound's lines book under the row's item code, wherever those lines point; every other row keeps its stock and no row is added |
| Approval.FirstLinkedSame | backend/controllers/transactionController.js:621-624 | the linked-inbound search depends only on which ids are linked inbounds |
| Approval.ApproveInboundThenCancel | backend/controllers/transactionController.js:465-669 | approving a pending linked inbound and then cancelling the purchase restores every product row, removes the inbound and cancels the purchase |
| Approval.ApprovePurchaseThenCancel | backend/controllers/transactionController.js:380-669 | approving a purchase and cancelling it before its inbound is approved moves no stock and leaves only the cancelled purchase changed |
| Approval.RestockKeepsSound | backend/models/Product.js:16 | rows changed only in stock keep the table sound |
| Approval.ApproveKeepsValid | backend/controllers/transactionController.js:345-579 | a successful approval keeps the stored-data invariant and the table sound |
| Approval.CancelKeepsValid | backend/controllers/transactionController.js:604-688 | a successful cancel keeps the stored-data invariant and the table sound |
| Approval.ApproveStep | backend/controllers/transactionController.js:345-579 | the handler's loops compute exactly the approval effect |
| Approval.CancelStep | backend/controllers/transactionController.js:604-688 | the handler's loops compute exactly the cancel effect |
| Lifecycle.DeleteDraftEffect | backend/controllers/transactionController.js:739-759 | succeeds exactly for a draft and removes only that record; any other status is refused as not a draft |
| Lifecycle.DraftRouteIsResubmit | backend/controllers/transactionController.js:691-736 | moving to draft and submitting ends where resubmitting does |
| Lifecycle.FollowsDiagram | backend/controllers/transactionController.js:581-783 | every handler succeeds only on a move the status diagram allows and then sets the diagram's status; every allowed move except approval succeeds |
| Lifecycle.RejectedIsFinal | backend/controllers/transactionController.js:589-594 | every command on a rejected record fails |
| Lifecycle.StatusOnly | backend/controllers/transactionController.js:581-783 | reject, submit, move-to-draft and resubmit change only the record's status fields |
| Lifecycle.RunKeepsValid | backend/controllers/transactionController.js:345-783 | every successful command keeps the stored-data invariant and the table sound |
| Lifecycle.FirstLineFrom | backend/controllers/transactionController.js:248-250 | the first line for the product at or after k, or none when no later line names it |
| Lifecycle.FirstLineSame | backend/controllers/transactionController.js:248-250 | the search depends only on the lines' products |
| Lifecycle.ApplyReceivedEffect | backend/controllers/transactionController.js:247-255 | the first line of each updated product gets the last update's value; every other line is unchanged |
| Lifecycle.UpdateInboundOutcome | backend/controllers/transactionController.js:235-269 | succeeds exactly for an inbound, at any status; only that record's received quantities and note change, the lines becoming `ApplyReceived` of the updates when given and the note the given one, or the old one when none is given |
| Lifecycle.UpdateInboundKeepsValid | backend/controllers/transactionController.js:235-269 | the edit keeps the stored-data invariant |
| Lifecycle.UpdateInboundStep | backend/controllers/transactionController.js:235-269 | the handler's loops compute exactly the edit |
| Lifecycle.FindIndex | backend/controllers/transactionController.js:248-250 | the index of the first line for the product, or the length when there is none |
| Lifecycle.UpdatePurchaseOutcome | backend/controllers/transactionController.js:271-342 | succeeds exactly for a pending or draft purchase whose new products, destination and company exist; only that record changes: a non-empty product list gives new lines priced as at creation, an absent or empty one keeps the old lines, a given destination, company, deliverTo or deliveryDate is stored, an absent one keeps the old value, and every other field stays as it was |
| Lifecycle.UpdatePurchaseKeepsValid | backend/controllers/transactionController.js:271-342 | the edit keeps the stored-data invariant |
| Listing.ListBelow | backend/controllers/transactionController.js:175-189 | only matching records, each as stored, in strictly decreasing id order |
| Listing.ListBelowComplete | backend/controllers/transactionController.js:175-189 | no matching record is left out |
| Listing.Redact | backend/controllers/transactionController.js:192-199 | redaction keeps the number of lines |
| Listing.ListingFacts | backend/controllers/transactionController.js:170-206 | the listing holds exactly the matching records, newest first; a non-admin sees only their own |
| Listing.ListingRedacts | backend/controllers/transactionController.js:191-199 | an admin sees records as stored; anyone else sees every line without its cost and selling price and all else as stored |
| Listing.NewestFirst | backend/controllers/transactionController.js:189 | when creation times grow with ids the listing is sorted newest first by creation time |
| Listing.GetTransactions | backend/controllers/transactionController.js:170-206 | the handler's loops compute the listing |
| Catalog.FindFrom | backend/controllers/productController.js:305-308 | the first row at or after k at that code and location, or none when there is no such row |
| Catalog.FindAt | backend/controllers/productController.js:305-308 | the first row at that code and location, or none when there is no such row |
| Catalog.SetStock | backend/controllers/transactionController.js:375-376 | one row's stock changes, every other row stays |
| Catalog.FindAtSame | backend/controllers/transactionController.js:528-531 | the find-by-(code, location) depends only on the codes and locations of the rows |
| Catalog.FindAtAppend | backend/controllers/transactionController.js:528-531 | appending a row changes the find only when nothing was found before and the new row matches |
| Catalog.SetStockSlot | backend/controllers/transactionController.js:524-535 | a stock change moves no row between slots; the slot whose first row it is now holds the new stock, every other slot keeps its own |
| Catalog.SumCodeSetStock | backend/controllers/transactionController.js:518-554 | changing a row's stock moves its code's total by the difference and no other total |
| Catalog.SumCodeAppend | backend/controllers/transactionController.js:537-551 | an appended row adds its stock to its code's total only |
| Catalog.AppendFreshKeepsUnique | backend/models/Product.js:16 | adding a row for a free (code, location) slot keeps the index unique |
| Catalog.SetStockKeepsUnique | backend/models/Product.js:16 | a stock change keeps the index unique |
| Catalog.CreateProductCheck | backend/controllers/productController.js:25-41 | passes exactly when category and location exist, the location is not HQ and the slot is free; HQ is reported exactly for a valid category and an HQ location |
| Catalog.CreateKeepsUnique | backend/controllers/productController.js:34-55 | a product that passes the guards keeps the (itemCode, location) index unique |
| Catalog.UpdateProductCheck | backend/controllers/productController.js:93-115 | passes exactly when category and location exist, the location is not HQ, no other row holds the slot and the id exists |
| Catalog.UpdateKeepsUnique | backend/controllers/productController.js:101-136 | an overwrite that passes the guards keeps the index unique |
| Catalog.CountCode | backend/controllers/productController.js:259-266 | the count is 0 exactly when no row has the code |
| Catalog.Recode | backend/controllers/productController.js:259-262 | every row with the old code gets the new one; all other rows are unchanged |
| Catalog.RecodeKeepsUnique | backend/controllers/productController.js:253-262 | renaming to a code no row uses keeps the index unique |
| Catalog.RecodeRoundTrip | backend/controllers/productController.js:259-262 | renaming to a fresh code and back restores the table |
| Catalog.RecodeMovesStock | backend/controllers/productController.js:259-262 | the new code's total is the old code's total, the old code is left with 0, other codes keep theirs |
| Catalog.FindName | backend/controllers/productController.js:296-300 | the first index of the name, or none when the name is absent |
| Catalog.FindOrAdd | backend/controllers/productController.js:296-300 | the name's id, found or appended; a known name adds nothing |
| Catalog.Upsert | backend/controllers/productController.js:305-337 | updates exactly when the slot is taken; fails exactly when an insert lacks its required description, and then changes nothing |
| Catalog.UpsertFacts | backend/controllers/productController.js:305-337 | an upsert keeps the index unique and references valid, grows the table by at most one row and keeps the matched row's code and location |
| Catalog.ImportStep | backend/controllers/productController.js:290-337 | a row is skipped exactly when its trimmed item code or name is empty |
| Catalog.StepUnfold | backend/controllers/productController.js:293-337 | a row at HQ is skipped after its names are added; any other row is upserted |
| Catalog.StepFacts | backend/controllers/productController.js:290-337 | one iteration keeps the index, the references, the existing names and the HQ rows, and adds no row at HQ |
| Catalog.PlaceFacts | backend/controllers/productController.js:302-337 | an upsert at a non-HQ location keeps the same facts |
| Catalog.ImportFold | backend/controllers/productController.js:287-342 | a completed import counts updated plus inserted as exactly the rows it did not skip |
| Catalog.Continue | backend/controllers/productController.js:310-337 | a completed run had no failed row and counted this row once unless it was skipped |
| Catalog.ImportFacts | backend/controllers/productController.js:290-346 | the import keeps the index unique, even when it stops half-way; HQ rows are never written and no added row is at HQ |
| Catalog.VisibleBelow | backend/controllers/productController.js:66-68 | exactly the visible ids below n, in table order |
| Catalog.GetProducts | backend/controllers/productController.js:63-77 | an admin sees every row; anyone else sees exactly the rows at their own location |
| Catalog.ProductTable.constructor | backend/models/Product.js:16 | an empty table over the given locations and categories satisfies the invariant |
| Catalog.ProductTable.CreateProduct | backend/controllers/productController.js:11-61 | fails exactly when a guard fails, with that error and no change; otherwise appends exactly the new row and keeps the invariant |
| Catalog.ProductTable.UpdateProduct | backend/controllers/productController.js:78-143 | fails exactly when a guard fails, with that error and no change; otherwise overwrites that one row in place and keeps the invariant |
| Catalog.ProductTable.UpdateItemCodeAll | backend/controllers/productController.js:243-276 | a blank code, a taken code and an unknown old code are refused without change; otherwise every matching row is renamed and the count returned |
| Catalog.ProductTable.ImportRowInto | backend/controllers/productController.js:290-337 | one loop body leaves the state of one import step |
| Catalog.ProductTable.UpsertInto | backend/controllers/productController.js:305-337 | the table after the upsert |
| Catalog.ProductTable.ImportProducts | backend/controllers/productController.js:278-347 | the table ends as the import leaves it, also when it fails; success returns the two counts; a failure is a validation error |
| TransactionStore.Store.constructor | backend/models/Transaction.js:4 | an empty record table over a sound product table satisfies the invariant |
| TransactionStore.Store.Commit | backend/controllers/transactionController.js:557-563 | the session's writes become the database state |
| TransactionStore.Store.CreateTransaction | backend/controllers/transactionController.js:7-167 | commits the create effect when it succeeds, otherwise leaves everything unchanged; keeps the invariant |
| TransactionStore.Store.ApproveTransaction | backend/controllers/transactionController.js:345-579 | all-or-nothing approval: the new state and the approved record, or the error and no change |
| TransactionStore.Store.CancelTransaction | backend/controllers/transactionController.js:604-688 | all-or-nothing cancellation: the new state and the cancelled record, or the error and no change |
| TransactionStore.Store.ChangeStatus | backend/controllers/transactionController.js:581-783 | reject, submit, move-to-draft and resubmit: the new status, or the error and no change |
| TransactionStore.Store.DeleteDraftTransaction | backend/controllers/transactionController.js:739-759 | the draft is gone, or the error and no change |
| TransactionStore.Store.UpdateInboundTransaction | backend/controllers/transactionController.js:235-269 | the edited inbound, or the error and no change |
| TransactionStore.Store.UpdatePurchaseTransaction | backend/controllers/transactionController.js:271-342 | the edited purchase, or the error and no change |
| TransactionStore.Store.ListTransactionsFor | backend/controllers/transactionController.js:170-206 | the listing of the current records for the caller |
| PendingStock.Signed | frontend/src/pages/Products.jsx:100-109 | sale and outbound subtract at the single-or-source location; inbound adds at the single-or-destination one; transfer subtracts at the source and adds at the destination, netting zero when they agree; other types add nothing |
| PendingStock.PageItemDelta | frontend/src/pages/Products.jsx:89-95 | a line that does not name the product's id contributes nothing |
| PendingStock.PagePending | frontend/src/pages/Products.jsx:78-79 | 0 when the product or the location is missing |
| PendingStock.PagePendingAdjustment | frontend/src/pages/Products.jsx:78-113 | the nested loops compute the page's adjustment |
| PendingStock.PageTxPending | frontend/src/pages/Products.jsx:84-110 | the inner loop computes one transaction's contribution |
| PendingStock.PageAvailableStock | frontend/src/pages/Products.jsx:115-116 | stock plus the page's adjustment |
| PendingStock.TabPending | frontend/src/components/ProductTab.jsx:356-360 | 0 when the product or the location is missing |
| PendingStock.TabPendingAdjustment | frontend/src/components/ProductTab.jsx:356-405 | the nested loops compute the tab's adjustment |
| PendingStock.TabTxPending | frontend/src/components/ProductTab.jsx:363-401 | the inner loop computes one transaction's contribution |
| PendingStock.TabAvailableStock | frontend/src/components/ProductTab.jsx:407-410 | stock plus the tab's adjustment |
| PendingStock.PageOverAppend | frontend/src/pages/Products.jsx:83-111 | the adjustment over two loaded lists is the sum over each |
| PendingStock.TabOverAppend | frontend/src/components/ProductTab.jsx:356-405 | the same for the tab |
| PendingStock.AvailableAfterLoading | frontend/src/pages/Products.jsx:115-116 | loading one more transaction moves the available stock by exactly its lines' contribution, on both pages |
| PendingStock.PageTransferNetsZero | frontend/src/pages/Products.jsx:106-109 | a transfer whose two ends agree nets zero |
| PendingStock.TabTransferNetsZero | frontend/src/components/ProductTab.jsx:356-405 | the same on the tab |
| PendingStock.PageOtherTypeNothing | frontend/src/pages/Products.jsx:100-109 | a purchase or an unknown type contributes nothing |
| PendingStock.PageOtherProductNothing | frontend/src/pages/Products.jsx:89-95 | lines that name other products contribute nothing |
| PendingStock.PageOutgoingLowers | frontend/src/pages/Products.jsx:100-102 | with only sales and outbounds of non-negative quantity the available stock is at most the stock |
| PendingStock.OverOutgoingLowers | frontend/src/pages/Products.jsx:100-102 | the same for the adjustment over the list: it is at most 0 |
| PendingStock.TxOutgoingLowers | frontend/src/pages/Products.jsx:100-102 | one outgoing transaction's contribution is at most 0 |
| PendingStock.PagesAgree | frontend/src/components/ProductTab.jsx:356-405 | for a product without an item code and plainly shaped transactions the two pages agree |
| PendingStock.TxAgree | frontend/src/components/ProductTab.jsx:356-405 | the same for one transaction |
| PendingStock.TransferByCode | frontend/src/components/ProductTab.jsx:379-385 | a transfer line naming the destination row lowers the tab's figure at the source by q and leaves the page's at 0 |
| CsvLine.RemoveQuotes | frontend/src/components/ProductTab.jsx:130 | the result holds no quote, keeps every other character the input has and none it lacks, and is shorter by the number of quotes |
| CsvLine.TrimAll | frontend/src/components/ProductTab.jsx:104 | every field trimmed, in place |
| CsvLine.ParseCsvLine | frontend/src/components/ProductTab.jsx:85-107 | the character loop computes the parsed line |
| CsvLine.ScanCounts | frontend/src/components/ProductTab.jsx:90-101 | the scan cuts one field per unquoted comma, and its quote flag is the parity of the quotes seen |
| CsvLine.ScanDropsQuotes | frontend/src/components/ProductTab.jsx:93-94 | no field the scan builds holds a quote |
| CsvLine.ScanJoin | frontend/src/components/ProductTab.jsx:90-101 | joining the raw fields with commas gives the line without its quotes, so a comma inside quotes stays in its field |
| CsvLine.ParseLineFacts | frontend/src/components/ProductTab.jsx:85-107 | one field more than unquoted commas (never empty), no quotes, every field trimmed, each the trimmed raw piece |
| CsvLine.RemoveQuotesNoop | frontend/src/components/ProductTab.jsx:177 | quote removal leaves a quote-free string as it is |
| CsvLine.RemoveQuotesAppend | frontend/src/components/ProductTab.jsx:130 | quote removal works piece by piece: removing from a + b is removing from a, then from b |
| CsvLine.RemoveQuotesChar | frontend/src/components/ProductTab.jsx:130 | a single quote is dropped and any other character kept |
| CsvLine.StripAfterParse | frontend/src/components/ProductTab.jsx:177 | the import's quote removal after parsing changes nothing |
| CsvLine.SplitLines | frontend/src/components/ProductTab.jsx:121 | splitting yields at least one piece |
| CsvLine.SplitLinesRoundTrip | frontend/src/components/ProductTab.jsx:121 | joining the pieces with line breaks gives the text back |
| CsvLine.SplitLinesNoBreak | frontend/src/components/ProductTab.jsx:121 | no piece holds a line break |
| CsvLine.NonBlank | frontend/src/components/ProductTab.jsx:121 | every kept line is a non-blank input line, and every non-blank input line is kept |
| CsvLine.NonBlankAppend | frontend/src/components/ProductTab.jsx:121 | the filter works piece by piece and keeps the order of the lines |
| CsvLine.NonBlankLine | frontend/src/components/ProductTab.jsx:121 | a single blank line is dropped and any other kept |
| CsvImport.FirstIndex | frontend/src/components/ProductTab.jsx:151 | the first header cell at or after k among the spellings, or none when there is none |
| CsvImport.ColumnsFrom | frontend/src/components/ProductTab.jsx:149-155 | a visited field is mapped exactly when a spelling is in the header, to its first column |
| CsvImport.Columns | frontend/src/components/ProductTab.jsx:149-155 | every field is mapped exactly when one of its spellings is in the header, to the first such column |
| CsvImport.FindIndex | frontend/src/components/ProductTab.jsx:151 | the loop computes the first matching index |
| CsvImport.MapColumns | frontend/src/components/ProductTab.jsx:149-155 | the loop computes the column map |
| CsvImport.Missing | frontend/src/components/ProductTab.jsx:161-162 | exactly the required fields without a column |
| CsvImport.NamesOf | frontend/src/components/ProductTab.jsx:177-180 | one cell per data line, the field's cell or "" |
| CsvImport.CollectFacts | frontend/src/components/ProductTab.jsx:176-189 | the collected names are distinct, non-empty, unknown and taken from the rows |
| CsvImport.CollectComplete | frontend/src/components/ProductTab.jsx:176-189 | every non-empty unknown name of a row is collected |
| CsvImport.FirstPass | frontend/src/components/ProductTab.jsx:176-189 | the loop collects the new location and category names |
| CsvImport.NamesOfPrefix | frontend/src/components/ProductTab.jsx:176-189 | the names of one more line extend the names of the earlier ones |
| CsvImport.Resolve | frontend/src/components/ProductTab.jsx:195-234 | a name gets the id the server returned when it returned one; every other name keeps its entry |
| CsvImport.CreateNames | frontend/src/components/ProductTab.jsx:195-234 | the creation loop computes the resolved map |
| CsvImport.RealOrZero | frontend/src/components/ProductTab.jsx:252-253 | a price that does not parse, or whose cell is missing or empty, becomes 0; a parsed one is kept |
| CsvImport.MapRow | frontend/src/components/ProductTab.jsx:241-287 | a kept row's product has item code, name, unit, location and category |
| CsvImport.MapRowFacts | frontend/src/components/ProductTab.jsx:241-287 | skipped exactly when all cells are empty, the code or name is empty, or the location or category does not resolve; a kept row carries its cells, the resolved ids and "pcs" for a missing unit; a missing, empty or unparsable price is 0 and a parsed one is kept |
| CsvImport.DigitCell | frontend/src/components/ProductTab.jsx:254 | a stock cell of plain digits is read as its decimal value, and a `0x` cell of hexadecimal digits as its hexadecimal value |
| CsvImport.MapRowsComplete | frontend/src/components/ProductTab.jsx:237-288 | at most one product per data line, each complete |
| CsvImport.Mapped | frontend/src/components/ProductTab.jsx:237-288 | one mapping per data line |
| CsvImport.MapRowsFromRows | frontend/src/components/ProductTab.jsx:237-288 | every product is the mapping of one of the rows |
| CsvImport.SecondPass | frontend/src/components/ProductTab.jsx:237-288 | the loop computes the products in row order |
| CsvImport.Proceed | frontend/src/components/ProductTab.jsx:290-294 | the only failure after the header is accepted is no valid products |
| CsvImport.HandleImport | frontend/src/components/ProductTab.jsx:118-294 | the handler's steps compute the import plan |
| CsvImport.ImportRows | frontend/src/components/ProductTab.jsx:170-294 | the passes after the header compute the plan |
| CsvImport.ImportNeedsTwoLines | frontend/src/components/ProductTab.jsx:123-127 | the import stops as empty exactly when fewer than two non-blank lines remain |
| CsvImport.ImportNeedsColumns | frontend/src/components/ProductTab.jsx:160-167 | the import stops before any request exactly when a required column is unmapped, naming exactly the missing ones |
| CsvImport.MissingIff | frontend/src/components/ProductTab.jsx:161-163 | the missing list is non-empty exactly when some required field is unmapped |
| CsvImport.ImportGoesAhead | frontend/src/components/ProductTab.jsx:149-294 | when the import goes ahead every required column was found, the names it creates are new, distinct and non-empty, and it sends between one and one-per-data-line complete products |

## Left out

- Network, I/O and UI are not modelled: the HTTP plumbing, `alert`, `console`, `FileReader`, React state and rendering.
  The client import ends at the plan of requests it would send. The `Promise.allSettled` loop that posts the products is not modelled.
- The server's answers to the creation requests are a parameter of the client import, `createdLocations` and `createdCategories`.
- `parseFloat` is a parameter of the client import; `Number(...)` on the server arrives already parsed as an option.
- The clock, the year, the acting user and ObjectIds are parameters. Ids are table indices and counters.
- Mongo sessions, concurrency and isolation are left out: each handler is atomic, computing on the current state and committing on success. The PO-number race under concurrent creation is not modelled.
- Floating-point rounding of `price * (1 - discount / 100)` is left out: prices are `real`.
- The transactions are listed in decreasing id order, standing for `sort({createdAt: -1})`. `Listing.NewestFirst` connects the two when creation times grow with ids.
- The `populate` calls of the listing are not modelled: records are returned as stored.
- Lifecycle.UpdatePurchaseEffect: a `deliverTo: null` in the request is not modelled. The handler stores any value other than `undefined` (transactionController.js:328), null included; the model's `deliverTo` is an optional string, so it cannot carry null.
- getTransactionById is a lookup with population and is not part of the core modelled here. The same holds for deleteProduct, exportProducts, getProductByCode, the category, location and company controllers, and authentication.
- The uploaded-file handling of importProducts is left out: csvtojson, `fs`, and the 400 for a missing file. The model starts from the parsed rows.
- The product schema has no `unitMeasure` field, so the server model drops it on write. The client import still sends it.
- The Mongoose schema validation of a product is modelled as the required `productName` and `productDescription` being non-empty (backend/models/Product.js:4-5), in createProduct and importProducts. Types, casts and the required ids are not checked: the model's ids are indices that exist.
- StockEffects.AddAt: a destination row it creates always succeeds; `ProductModel.create` would refuse a copy whose source row has an empty name or description and fail the session, and this is not modelled.
- StockEffects.Provision: as for `AddAt`, the destination rows it creates are never refused by the schema.
- Creation.CreateEffect: the provisioned destination rows of a transfer are written before the record in the source and stay when the record is then refused (a taken poNumber cannot happen for a transfer, so only a failing save would show it); the model commits them together with the record. Their schema refusal is not modelled either.
- Approval.ApproveEffect: a transfer or purchase approval never fails on the schema refusing a created destination row.
- Text.Lower: lowers only ASCII capitals; `toLowerCase` also lowers the rest of Unicode. The header names it is applied to are ASCII.
- StockEffects.TransferRows, StockEffects.TransferSlots, StockEffects.InboundRows, StockEffects.InboundSlots, StockEffects.ProvisionLines, Approval.ApproveTransferRows and Approval.ApproveInbound (its per-row clause): they assume every line names an existing row (`StockEffects.LinesExist`). The stored-data invariant does not carry this, as products could be deleted outside the core.
- JavaScript value coercion is modelled on the shapes the pages read. A reference is absent, a bare id or a populated document. A missing number reads as 0, and a document used as a string is `[object Object]`.
- `TransactionStore.Store` does not model the transaction router, which backend/index.js does not mount.
- A taken poNumber at creation is `DuplicatePoNumber` (500), standing for the unique-index violation. Under the stored-data invariant the hook only produces one when a manual poNumber exists.
- The 500 answers are not distinguished: every thrown error maps to 500 through `Common.HttpStatus`, as the catch blocks do.
- Listing.ListingRedacts: its contract follows from the definition of the listing without further proof; `Listing.ListingFacts` carries the proved part.
- Listing.Redact: its contract states only that the number of lines is kept; what the kept lines hold is stated by `Listing.ListingRedacts`.
- Text.ParseIntPrefix: its contract states only the sign; its value on digit strings is stated by `Text.ParseDigits` and `Text.PaddedRoundTrip`.
- StockEffects.SaleFold: its own contract states only the error case; `StockEffects.SaleEffect` and `StockEffects.SaleOkIff` state the rest.
- StockEffects.TransferFold: its own contract states only the error case; `StockEffects.TransferFailsIff`, `StockEffects.TransferRows` and `StockEffects.TransferSlots` state the rest.

=== FILE: approval.dfy ===
/** approveTransaction and cancelTransaction
    (backend/controllers/transactionController.js:345-579 and 604-688).
    Both run inside a database session: every write lands together on
    commit, and a thrown error aborts them all, so each is a function from
    the database to either a new database or an error. */
module Approval {
  import opened Common
  import opened TransactionModel
  import opened Catalog
  import opened StockEffects
  import opened LedgerState

  /** The record after approval: status, approver and time. */
  function Approve(t: Transaction, user: UserId, now: Time): Transaction {
    t.(status := Approved, approvedBy := Some(user), approvedAt := Some(now))
  }

  /** The inbound a purchase approval creates: pending, linked to the
      purchase, with the purchase's company, destination, requester and
      delivery details, and the provisioned lines. */
  function InboundFor(t: Transaction, id: TxId, lines: seq<Line>, now: Time): Transaction {
    Transaction(Inbound, None, t.company, None, t.toLocation, Some(id), lines, t.requestedBy,
                None, Pending, t.deliverTo, t.deliveryDate, "", None, None, None, now)
  }

  /** An inbound's approval also approves the record it is linked to, when
      that one is still pending. */
  function CloseLinked(txs: map<TxId, Transaction>, link: Option<TxId>, user: UserId, now: Time)
    : map<TxId, Transaction>
  {
    if link.Some? && link.value in txs && txs[link.value].status == Pending
    then txs[link.value := Approve(txs[link.value], user, now)]
    else txs
  }

  /** The whole approval. Only a pending record can be approved. Sale and
      outbound take the stock off; transfer moves it; a purchase creates its
      linked inbound (with destination rows) unless one exists; an inbound
      books the received quantities at the destination. */
  function ApproveEffect(db: Db, id: TxId, user: UserId, now: Time): Result<Db, Error>
    requires Routed(db.txs)
  {
    if id !in db.txs then Err(TransactionNotFound)
    else
      var t := db.txs[id];
      if t.status != Pending then Err(AlreadyProcessed)
      else
        var done := Approve(t, user, now);
        if t.txType == Sale || t.txType == Outbound then
          match SaleFold(db.rows, t.lines)
          case Err(e) => Err(e)
          case Ok(rows) => Ok(db.(rows := rows, txs := db.txs[id := done]))
        else if t.txType == Transfer then
          match TransferFold(db.rows, t.lines, t.toLocation.value)
          case Err(e) => Err(e)
          case Ok(rows) => Ok(db.(rows := rows, txs := db.txs[id := done]))
        else if t.txType == Purchase then
          if FirstLinked(db.txs, id, 0, db.nextId).Some? then Ok(db.(txs := db.txs[id := done]))
          else
            var step := Provision(db.rows, t.lines, t.toLocation.value);
            Ok(Db(db.txs[db.nextId := InboundFor(t, id, step.1, now)][id := done], step.0, db.nextId + 1))
        else
          var rows := InboundFold(db.rows, t.lines, t.toLocation.value);
          Ok(db.(rows := rows, txs := CloseLinked(db.txs, t.linkedTransaction, user, now)[id := done]))
  }

  /** Only a pending record is approved, and an approved one carries its
      approver and time; a failed approval is one of the three errors. */
  lemma ApproveOutcome(db: Db, id: TxId, user: UserId, now: Time)
    requires Routed(db.txs)
    ensures ApproveEffect(db, id, user, now) == Err(TransactionNotFound) <==> id !in db.txs
    ensures ApproveEffect(db, id, user, now) == Err(AlreadyProcessed) <==>
            id in db.txs && db.txs[id].status != Pending
    ensures ApproveEffect(db, id, user, now).Ok? ==>
              db.txs[id].status == Pending
              && ApproveEffect(db, id, user, now).value.txs[id] == Approve(db.txs[id], user, now)
    ensures ApproveEffect(db, id, user, now).Err?
              && ApproveEffect(db, id, user, now).error.InsufficientStock? ==>
              id in db.txs && db.txs[id].txType in {Sale, Outbound, Transfer}
  {
  }

  /** Sale and outbound: with non-negative quantities the approval goes
      through exactly when every referenced row holds what the lines take
      from it; then every row loses exactly its demand and none that a line
      refers to ends negative. */
  lemma ApproveSale(db: Db, id: TxId, user: UserId, now: Time)
    requires Routed(db.txs) && id in db.txs && db.txs[id].status == Pending
    requires db.txs[id].txType == Sale || db.txs[id].txType == Outbound
    requires forall j :: 0 <= j < |db.txs[id].lines| ==> db.txs[id].lines[j].quantity >= 0
    ensures var lines := db.txs[id].lines;
      ApproveEffect(db, id, user, now).Ok? <==>
        (forall j :: 0 <= j < |lines| && lines[j].product < |db.rows| ==>
           db.rows[lines[j].product].stock >= Demand(lines, lines[j].product))
    ensures var lines := db.txs[id].lines;
      ApproveEffect(db, id, user, now).Ok? ==>
        var rows := ApproveEffect(db, id, user, now).value.rows;
        |rows| == |db.rows|
        && (forall k :: 0 <= k < |rows| ==> rows[k] == db.rows[k].(stock := db.rows[k].stock - Demand(lines, k)))
        && (forall j :: 0 <= j < |lines| && lines[j].product < |rows| ==> rows[lines[j].product].stock >= 0)
  {
    var lines := db.txs[id].lines;
    SaleOkIff(db.rows, lines);
    if SaleFold(db.rows, lines).Ok? {
      SaleEffect(db.rows, lines);
      SaleNeverNegative(db.rows, lines);
    }
  }

  /** For any quantities, negative ones included (createTransaction does not
      check them), a successful sale or outbound approval takes from every
      row exactly what the lines ask of it and approves only that record. */
  lemma ApproveSaleRows(db: Db, id: TxId, user: UserId, now: Time)
    requires Routed(db.txs) && id in db.txs
    requires db.txs[id].txType == Sale || db.txs[id].txType == Outbound
    ensures var e := ApproveEffect(db, id, user, now);
      var lines := db.txs[id].lines;
      e.Ok? ==>
        e.value.txs == db.txs[id := Approve(db.txs[id], user, now)] && e.value.nextId == db.nextId
        && |e.value.rows| == |db.rows|
        && forall k :: 0 <= k < |db.rows| ==> e.value.rows[k] == db.rows[k].(stock := db.rows[k].stock - Demand(lines, k))
  {
    if SaleFold(db.rows, db.txs[id].lines).Ok? {
      SaleEffect(db.rows, db.txs[id].lines);
    }
  }

  /** A transfer approval keeps every item code's total stock across
      locations. */
  lemma ApproveTransferConserves(db: Db, id: TxId, user: UserId, now: Time, code: string)
    requires Routed(db.txs) && id in db.txs && db.txs[id].txType == Transfer
    requires ApproveEffect(db, id, user, now).Ok?
    ensures SumCode(ApproveEffect(db, id, user, now).value.rows, code) == SumCode(db.rows, code)
  {
    TransferConserves(db.rows, db.txs[id].lines, db.txs[id].toLocation.value, code);
  }

  /** A pending transfer's approval fails exactly when some line, after the
      lines before it went through, finds its row holding less than it asks
      for, and then with that line's product; when every line's row is away
      from the destination, that is exactly when some source row holds less
      than all the lines together take from it. */
  lemma ApproveTransferFails(db: Db, id: TxId, user: UserId, now: Time)
    requires Routed(db.txs) && id in db.txs && db.txs[id].txType == Transfer && db.txs[id].status == Pending
    ensures var t := db.txs[id];
      ApproveEffect(db, id, user, now).Err? <==> exists j :: ShortAt(db.rows, t.lines, t.toLocation.value, j)
    ensures var t := db.txs[id];
      forall j :: ShortAt(db.rows, t.lines, t.toLocation.value, j) ==>
        ApproveEffect(db, id, user, now) == Err(InsufficientStock(t.lines[j].product))
    ensures var t := db.txs[id];
      AwayFrom(db.rows, t.lines, t.toLocation.value) && (forall j :: 0 <= j < |t.lines| ==> t.lines[j].quantity >= 0)
      ==> (ApproveEffect(db, id, user, now).Ok? <==> Covers(db.rows, t.lines))
  {
    var t := db.txs[id];
    TransferFailsIff(db.rows, t.lines, t.toLocation.value);
    if AwayFrom(db.rows, t.lines, t.toLocation.value) && (forall j :: 0 <= j < |t.lines| ==> t.lines[j].quantity >= 0) {
      TransferOkIff(db.rows, t.lines, t.toLocation.value);
    }
  }

  /** A successful transfer approval, when every line names an existing
      row: the record is approved and nothing else in the collection
      changes; every source row loses what the lines take from it, the row
      of the same item code at the destination gains what arrives under
      that code, or is created holding it; no other row changes. */
  lemma ApproveTransferRows(db: Db, id: TxId, user: UserId, now: Time, code: string)
    requires Routed(db.txs) && id in db.txs && db.txs[id].txType == Transfer
    requires ApproveEffect(db, id, user, now).Ok?
    requires UniqueCodeLoc(db.rows) && LinesExist(db.rows, db.txs[id].lines)
    ensures var t := db.txs[id];
      var db2 := ApproveEffect(db, id, user, now).value;
      db2.txs == db.txs[id := Approve(t, user, now)] && db2.nextId == db.nextId
    ensures var t := db.txs[id];
      var to := t.toLocation.value;
      var rows := ApproveEffect(db, id, user, now).value.rows;
      |rows| >= |db.rows|
      && (forall k :: 0 <= k < |db.rows| ==>
            rows[k] == db.rows[k].(stock := db.rows[k].stock - Demand(t.lines, k)
                                            + (if db.rows[k].locationId == to then Inflow(db.rows, t.lines, db.rows[k].itemCode) else 0)))
      && (forall k :: |db.rows| <= k < |rows| ==>
            rows[k].locationId == to && FindAt(db.rows, rows[k].itemCode, to).None?
            && rows[k].stock == Inflow(db.rows, t.lines, rows[k].itemCode))
    ensures var t := db.txs[id];
      CodeArrives(db.rows, t.lines, code) ==>
        FindAt(ApproveEffect(db, id, user, now).value.rows, code, t.toLocation.value).Some?
  {
    var t := db.txs[id];
    TransferRows(db.rows, t.lines, t.toLocation.value);
    if CodeArrives(db.rows, t.lines, code) {
      TransferOpensSlots(db.rows, t.lines, t.toLocation.value, code);
    }
  }

  /** A purchase approval moves no stock, and afterwards the purchase has a
      linked inbound. When it already had one, only the purchase changes:
      no record is added and no row is touched. Otherwise the new inbound
      is pending at the next id, linked to the purchase, at its
      destination; the existing rows stay as they were and the rows added
      are empty rows at the destination; and when every purchase line names
      an existing row, the inbound has one line per purchase line, in
      order, re-pointed at a row of the same item code at the destination,
      expecting the line's quantity and receiving 0. */
  lemma ApprovePurchase(db: Db, nLoc: nat, nCat: nat, id: TxId, user: UserId, now: Time, code: string)
    requires DbValid(db, nLoc) && Sound(db.rows, nLoc, nCat)
    requires id in db.txs && db.txs[id].txType == Purchase
    requires ApproveEffect(db, id, user, now).Ok?
    ensures var db2 := ApproveEffect(db, id, user, now).value;
      SumCode(db2.rows, code) == SumCode(db.rows, code)
      && FirstLinked(db2.txs, id, 0, db2.nextId).Some?
    ensures FirstLinked(db.txs, id, 0, db.nextId).Some? ==>
      ApproveEffect(db, id, user, now).value == db.(txs := db.txs[id := Approve(db.txs[id], user, now)])
    ensures var db2 := ApproveEffect(db, id, user, now).value;
      FirstLinked(db.txs, id, 0, db.nextId).None? ==>
        var ib := db2.txs[db.nextId];
        db2.nextId == db.nextId + 1 && db.nextId != id
        && ib.txType == Inbound && ib.status == Pending && ib.linkedTransaction == Some(id)
        && ib.toLocation == db.txs[id].toLocation
        && AtDestination(db2.rows, ib.lines, ib.toLocation.value)
        && db2.txs == db.txs[db.nextId := ib][id := Approve(db.txs[id], user, now)]
        && |db2.rows| >= |db.rows|
        && (forall k :: 0 <= k < |db.rows| ==> db2.rows[k] == db.rows[k])
        && (forall k :: |db.rows| <= k < |db2.rows| ==> db2.rows[k].stock == 0 && db2.rows[k].locationId == ib.toLocation.value)
    ensures var db2 := ApproveEffect(db, id, user, now).value;
      var lines := db.txs[id].lines;
      FirstLinked(db.txs, id, 0, db.nextId).None? && LinesExist(db.rows, lines) ==>
        var ib := db2.txs[db.nextId];
        |ib.lines| == |lines|
        && forall j :: 0 <= j < |lines| ==>
             ib.lines[j] == InboundLine(lines[j], ib.lines[j].product)
             && ib.lines[j].product < |db2.rows|
             && At(db2.rows[ib.lines[j].product], db.rows[lines[j].product].itemCode, ib.toLocation.value)
  {
    var t := db.txs[id];
    var db2 := ApproveEffect(db, id, user, now).value;
    ProvisionKeepsStock(db.rows, t.lines, t.toLocation.value, code);
    match FirstLinked(db.txs, id, 0, db.nextId)
    case Some(k) =>
      assert LinkedInbound(db2.txs, id, k);
    case None =>
      assert LinkedInbound(db2.txs, id, db.nextId);
      ProvisionFacts(db.rows, t.lines, t.toLocation.value, nLoc, nCat);
      if LinesExist(db.rows, t.lines) {
        ProvisionLines(db.rows, t.lines, t.toLocation.value);
      }
  }

  /** A pending inbound's approval always goes through. The inbound is
      approved; the record it is linked to, when that one is pending, is
      approved too, with the same approver and time; no other record
      changes and none is added. When every line names an existing row,
      every row at the destination gains what the lines book under its item
      code, the rows added are at the destination holding what was booked
      under theirs, and no other row changes. */
  lemma ApproveInbound(db: Db, id: TxId, user: UserId, now: Time)
    requires Routed(db.txs) && id in db.txs && db.txs[id].txType == Inbound && db.txs[id].status == Pending
    ensures var t := db.txs[id];
      var e := ApproveEffect(db, id, user, now);
      e.Ok? && e.value.nextId == db.nextId && e.value.txs.Keys == db.txs.Keys
      && e.value.txs[id] == Approve(t, user, now)
    ensures var t := db.txs[id];
      var txs := ApproveEffect(db, id, user, now).value.txs;
      (t.linkedTransaction.Some? && t.linkedTransaction.value in db.txs
       && db.txs[t.linkedTransaction.value].status == Pending
       ==> txs[t.linkedTransaction.value] == Approve(db.txs[t.linkedTransaction.value], user, now))
      && (forall k :: k in db.txs && k != id && !(t.linkedTransaction == Some(k) && db.txs[k].status == Pending)
           ==> txs[k] == db.txs[k])
    ensures var t := db.txs[id];
      var to := t.toLocation.value;
      var rows := ApproveEffect(db, id, user, now).value.rows;
      UniqueCodeLoc(db.rows) && LinesExist(db.rows, t.lines) ==>
        |rows| >= |db.rows|
        && (forall k :: 0 <= k < |db.rows| ==>
              rows[k] == db.rows[k].(stock := db.rows[k].stock
                                              + (if db.rows[k].locationId == to then BookedCode(db.rows, t.lines, db.rows[k].itemCode) else 0)))
        && (forall k :: |db.rows| <= k < |rows| ==>
              rows[k].locationId == to && FindAt(db.rows, rows[k].itemCode, to).None?
              && rows[k].stock == BookedCode(db.rows, t.lines, rows[k].itemCode))
  {
    var t := db.txs[id];
    if UniqueCodeLoc(db.rows) && LinesExist(db.rows, t.lines) {
      InboundRows(db.rows, t.lines, t.toLocation.value);
    }
  }

  /** The whole cancellation: only an approved purchase; its first linked
      inbound is deleted, and when that inbound was approved its booked
      quantities are taken back off the destination rows. */
  function CancelPurchaseEffect(db: Db, id: TxId, now: Time): Result<Db, Error>
    requires Routed(db.txs)
  {
    if id !in db.txs then Err(TransactionNotFound)
    else
      var t := db.txs[id];
      if t.txType != Purchase then Err(NotPurchase)
      else if t.status != Approved then Err(OnlyApprovedCancellable)
      else
        var done := t.(status := Cancelled, cancelledAt := Some(now));
        match FirstLinked(db.txs, id, 0, db.nextId)
        case None => Ok(db.(txs := db.txs[id := done]))
        case Some(k) =>
          var ib := db.txs[k];
          var rows := if ib.status == Approved then CancelFold(db.rows, ib.lines, ib.toLocation.value) else db.rows;
          Ok(db.(rows := rows, txs := (db.txs - {k})[id := done]))
  }

  /** Cancelling fails exactly on a missing record, a non-purchase or a
      purchase that is not approved; otherwise the purchase is cancelled
      with its time, its first linked inbound is gone, and stock moves only
      when that inbound had been approved. */
  lemma CancelOutcome(db: Db, id: TxId, now: Time)
    requires Routed(db.txs)
    ensures var e := CancelPurchaseEffect(db, id, now);
      e.Ok? <==> id in db.txs && db.txs[id].txType == Purchase && db.txs[id].status == Approved
    ensures var e := CancelPurchaseEffect(db, id, now);
      e.Ok? ==>
        e.value.txs[id] == db.txs[id].(status := Cancelled, cancelledAt := Some(now))
        && e.value.nextId == db.nextId
        && match FirstLinked(db.txs, id, 0, db.nextId)
           case None => e.value.txs == db.txs[id := e.value.txs[id]] && e.value.rows == db.rows
           case Some(k) =>
             k !in e.value.txs && k != id
             && (db.txs[k].status != Approved ==> e.value.rows == db.rows)
  {
  }

  /** When the first linked inbound had been approved, cancelling takes off
      each row at its destination what its lines book under the row's item
      code, wherever those lines point, and leaves every other row's stock
      and the number of rows as they were. */
  lemma CancelReversesRows(db: Db, id: TxId, now: Time)
    requires Routed(db.txs) && UniqueCodeLoc(db.rows)
    ensures var e := CancelPurchaseEffect(db, id, now);
      e.Ok? && FirstLinked(db.txs, id, 0, db.nextId).Some? ==>
        var ib := db.txs[FirstLinked(db.txs, id, 0, db.nextId).value];
        var to := ib.toLocation.value;
        var rows := e.value.rows;
        ib.status == Approved ==>
          |rows| == |db.rows|
          && forall k :: 0 <= k < |rows| ==>
               rows[k] == db.rows[k].(stock := db.rows[k].stock
                 - (if db.rows[k].locationId == to then BookedCode(db.rows, ib.lines, db.rows[k].itemCode) else 0))
  {
    var f := FirstLinked(db.txs, id, 0, db.nextId);
    if f.Some? {
      var ib := db.txs[f.value];
      CancelRows(db.rows, ib.lines, ib.toLocation.value);
    }
  }

  /** The search for the first linked inbound sees the same answer in two
      tables that agree on which ids are linked inbounds. */
  lemma {:induction false} FirstLinkedSame(a: map<TxId, Transaction>, b: map<TxId, Transaction>, id: TxId, k: nat, hi: nat)
    requires forall j :: k <= j < hi ==> (LinkedInbound(a, id, j) <==> LinkedInbound(b, id, j))
    ensures FirstLinked(a, id, k, hi) == FirstLinked(b, id, k, hi)
    decreases hi - k
  {
    if k < hi {
      FirstLinkedSame(a, b, id, k + 1, hi);
    }
  }

  /** The purchase round trip: when an approved purchase's linked inbound
      (the first one, pending, its lines at its destination rows) is
      approved and the purchase is then cancelled, every product row is
      back to what it was, the inbound is gone and the purchase cancelled. */
  lemma ApproveInboundThenCancel(db: Db, pur: TxId, ib: TxId, user: UserId, now: Time, later: Time)
    requires Routed(db.txs) && UniqueCodeLoc(db.rows)
    requires pur in db.txs && db.txs[pur].txType == Purchase && db.txs[pur].status == Approved
    requires FirstLinked(db.txs, pur, 0, db.nextId) == Some(ib) && db.txs[ib].status == Pending
    requires AtDestination(db.rows, db.txs[ib].lines, db.txs[ib].toLocation.value)
    ensures ApproveEffect(db, ib, user, now).Ok?
    ensures var db1 := ApproveEffect(db, ib, user, now).value;
      Routed(db1.txs) && CancelPurchaseEffect(db1, pur, later).Ok?
    ensures var db1 := ApproveEffect(db, ib, user, now).value;
      var db2 := CancelPurchaseEffect(db1, pur, later).value;
      db2.rows == db.rows && ib !in db2.txs && db2.txs[pur].status == Cancelled
  {
    var t := db.txs[ib];
    var to := t.toLocation.value;
    var db1 := ApproveEffect(db, ib, user, now).value;
    assert db1.rows == InboundFold(db.rows, t.lines, to);
    assert db1.txs == CloseLinked(db.txs, t.linkedTransaction, user, now)[ib := Approve(t, user, now)];
    assert db1.txs[pur] == db.txs[pur];
    FirstLinkedSame(db.txs, db1.txs, pur, 0, db.nextId);
    assert db1.txs[ib] == Approve(t, user, now);
    CancelUndoesInbound(db.rows, t.lines, to);
  }

  /** Approving a purchase and cancelling it before its inbound is approved
      moves no stock either way: only the empty destination rows remain. */
  lemma ApprovePurchaseThenCancel(db: Db, nLoc: nat, nCat: nat, pur: TxId, user: UserId, now: Time, later: Time, code: string)
    requires DbValid(db, nLoc) && Sound(db.rows, nLoc, nCat)
    requires pur in db.txs && db.txs[pur].txType == Purchase && db.txs[pur].status == Pending
    requires FirstLinked(db.txs, pur, 0, db.nextId).None?
    ensures ApproveEffect(db, pur, user, now).Ok?
    ensures var db1 := ApproveEffect(db, pur, user, now).value;
      Routed(db1.txs) && CancelPurchaseEffect(db1, pur, later).Ok?
    ensures var db1 := ApproveEffect(db, pur, user, now).value;
      var db2 := CancelPurchaseEffect(db1, pur, later).value;
      SumCode(db2.rows, code) == SumCode(db.rows, code)
      && db2.txs == db.txs[pur := db1.txs[pur].(status := Cancelled, cancelledAt := Some(later))]
  {
    var db1 := ApproveEffect(db, pur, user, now).value;
    ApprovePurchase(db, nLoc, nCat, pur, user, now, code);
    var ib := db1.txs[db.nextId];
    assert FirstLinked(db1.txs, pur, 0, db1.nextId) == Some(db.nextId) by {
      forall j | 0 <= j < db.nextId ensures !LinkedInbound(db1.txs, pur, j) {
        assert !LinkedInbound(db.txs, pur, j);
        if j == pur {
          assert db1.txs[j].txType == Purchase;
        } else {
          assert j in db1.txs ==> db1.txs[j] == db.txs[j];
        }
      }
    }
    var db2 := CancelPurchaseEffect(db1, pur, later).value;
    assert db2.txs == (db1.txs - {db.nextId})[pur := db1.txs[pur].(status := Cancelled, cancelledAt := Some(later))];
    assert db.nextId !in db.txs;
  }

  // ---------------------------------------------------------------
  // The stored-data invariant across approval and cancellation
  // ---------------------------------------------------------------

  /** Rows that differ only in stock keep the table sound. */
  lemma RestockKeepsSound(rows: seq<Product>, r: seq<Product>, nLoc: nat, nCat: nat)
    requires Sound(rows, nLoc, nCat) && |r| == |rows|
    requires forall k :: 0 <= k < |r| ==> r[k] == rows[k].(stock := r[k].stock)
    ensures Sound(r, nLoc, nCat)
  {
    forall a, b | 0 <= a < |r| && 0 <= b < |r| && a != b
      ensures !SameSlot(r[a], r[b])
    {
      assert SameSlot(r[a], r[b]) == SameSlot(rows[a], rows[b]);
    }
  }

  lemma ApproveKeepsValid(db: Db, nLoc: nat, nCat: nat, id: TxId, user: UserId, now: Time)
    requires DbValid(db, nLoc) && Sound(db.rows, nLoc, nCat)
    requires ApproveEffect(db, id, user, now).Ok?
    ensures DbValid(ApproveEffect(db, id, user, now).value, nLoc)
    ensures Sound(ApproveEffect(db, id, user, now).value.rows, nLoc, nCat)
  {
    var t := db.txs[id];
    var done := Approve(t, user, now);
    if t.txType == Sale || t.txType == Outbound {
      SaleEffect(db.rows, t.lines);
      RestockKeepsSound(db.rows, SaleFold(db.rows, t.lines).value, nLoc, nCat);
      ReplaceKeepsValid(db, nLoc, id, done);
    } else if t.txType == Transfer {
      TransferKeepsSound(db.rows, t.lines, t.toLocation.value, nLoc, nCat);
      ReplaceKeepsValid(db, nLoc, id, done);
    } else if t.txType == Purchase {
      if FirstLinked(db.txs, id, 0, db.nextId).Some? {
        ReplaceKeepsValid(db, nLoc, id, done);
      } else {
        var step := Provision(db.rows, t.lines, t.toLocation.value);
        ProvisionFacts(db.rows, t.lines, t.toLocation.value, nLoc, nCat);
        var ib := InboundFor(t, id, step.1, now);
        InsertKeepsPoUnique(db.txs, db.nextId, ib);
        var mid := Db(db.txs[db.nextId := ib], step.0, db.nextId + 1);
        assert DbValid(mid, nLoc);
        ReplaceKeepsValid(mid, nLoc, id, done);
      }
    } else {
      InboundKeepsSound(db.rows, t.lines, t.toLocation.value, nLoc, nCat);
      var txs1 := CloseLinked(db.txs, t.linkedTransaction, user, now);
      var mid := db.(txs := txs1);
      if txs1 != db.txs {
        var p := t.linkedTransaction.value;
        ReplaceKeepsValid(db, nLoc, p, Approve(db.txs[p], user, now));
      }
      assert DbValid(mid, nLoc);
      ReplaceKeepsValid(mid, nLoc, id, done);
    }
  }

  lemma CancelKeepsValid(db: Db, nLoc: nat, nCat: nat, id: TxId, now: Time)
    requires DbValid(db, nLoc) && Sound(db.rows, nLoc, nCat)
    requires CancelPurchaseEffect(db, id, now).Ok?
    ensures DbValid(CancelPurchaseEffect(db, id, now).value, nLoc)
    ensures Sound(CancelPurchaseEffect(db, id, now).value.rows, nLoc, nCat)
  {
    var t := db.txs[id];
    var done := t.(status := Cancelled, cancelledAt := Some(now));
    match FirstLinked(db.txs, id, 0, db.nextId)
    case None =>
      ReplaceKeepsValid(db, nLoc, id, done);
    case Some(k) =>
      var ib := db.txs[k];
      if ib.status == Approved {
        CancelKeepsSound(db.rows, ib.lines, ib.toLocation.value, nLoc, nCat);
      }
      RemoveKeepsValid(db, nLoc, k);
      ReplaceKeepsValid(db.(txs := db.txs - {k}), nLoc, id, done);
  }

  // ---------------------------------------------------------------
  // The handlers, on a session's working copy
  // ---------------------------------------------------------------

  /** approveTransaction's body: the per-type loop runs on a working copy
      of the rows, and only a completed pass produces a new database. */
  method ApproveStep(db: Db, id: TxId, user: UserId, now: Time) returns (r: Result<Db, Error>)
    requires Routed(db.txs)
    ensures r == ApproveEffect(db, id, user, now)
  {
    if id !in db.txs {
      return Err(TransactionNotFound);
    }
    var t := db.txs[id];
    if t.status != Pending {
      return Err(AlreadyProcessed);
    }
    var done := Approve(t, user, now);
    if t.txType == Sale || t.txType == Outbound {
      var s := ApplySale(db.rows, t.lines);
      if s.Err? {
        return Err(s.error);
      }
      r := Ok(db.(rows := s.value, txs := db.txs[id := done]));
    } else if t.txType == Transfer {
      var s := ApplyTransfer(db.rows, t.lines, t.toLocation.value);
      if s.Err? {
        return Err(s.error);
      }
      r := Ok(db.(rows := s.value, txs := db.txs[id := done]));
    } else if t.txType == Purchase {
      if FirstLinked(db.txs, id, 0, db.nextId).Some? {
        r := Ok(db.(txs := db.txs[id := done]));
      } else {
        var rows, lines := ApplyProvision(db.rows, t.lines, t.toLocation.value);
        r := Ok(Db(db.txs[db.nextId := InboundFor(t, id, lines, now)][id := done], rows, db.nextId + 1));
      }
    } else {
      var rows := ApplyInbound(db.rows, t.lines, t.toLocation.value);
      r := Ok(db.(rows := rows, txs := CloseLinked(db.txs, t.linkedTransaction, user, now)[id := done]));
    }
  }

  /** cancelTransaction's body, on a working copy. */
  method CancelStep(db: Db, id: TxId, now: Time) returns (r: Result<Db, Error>)
    requires Routed(db.txs)
    ensures r == CancelPurchaseEffect(db, id, now)
  {
    if id !in db.txs {
      return Err(TransactionNotFound);
    }
    var t := db.txs[id];
    if t.txType != Purchase {
      return Err(NotPurchase);
    }
    if t.status != Approved {
      return Err(OnlyApprovedCancellable);
    }
    var done := t.(status := Cancelled, cancelledAt := Some(now));
    var link := FirstLinked(db.txs, id, 0, db.nextId);
    if link.None? {
      return Ok(db.(txs := db.txs[id := done]));
    }
    var ib := db.txs[link.value];
    var rows := db.rows;
    if ib.status == Approved {
      rows := ApplyCancel(db.rows, ib.lines, ib.toLocation.value);
    }
    r := Ok(db.(rows := rows, txs := (db.txs - {link.value})[id := done]));
  }
}

=== FILE: catalog.dfy ===
/** The product-at-location table (backend/models/Product.js and
    backend/controllers/productController.js): one row per item code and
    location, unique on that pair, with its own stock. Rows are never
    deleted here, so a row id is its index in the table. */
module Catalog {
  import opened Common
  import opened Text

  datatype Product = Product(
    itemCode: string,
    productName: string,
    productDescription: string,
    costPrice: real,
    sellingPrice: real,
    stock: int,
    locationId: LocationId,
    categoryId: CategoryId)

  predicate At(p: Product, code: string, loc: LocationId) {
    p.itemCode == code && p.locationId == loc
  }

  /** The first row at or after `k` with this item code and location. */
  function FindFrom(rows: seq<Product>, code: string, loc: LocationId, k: nat): (r: Option<ProductId>)
    requires k <= |rows|
    ensures r.Some? ==> k <= r.value < |rows| && At(rows[r.value], code, loc)
    ensures r.Some? ==> forall i :: k <= i < r.value ==> !At(rows[i], code, loc)
    ensures r.None? ==> forall i :: k <= i < |rows| ==> !At(rows[i], code, loc)
    decreases |rows| - k
  {
    if k == |rows| then None
    else if At(rows[k], code, loc) then Some(k)
    else FindFrom(rows, code, loc, k + 1)
  }

  /** `findOne({itemCode, locationId})`: the first matching row, if any. */
  function FindAt(rows: seq<Product>, code: string, loc: LocationId): (r: Option<ProductId>)
    ensures r.Some? ==> r.value < |rows| && At(rows[r.value], code, loc)
    ensures r.Some? ==> forall i :: 0 <= i < r.value ==> !At(rows[i], code, loc)
    ensures r.None? ==> forall i :: 0 <= i < |rows| ==> !At(rows[i], code, loc)
  {
    FindFrom(rows, code, loc, 0)
  }

  predicate SameSlot(a: Product, b: Product) {
    a.itemCode == b.itemCode && a.locationId == b.locationId
  }

  /** The compound unique index on (itemCode, locationId). */
  ghost predicate UniqueCodeLoc(rows: seq<Product>) {
    forall i, j :: 0 <= i < |rows| && 0 <= j < |rows| && i != j ==> !SameSlot(rows[i], rows[j])
  }

  /** Total stock held under one item code, over every location. */
  function SumCode(rows: seq<Product>, code: string): int {
    if rows == [] then 0
    else SumCode(rows[..|rows| - 1], code) + (if rows[|rows| - 1].itemCode == code then rows[|rows| - 1].stock else 0)
  }

  function SetStock(rows: seq<Product>, i: nat, s: int): (r: seq<Product>)
    requires i < |rows|
    ensures |r| == |rows| && r[i] == rows[i].(stock := s)
    ensures forall k :: 0 <= k < |rows| && k != i ==> r[k] == rows[k]
  {
    rows[i := rows[i].(stock := s)]
  }

  /** Changing one row's stock moves that row's item-code total by the same amount. */
  lemma {:induction false} SumCodeSetStock(rows: seq<Product>, i: nat, s: int, code: string)
    requires i < |rows|
    ensures SumCode(SetStock(rows, i, s), code)
         == SumCode(rows, code) + (if rows[i].itemCode == code then s - rows[i].stock else 0)
  {
    var r := SetStock(rows, i, s);
    var n := |rows| - 1;
    if i == n {
      assert r[..n] == rows[..n];
    } else {
      assert r[..n] == SetStock(rows[..n], i, s);
      SumCodeSetStock(rows[..n], i, s, code);
    }
  }

  lemma SumCodeAppend(rows: seq<Product>, p: Product, code: string)
    ensures SumCode(rows + [p], code) == SumCode(rows, code) + (if p.itemCode == code then p.stock else 0)
  {
    assert (rows + [p])[..|rows|] == rows;
  }

  /** Adding a row for a slot that is still free keeps the index unique. */
  lemma AppendFreshKeepsUnique(rows: seq<Product>, p: Product)
    requires UniqueCodeLoc(rows) && FindAt(rows, p.itemCode, p.locationId).None?
    ensures UniqueCodeLoc(rows + [p])
  {
    var r := rows + [p];
    forall i, j | 0 <= i < |r| && 0 <= j < |r| && i != j
      ensures !SameSlot(r[i], r[j])
    {
      if i < |rows| && j < |rows| {
      } else if i == |rows| {
        assert !At(rows[j], p.itemCode, p.locationId);
      } else {
        assert !At(rows[i], p.itemCode, p.locationId);
      }
    }
  }

  lemma SetStockKeepsUnique(rows: seq<Product>, i: nat, s: int)
    requires i < |rows| && UniqueCodeLoc(rows)
    ensures UniqueCodeLoc(SetStock(rows, i, s))
  {
    var r := SetStock(rows, i, s);
    forall a, b | 0 <= a < |r| && 0 <= b < |r| && a != b
      ensures !SameSlot(r[a], r[b])
    {
      assert SameSlot(r[a], r[b]) == SameSlot(rows[a], rows[b]);
    }
  }

  /** The stock held in one slot (an item code at a location): the first
      matching row's, or 0 when no row sits there. */
  function SlotStock(rows: seq<Product>, code: string, loc: LocationId): int {
    match FindAt(rows, code, loc)
    case Some(k) => rows[k].stock
    case None => 0
  }

  /** Two tables whose rows sit in the same slots, index by index, find the same row. */
  lemma FindAtSame(a: seq<Product>, b: seq<Product>, code: string, loc: LocationId)
    requires |a| == |b| && forall k :: 0 <= k < |a| ==> SameSlot(a[k], b[k])
    ensures FindAt(a, code, loc) == FindAt(b, code, loc)
  {
    var fa := FindAt(a, code, loc);
    var fb := FindAt(b, code, loc);
    if fa.Some? {
      assert At(b[fa.value], code, loc);
    }
    if fb.Some? {
      assert At(a[fb.value], code, loc);
    }
  }

  /** Appending a row leaves a found slot where it was, and fills an empty
      slot when the new row sits in it. */
  lemma FindAtAppend(rows: seq<Product>, x: Product, code: string, loc: LocationId)
    ensures FindAt(rows + [x], code, loc)
         == if FindAt(rows, code, loc).Some? then FindAt(rows, code, loc)
            else if At(x, code, loc) then Some(|rows|) else None
  {
    var r := rows + [x];
    assert forall i :: 0 <= i < |rows| ==> r[i] == rows[i];
    assert r[|rows|] == x;
    var f := FindAt(rows, code, loc);
    if f.Some? {
      assert At(r[f.value], code, loc);
    }
  }

  /** A stock change finds the same rows, and only the changed row's slot
      holds a different stock. */
  lemma SetStockSlot(rows: seq<Product>, i: nat, s: int, code: string, loc: LocationId)
    requires i < |rows|
    ensures FindAt(SetStock(rows, i, s), code, loc) == FindAt(rows, code, loc)
    ensures SlotStock(SetStock(rows, i, s), code, loc)
         == if FindAt(rows, code, loc) == Some(i) then s else SlotStock(rows, code, loc)
  {
    FindAtSame(SetStock(rows, i, s), rows, code, loc);
  }

  // ---------------------------------------------------------------
  // createProduct / updateProduct
  // ---------------------------------------------------------------

  datatype ProductInput = ProductInput(
    itemCode: string,
    productName: string,
    productDescription: string,
    costPrice: real,
    sellingPrice: real,
    stock: int,
    locationId: nat,
    categoryId: nat)

  function FromInput(input: ProductInput): Product {
    Product(input.itemCode, input.productName, input.productDescription,
            input.costPrice, input.sellingPrice, input.stock, input.locationId, input.categoryId)
  }

  /** The guards of createProduct in their order: the category and the
      location must exist, the location must not be "HQ", the slot must be
      free, and the schema's required name and description must be non-empty. */
  function CreateProductCheck(rows: seq<Product>, locationNames: seq<string>, categoryNames: seq<string>,
                              input: ProductInput): (r: Option<Error>)
    ensures r.None? <==> (input.categoryId < |categoryNames| && input.locationId < |locationNames|
                          && locationNames[input.locationId] != "HQ"
                          && FindAt(rows, input.itemCode, input.locationId).None?
                          && input.productName != [] && input.productDescription != [])
    ensures r == Some(HeadquartersLocation) <==>
              (input.categoryId < |categoryNames| && input.locationId < |locationNames|
               && locationNames[input.locationId] == "HQ")
    ensures r == Some(DuplicateProduct) ==> FindAt(rows, input.itemCode, input.locationId).Some?
  {
    if input.categoryId >= |categoryNames| then Some(CategoryNotFound)
    else if input.locationId >= |locationNames| then Some(LocationNotFound)
    else if locationNames[input.locationId] == "HQ" then Some(HeadquartersLocation)
    else if FindAt(rows, input.itemCode, input.locationId).Some? then Some(DuplicateProduct)
    else if input.productName == [] || input.productDescription == [] then Some(ValidationFailed)
    else None
  }

  /** A product that passes createProduct's guards keeps the (itemCode, location) index unique. */
  lemma CreateKeepsUnique(rows: seq<Product>, locationNames: seq<string>, categoryNames: seq<string>,
                          input: ProductInput)
    requires UniqueCodeLoc(rows)
    requires CreateProductCheck(rows, locationNames, categoryNames, input).None?
    ensures UniqueCodeLoc(rows + [FromInput(input)])
  {
    AppendFreshKeepsUnique(rows, FromInput(input));
  }

  /** Some row other than `except` holds this slot: updateProduct's duplicate query. */
  predicate SlotTakenByOther(rows: seq<Product>, code: string, loc: LocationId, except: nat) {
    exists j :: 0 <= j < |rows| && j != except && At(rows[j], code, loc)
  }

  /** The guards of updateProduct in their order; an unknown id is reported
      only after the duplicate check, as findByIdAndUpdate comes last. */
  function UpdateProductCheck(rows: seq<Product>, locationNames: seq<string>, categoryNames: seq<string>,
                              id: nat, input: ProductInput): (r: Option<Error>)
    ensures r.None? <==> (input.categoryId < |categoryNames| && input.locationId < |locationNames|
                          && locationNames[input.locationId] != "HQ"
                          && !SlotTakenByOther(rows, input.itemCode, input.locationId, id)
                          && id < |rows|)
    ensures r == Some(ProductMissing) ==> id >= |rows|
  {
    if input.categoryId >= |categoryNames| then Some(CategoryNotFound)
    else if input.locationId >= |locationNames| then Some(LocationNotFound)
    else if locationNames[input.locationId] == "HQ" then Some(HeadquartersLocation)
    else if SlotTakenByOther(rows, input.itemCode, input.locationId, id) then Some(DuplicateProduct)
    else if id >= |rows| then Some(ProductMissing)
    else None
  }

  /** Overwriting a row with a product that passes updateProduct's guards keeps
      the index unique: the duplicate query leaves out only the row itself. */
  lemma UpdateKeepsUnique(rows: seq<Product>, locationNames: seq<string>, categoryNames: seq<string>,
                          id: nat, input: ProductInput)
    requires UniqueCodeLoc(rows)
    requires UpdateProductCheck(rows, locationNames, categoryNames, id, input).None?
    ensures UniqueCodeLoc(rows[id := FromInput(input)])
  {
    var r := rows[id := FromInput(input)];
    forall a, b | 0 <= a < |r| && 0 <= b < |r| && a != b
      ensures !SameSlot(r[a], r[b])
    {
      if a == id {
        assert !At(rows[b], input.itemCode, input.locationId);
      } else if b == id {
        assert !At(rows[a], input.itemCode, input.locationId);
      }
    }
  }

  // ---------------------------------------------------------------
  // updateItemCodeAll
  // ---------------------------------------------------------------

  predicate CodeExists(rows: seq<Product>, code: string) {
    exists i :: 0 <= i < |rows| && rows[i].itemCode == code
  }

  function CountCode(rows: seq<Product>, code: string): (n: nat)
    ensures n == 0 <==> !CodeExists(rows, code)
  {
    if rows == [] then 0
    else CountCode(rows[..|rows| - 1], code) + (if rows[|rows| - 1].itemCode == code then 1 else 0)
  }

  /** `updateMany({itemCode: a}, {$set: {itemCode: b}})`. */
  function Recode(rows: seq<Product>, a: string, b: string): (r: seq<Product>)
    ensures |r| == |rows|
    ensures forall i :: 0 <= i < |rows| ==> r[i] == if rows[i].itemCode == a then rows[i].(itemCode := b) else rows[i]
  {
    seq(|rows|, i requires 0 <= i < |rows| => if rows[i].itemCode == a then rows[i].(itemCode := b) else rows[i])
  }

  /** Renaming to a code no row uses keeps the (itemCode, location) index unique. */
  lemma RecodeKeepsUnique(rows: seq<Product>, a: string, b: string)
    requires UniqueCodeLoc(rows) && !CodeExists(rows, b)
    ensures UniqueCodeLoc(Recode(rows, a, b))
  {
    var r := Recode(rows, a, b);
    forall i, j | 0 <= i < |r| && 0 <= j < |r| && i != j
      ensures !SameSlot(r[i], r[j])
    {
      assert rows[i].itemCode != b && rows[j].itemCode != b;
      assert !SameSlot(rows[i], rows[j]);
    }
  }

  /** Renaming a code to a fresh one and back restores the table. */
  lemma RecodeRoundTrip(rows: seq<Product>, a: string, b: string)
    requires !CodeExists(rows, b)
    ensures Recode(Recode(rows, a, b), b, a) == rows
  {
    var r := Recode(Recode(rows, a, b), b, a);
    forall i | 0 <= i < |rows| ensures r[i] == rows[i] {
      assert rows[i].itemCode != b;
    }
  }

  /** Renaming a to a fresh code b moves all of a's stock to b and leaves
      every other code's total alone. */
  lemma {:induction false} RecodeMovesStock(rows: seq<Product>, a: string, b: string, c: string)
    requires !CodeExists(rows, b) && a != b
    ensures SumCode(Recode(rows, a, b), b) == SumCode(rows, a)
    ensures SumCode(Recode(rows, a, b), a) == 0
    ensures c != a && c != b ==> SumCode(Recode(rows, a, b), c) == SumCode(rows, c)
  {
    if rows != [] {
      var n := |rows| - 1;
      var r := Recode(rows, a, b);
      assert r[..n] == Recode(rows[..n], a, b);
      assert !CodeExists(rows[..n], b) by {
        forall i | 0 <= i < n ensures rows[..n][i].itemCode != b {
          assert rows[..n][i] == rows[i];
        }
      }
      assert rows[n].itemCode != b;
      RecodeMovesStock(rows[..n], a, b, c);
    }
  }

  // ---------------------------------------------------------------
  // importProducts (the upsert loop over parsed CSV rows)
  // ---------------------------------------------------------------

  /** One row as csvtojson hands it over. The numeric fields carry what
      `Number(...)` made of the text, `None` standing for NaN. */
  datatype ImportRow = ImportRow(
    itemCode: string,
    productName: string,
    productDescription: string,
    costPrice: Option<real>,
    sellingPrice: Option<real>,
    stock: Option<int>,
    categoryName: string,
    locationName: string)

  /** `Number(x) || 0`: NaN (and 0) become 0. */
  function RealOr0(x: Option<real>): real {
    match x
    case Some(v) => v
    case None => 0.0
  }

  function IntOr0(x: Option<int>): int {
    match x
    case Some(v) => v
    case None => 0
  }

  function CategoryNameOf(row: ImportRow): string {
    if Trim(row.categoryName) == [] then "Uncategorized" else Trim(row.categoryName)
  }

  function LocationNameOf(row: ImportRow): string {
    if Trim(row.locationName) == [] then "Unassigned" else Trim(row.locationName)
  }

  /** The rows the loop passes over: no item code or product name after
      trimming, or a location named "HQ". */
  predicate SkippedRow(row: ImportRow) {
    Trim(row.itemCode) == [] || Trim(row.productName) == [] || LocationNameOf(row) == "HQ"
  }

  /** The first index holding `name`. */
  function FindName(names: seq<string>, name: string): (r: Option<nat>)
    ensures r.Some? ==> r.value < |names| && names[r.value] == name
    ensures r.Some? ==> forall i :: 0 <= i < r.value ==> names[i] != name
    ensures r.None? ==> name !in names
  {
    if names == [] then None
    else if names[0] == name then Some(0)
    else match FindName(names[1..], name)
      case None => None
      case Some(i) => Some(i + 1)
  }

  /** `findOne({name}) || create({name})`: the id of the named record, added when missing. */
  function FindOrAdd(names: seq<string>, name: string): (r: (seq<string>, nat))
    ensures r.1 < |r.0| && r.0[r.1] == name
    ensures r.0 == names || r.0 == names + [name]
    ensures name in names ==> r.0 == names
  {
    match FindName(names, name)
    case Some(i) => (names, i)
    case None => (names + [name], |names|)
  }

  /** The fields the update of an existing row writes; code and location stay. */
  function Refresh(p: Product, row: ImportRow, cid: CategoryId): Product {
    p.(productName := Trim(row.productName),
       productDescription := row.productDescription,
       costPrice := RealOr0(row.costPrice),
       sellingPrice := RealOr0(row.sellingPrice),
       stock := IntOr0(row.stock),
       categoryId := cid)
  }

  function NewRow(code: string, row: ImportRow, cid: CategoryId, lid: LocationId): Product {
    Product(code, Trim(row.productName), row.productDescription,
            RealOr0(row.costPrice), RealOr0(row.sellingPrice), IntOr0(row.stock), lid, cid)
  }

  datatype Outcome = Skip | Update | Insert | Fail

  /** The match on (itemCode, location): update the row found, or create one.
      `Fail` is the schema rejecting a new row without a description. */
  function Upsert(rows: seq<Product>, code: string, row: ImportRow, cid: CategoryId, lid: LocationId): (r: (seq<Product>, Outcome))
    ensures r.1 != Skip
    ensures r.1 == Update <==> FindAt(rows, code, lid).Some?
    ensures r.1 == Fail <==> FindAt(rows, code, lid).None? && row.productDescription == []
    ensures r.1 == Fail ==> r.0 == rows
  {
    match FindAt(rows, code, lid)
    case Some(j) => (rows[j := Refresh(rows[j], row, cid)], Update)
    case None =>
      if row.productDescription == [] then (rows, Fail)
      else (rows + [NewRow(code, row, cid, lid)], Insert)
  }

  /** Every row points below the given location and category counts. */
  ghost predicate RowsRefs(rows: seq<Product>, nLoc: nat, nCat: nat) {
    forall i :: 0 <= i < |rows| ==> rows[i].locationId < nLoc && rows[i].categoryId < nCat
  }

  /** An upsert keeps the index unique and the references valid, grows the
      table, and writes only at its own location. */
  lemma UpsertFacts(rows: seq<Product>, code: string, row: ImportRow, cid: CategoryId, lid: LocationId,
                    nLoc: nat, nCat: nat)
    requires UniqueCodeLoc(rows) && RowsRefs(rows, nLoc, nCat) && lid < nLoc && cid < nCat
    ensures var r := Upsert(rows, code, row, cid, lid).0;
      UniqueCodeLoc(r) && RowsRefs(r, nLoc, nCat) && |r| >= |rows|
      && (forall k :: 0 <= k < |rows| ==> r[k].locationId == rows[k].locationId)
      && (forall k :: 0 <= k < |rows| && rows[k].locationId != lid ==> r[k] == rows[k])
      && (forall k :: |rows| <= k < |r| ==> r[k].locationId == lid)
  {
    var r := Upsert(rows, code, row, cid, lid).0;
    match FindAt(rows, code, lid)
    case Some(j) =>
      forall a, b | 0 <= a < |r| && 0 <= b < |r| && a != b
        ensures !SameSlot(r[a], r[b])
      {
        assert SameSlot(r[a], r[b]) == SameSlot(rows[a], rows[b]);
      }
    case None =>
      if row.productDescription != [] {
        AppendFreshKeepsUnique(rows, NewRow(code, row, cid, lid));
      }
  }

  /** The table's own invariant: the unique index, and every row pointing
      at an existing location and category. */
  ghost predicate Sound(rows: seq<Product>, nLoc: nat, nCat: nat) {
    UniqueCodeLoc(rows) && RowsRefs(rows, nLoc, nCat)
  }

  datatype ImportState = ImportState(rows: seq<Product>, locationNames: seq<string>, categoryNames: seq<string>)

  ghost predicate RefsValid(st: ImportState) {
    RowsRefs(st.rows, |st.locationNames|, |st.categoryNames|)
  }

  /** One iteration of the import loop. */
  function ImportStep(st: ImportState, row: ImportRow): (r: (ImportState, Outcome))
    ensures r.1 == Skip <==> SkippedRow(row)
  {
    if Trim(row.itemCode) == [] || Trim(row.productName) == [] then (st, Skip)
    else
      var c := FindOrAdd(st.categoryNames, CategoryNameOf(row));
      var l := FindOrAdd(st.locationNames, LocationNameOf(row));
      if l.0[l.1] == "HQ" then (ImportState(st.rows, l.0, c.0), Skip)
      else
        var up := Upsert(st.rows, Trim(row.itemCode), row, c.1, l.1);
        (ImportState(up.0, l.0, c.0), up.1)
  }

  /** One iteration on a row with an item code and a name, once the
      category and the location are found or added. */
  lemma StepUnfold(st: ImportState, row: ImportRow, c: (seq<string>, nat), l: (seq<string>, nat))
    requires Trim(row.itemCode) != [] && Trim(row.productName) != []
    requires c == FindOrAdd(st.categoryNames, CategoryNameOf(row))
    requires l == FindOrAdd(st.locationNames, LocationNameOf(row))
    ensures l.0[l.1] == "HQ" ==> ImportStep(st, row).0 == ImportState(st.rows, l.0, c.0) && ImportStep(st, row).1 == Skip
    ensures l.0[l.1] != "HQ" ==>
      var up := Upsert(st.rows, Trim(row.itemCode), row, c.1, l.1);
      ImportStep(st, row).0 == ImportState(up.0, l.0, c.0) && ImportStep(st, row).1 == up.1
  {
  }

  /** What the import preserves between two states: the existing names,
      the rows at a location named "HQ", and no added row at such a location. */
  ghost predicate SparesHeadquarters(st: ImportState, st2: ImportState)
    requires RefsValid(st) && RefsValid(st2)
  {
    |st2.rows| >= |st.rows| && st.locationNames <= st2.locationNames
    && (forall k :: 0 <= k < |st.rows| ==> st2.rows[k].locationId == st.rows[k].locationId)
    && (forall k :: 0 <= k < |st.rows| && st.locationNames[st.rows[k].locationId] == "HQ" ==> st2.rows[k] == st.rows[k])
    && (forall k :: |st.rows| <= k < |st2.rows| ==> st2.locationNames[st2.rows[k].locationId] != "HQ")
  }

  /** What one iteration keeps: the unique index, valid references, the
      existing names and rows at a location named "HQ"; and every row it adds
      sits at a location not named "HQ". */
  lemma StepFacts(st: ImportState, row: ImportRow)
    requires UniqueCodeLoc(st.rows) && RefsValid(st)
    ensures var st2 := ImportStep(st, row).0;
      UniqueCodeLoc(st2.rows) && RefsValid(st2) && SparesHeadquarters(st, st2)
      && st.categoryNames <= st2.categoryNames
  {
    if !(Trim(row.itemCode) == [] || Trim(row.productName) == []) {
      var c := FindOrAdd(st.categoryNames, CategoryNameOf(row));
      var l := FindOrAdd(st.locationNames, LocationNameOf(row));
      StepUnfold(st, row, c, l);
      if l.0[l.1] == "HQ" {
        assert RowsRefs(st.rows, |l.0|, |c.0|);
      } else {
        PlaceFacts(st, Trim(row.itemCode), row, c.1, l.1, l.0, c.0);
      }
    }
  }

  /** The same for a row that reaches the upsert, with its category and
      location found or added. */
  lemma PlaceFacts(st: ImportState, code: string, row: ImportRow, cid: CategoryId, lid: LocationId,
                   locs: seq<string>, cats: seq<string>)
    requires UniqueCodeLoc(st.rows) && RefsValid(st)
    requires st.locationNames <= locs && st.categoryNames <= cats && lid < |locs| && cid < |cats|
    requires locs[lid] != "HQ"
    ensures var st2 := ImportState(Upsert(st.rows, code, row, cid, lid).0, locs, cats);
      UniqueCodeLoc(st2.rows) && RefsValid(st2) && SparesHeadquarters(st, st2)
  {
    assert RowsRefs(st.rows, |locs|, |cats|);
    UpsertFacts(st.rows, code, row, cid, lid, |locs|, |cats|);
    var st2 := ImportState(Upsert(st.rows, code, row, cid, lid).0, locs, cats);
    forall k | 0 <= k < |st.rows| && st.locationNames[st.rows[k].locationId] == "HQ"
      ensures st2.rows[k] == st.rows[k]
    {
      assert locs[st.rows[k].locationId] == "HQ";
    }
  }

  datatype ImportResult = Completed(st: ImportState, updated: nat, inserted: nat) | Aborted(st: ImportState)

  function CountAccepted(rows: seq<ImportRow>): nat {
    if rows == [] then 0 else (if SkippedRow(rows[0]) then 0 else 1) + CountAccepted(rows[1..])
  }

  /** The whole loop, with the counters starting at the given values. A
      completed import counts every row it did not skip exactly once:
      updatedCount + insertedCount grows by the number of accepted rows. */
  function ImportFold(st: ImportState, rows: seq<ImportRow>, updated: nat, inserted: nat): (r: ImportResult)
    ensures r.Completed? ==> r.updated + r.inserted == updated + inserted + CountAccepted(rows)
    decreases |rows|, 0
  {
    if rows == [] then Completed(st, updated, inserted)
    else Continue(ImportStep(st, rows[0]), rows[1..], updated, inserted)
  }

  /** The loop after one iteration: it stops at a failed row, and
      otherwise bumps the counter the outcome names and goes on. */
  function Continue(step: (ImportState, Outcome), rest: seq<ImportRow>, updated: nat, inserted: nat): (r: ImportResult)
    ensures r.Completed? ==> step.1 != Fail
    ensures r.Completed? ==>
      r.updated + r.inserted == updated + inserted + (if step.1 == Skip then 0 else 1) + CountAccepted(rest)
    decreases |rest|, 1
  {
    if step.1 == Fail then Aborted(step.0)
    else ImportFold(step.0, rest, updated + (if step.1 == Update then 1 else 0),
                    inserted + (if step.1 == Insert then 1 else 0))
  }

  lemma SparesHeadquartersTrans(st1: ImportState, st2: ImportState, st3: ImportState)
    requires RefsValid(st1) && RefsValid(st2) && RefsValid(st3)
    requires SparesHeadquarters(st1, st2) && SparesHeadquarters(st2, st3)
    ensures SparesHeadquarters(st1, st3)
  {
    forall k | 0 <= k < |st1.rows| && st1.locationNames[st1.rows[k].locationId] == "HQ"
      ensures st3.rows[k] == st1.rows[k]
    {
      assert st2.locationNames[st2.rows[k].locationId] == "HQ";
    }
    forall k | |st1.rows| <= k < |st3.rows|
      ensures st3.locationNames[st3.rows[k].locationId] != "HQ"
    {
      if k < |st2.rows| {
        assert st2.locationNames[st2.rows[k].locationId] != "HQ";
        assert st3.rows[k].locationId == st2.rows[k].locationId;
      }
    }
  }

  /** The import keeps the (itemCode, location) index unique, also when it
      stops half-way; rows at a location named "HQ" are never written, and
      no row it adds sits at such a location. */
  lemma {:induction false} ImportFacts(st: ImportState, rows: seq<ImportRow>, u: nat, i: nat)
    requires UniqueCodeLoc(st.rows) && RefsValid(st)
    ensures UniqueCodeLoc(ImportFold(st, rows, u, i).st.rows) && RefsValid(ImportFold(st, rows, u, i).st)
    ensures SparesHeadquarters(st, ImportFold(st, rows, u, i).st)
    decreases |rows|
  {
    if rows == [] {
      assert ImportFold(st, rows, u, i).st == st;
    } else {
      var step := ImportStep(st, rows[0]);
      StepFacts(st, rows[0]);
      assert ImportFold(st, rows, u, i) == Continue(step, rows[1..], u, i);
      if step.1 == Fail {
        assert ImportFold(st, rows, u, i) == Aborted(step.0);
      } else {
        var u1 := u + (if step.1 == Update then 1 else 0);
        var i1 := i + (if step.1 == Insert then 1 else 0);
        assert ImportFold(st, rows, u, i) == ImportFold(step.0, rows[1..], u1, i1);
        ImportFacts(step.0, rows[1..], u1, i1);
        SparesHeadquartersTrans(st, step.0, ImportFold(st, rows, u, i).st);
      }
    }
  }

  // ---------------------------------------------------------------
  // getProducts (location scoping)
  // ---------------------------------------------------------------

  predicate VisibleTo(p: Product, viewer: Principal) {
    viewer.role == Admin || p.locationId == viewer.locationId
  }

  /** The ids below `n` the viewer may see, in table order. */
  function VisibleBelow(rows: seq<Product>, viewer: Principal, n: nat): (r: seq<ProductId>)
    requires n <= |rows|
    ensures forall k :: 0 <= k < |r| ==> r[k] < n && VisibleTo(rows[r[k]], viewer)
    ensures forall i :: 0 <= i < n && VisibleTo(rows[i], viewer) ==> i in r
    ensures forall a, b :: 0 <= a < b < |r| ==> r[a] < r[b]
  {
    if n == 0 then []
    else if VisibleTo(rows[n - 1], viewer) then VisibleBelow(rows, viewer, n - 1) + [n - 1]
    else VisibleBelow(rows, viewer, n - 1)
  }

  /** getProducts: an admin sees every row; anyone else sees exactly the rows
      at their own location. */
  function GetProducts(rows: seq<Product>, viewer: Principal): (r: seq<ProductId>)
    ensures forall k :: 0 <= k < |r| ==> r[k] < |rows| && (viewer.role != Admin ==> rows[r[k]].locationId == viewer.locationId)
    ensures forall i :: 0 <= i < |rows| && (viewer.role == Admin || rows[i].locationId == viewer.locationId) ==> i in r
  {
    VisibleBelow(rows, viewer, |rows|)
  }

  // ---------------------------------------------------------------
  // The table itself
  // ---------------------------------------------------------------

  class ProductTable {
    var rows: seq<Product>
    var locationNames: seq<string>
    var categoryNames: seq<string>

    ghost predicate Valid()
      reads this
    {
      UniqueCodeLoc(rows) && RefsValid(ImportState(rows, locationNames, categoryNames))
    }

    constructor (locations: seq<string>, categories: seq<string>)
      ensures Valid() && rows == [] && locationNames == locations && categoryNames == categories
    {
      rows := [];
      locationNames := locations;
      categoryNames := categories;
    }

    /** createProduct: the guards, then one new row. */
    method CreateProduct(input: ProductInput) returns (r: Result<ProductId, Error>)
      requires Valid()
      modifies this`rows
      ensures Valid()
      ensures r.Err? <==> CreateProductCheck(old(rows), locationNames, categoryNames, input).Some?
      ensures r.Err? ==> r.error == CreateProductCheck(old(rows), locationNames, categoryNames, input).value
                         && rows == old(rows)
      ensures r.Ok? ==> r.value == |old(rows)| && rows == old(rows) + [FromInput(input)]
    {
      if input.categoryId >= |categoryNames| { return Err(CategoryNotFound); }
      if input.locationId >= |locationNames| { return Err(LocationNotFound); }
      if locationNames[input.locationId] == "HQ" { return Err(HeadquartersLocation); }
      if FindAt(rows, input.itemCode, input.locationId).Some? { return Err(DuplicateProduct); }
      if input.productName == [] || input.productDescription == [] { return Err(ValidationFailed); }
      CreateKeepsUnique(rows, locationNames, categoryNames, input);
      r := Ok(|rows|);
      rows := rows + [FromInput(input)];
    }

    /** updateProduct: the guards, then the row is overwritten in place. */
    method UpdateProduct(id: ProductId, input: ProductInput) returns (r: Result<Product, Error>)
      requires Valid()
      modifies this`rows
      ensures Valid()
      ensures r.Err? <==> UpdateProductCheck(old(rows), locationNames, categoryNames, id, input).Some?
      ensures r.Err? ==> r.error == UpdateProductCheck(old(rows), locationNames, categoryNames, id, input).value
                         && rows == old(rows)
      ensures r.Ok? ==> r.value == FromInput(input) && rows == old(rows)[id := FromInput(input)]
    {
      if input.categoryId >= |categoryNames| { return Err(CategoryNotFound); }
      if input.locationId >= |locationNames| { return Err(LocationNotFound); }
      if locationNames[input.locationId] == "HQ" { return Err(HeadquartersLocation); }
      if SlotTakenByOther(rows, input.itemCode, input.locationId, id) { return Err(DuplicateProduct); }
      if id >= |rows| { return Err(ProductMissing); }
      UpdateKeepsUnique(rows, locationNames, categoryNames, id, input);
      rows := rows[id := FromInput(input)];
      r := Ok(FromInput(input));
    }

    /** updateItemCodeAll: every row with the old code gets the new one. */
    method UpdateItemCodeAll(oldCode: string, newCode: string) returns (r: Result<nat, Error>)
      requires Valid()
      modifies this`rows
      ensures Valid()
      ensures IsBlank(newCode) ==> r == Err(BlankItemCode)
      ensures !IsBlank(newCode) && CodeExists(old(rows), newCode) ==> r == Err(ItemCodeExists)
      ensures !IsBlank(newCode) && !CodeExists(old(rows), newCode) && !CodeExists(old(rows), oldCode)
              ==> r == Err(NoProductWithCode)
      ensures r.Ok? <==> !IsBlank(newCode) && !CodeExists(old(rows), newCode) && CodeExists(old(rows), oldCode)
      ensures r.Ok? ==> r.value == CountCode(old(rows), oldCode) && rows == Recode(old(rows), oldCode, newCode)
      ensures r.Err? ==> rows == old(rows)
    {
      if IsBlank(newCode) { return Err(BlankItemCode); }
      if CodeExists(rows, newCode) { return Err(ItemCodeExists); }
      var modified := CountCode(rows, oldCode);
      RecodeKeepsUnique(rows, oldCode, newCode);
      if modified == 0 {
        assert Recode(rows, oldCode, newCode) == rows;
      }
      rows := Recode(rows, oldCode, newCode);
      if modified == 0 { return Err(NoProductWithCode); }
      r := Ok(modified);
    }

    /** One pass of importProducts' loop body: find or create the category
        and the location, then update or insert the product row. */
    method ImportRowInto(row: ImportRow) returns (o: Outcome)
      modifies this
      ensures ImportState(rows, locationNames, categoryNames)
           == ImportStep(old(ImportState(rows, locationNames, categoryNames)), row).0
      ensures o == ImportStep(old(ImportState(rows, locationNames, categoryNames)), row).1
    {
      ghost var cur := ImportState(rows, locationNames, categoryNames);
      if Trim(row.itemCode) == [] || Trim(row.productName) == [] {
        o := Skip;
        assert ImportStep(cur, row).0 == cur;
      } else {
        var c := FindOrAdd(categoryNames, CategoryNameOf(row));
        var l := FindOrAdd(locationNames, LocationNameOf(row));
        StepUnfold(cur, row, c, l);
        categoryNames, locationNames := c.0, l.0;
        if l.0[l.1] == "HQ" {
          o := Skip;
          assert ImportState(rows, locationNames, categoryNames) == ImportState(cur.rows, l.0, c.0);
        } else {
          var code := Trim(row.itemCode);
          o := UpsertInto(code, row, c.1, l.1);
          assert ImportState(rows, locationNames, categoryNames)
              == ImportState(Upsert(cur.rows, code, row, c.1, l.1).0, l.0, c.0);
        }
      }
    }

    /** The product half of the loop body: overwrite the row already at
        (itemCode, location), or insert a new one. */
    method UpsertInto(code: string, row: ImportRow, cid: CategoryId, lid: LocationId) returns (o: Outcome)
      modifies this`rows
      ensures rows == Upsert(old(rows), code, row, cid, lid).0
      ensures o == Upsert(old(rows), code, row, cid, lid).1
    {
      var existing := FindAt(rows, code, lid);
      if existing.Some? {
        var j := existing.value;
        rows := rows[j := Refresh(rows[j], row, cid)];
        o := Update;
      } else if row.productDescription == [] {
        o := Fail;
      } else {
        rows := rows + [NewRow(code, row, cid, lid)];
        o := Insert;
      }
    }

    /** importProducts: the upsert loop. Nothing is rolled back: when the
        schema rejects a row, the rows, locations and categories written
        before it stay. */
    method ImportProducts(csvRows: seq<ImportRow>) returns (r: Result<(nat, nat), Error>)
      requires Valid()
      modifies this
      ensures Valid()
      ensures var f := ImportFold(old(ImportState(rows, locationNames, categoryNames)), csvRows, 0, 0);
        ImportState(rows, locationNames, categoryNames) == f.st
        && (r.Ok? <==> f.Completed?)
        && (r.Ok? ==> r.value == (f.updated, f.inserted))
        && (r.Err? ==> r.error == ValidationFailed)
    {
      ghost var start := ImportState(rows, locationNames, categoryNames);
      var updatedCount, insertedCount := 0, 0;
      var k := 0;
      while k < |csvRows|
        invariant 0 <= k <= |csvRows|
        invariant Valid()
        invariant ImportFold(start, csvRows, 0, 0)
               == ImportFold(ImportState(rows, locationNames, categoryNames), csvRows[k..], updatedCount, insertedCount)
      {
        ghost var cur := ImportState(rows, locationNames, categoryNames);
        assert csvRows[k..][0] == csvRows[k] && csvRows[k..][1..] == csvRows[k + 1..];
        assert ImportFold(cur, csvRows[k..], updatedCount, insertedCount)
            == Continue(ImportStep(cur, csvRows[k]), csvRows[k + 1..], updatedCount, insertedCount);
        StepFacts(cur, csvRows[k]);
        var o := ImportRowInto(csvRows[k]);
        if o == Fail {
          return Err(ValidationFailed);
        }
        if o == Update {
          updatedCount := updatedCount + 1;
        } else if o == Insert {
          insertedCount := insertedCount + 1;
        }
        k := k + 1;
      }
      r := Ok((updatedCount, insertedCount));
    }
  }
}

=== FILE: common.dfy ===
/** Shared vocabulary: optional values, results, identifiers and the
    error taxonomy the controllers answer with. */
module Common {

  datatype Option<+T> = None | Some(value: T) {
    /** The value, or the given fallback when absent. */
    function GetOr(default: T): T {
      match this
      case Some(v) => v
      case None => default
    }
  }

  datatype Result<+R, +E> = Ok(value: R) | Err(error: E)

  /** Row ids of the product, location and category tables (index of the row). */
  type ProductId = nat
  type LocationId = nat
  type CategoryId = nat
  /** Transaction ids (fresh for every created record, never reused). */
  type TxId = nat
  type CompanyId = nat
  type UserId = nat
  /** Instants (milliseconds), supplied by the caller instead of a clock. */
  type Time = int

  datatype Role = Admin | User

  /** The authenticated caller: its id, its role and the location it belongs to. */
  datatype Principal = Principal(id: UserId, role: Role, locationId: LocationId)

  /** Every way a controller call can fail; each one maps to an HTTP status below. */
  datatype Error =
    | InvalidType
    | CompanyRequired
    | CompanyNotFound
    | FromLocationRequired
    | InvalidFromLocation
    | ToLocationRequired
    | InvalidToLocation
    | ProductNotFound(product: ProductId)
    | TransactionNotFound
    | AlreadyProcessed
    | NotInbound
    | NotPurchase
    | NotEditable
    | InsufficientStock(product: ProductId)
    | OnlyApprovedCancellable
    | NotCancelled
    | NotDraft
    | DuplicatePoNumber
    | CategoryNotFound
    | LocationNotFound
    | HeadquartersLocation
    | DuplicateProduct
    | BlankItemCode
    | ItemCodeExists
    | NoProductWithCode
    | ProductMissing
    | ValidationFailed

  /** The HTTP status the source sends for each error. Thrown errors (a
      missing product in a snapshot, insufficient stock, a unique-index
      violation, a schema validation failure) reach the catch block: 500. */
  function HttpStatus(e: Error): (code: nat)
    ensures code in {400, 404, 500}
  {
    match e
    case InvalidType => 400
    case CompanyRequired => 400
    case CompanyNotFound => 404
    case FromLocationRequired => 400
    case InvalidFromLocation => 400
    case ToLocationRequired => 400
    case InvalidToLocation => 400
    case ProductNotFound(_) => 500
    case TransactionNotFound => 404
    case AlreadyProcessed => 400
    case NotInbound => 400
    case NotPurchase => 400
    case NotEditable => 400
    case InsufficientStock(_) => 500
    case OnlyApprovedCancellable => 400
    case NotCancelled => 400
    case NotDraft => 400
    case DuplicatePoNumber => 500
    case CategoryNotFound => 400
    case LocationNotFound => 400
    case HeadquartersLocation => 400
    case DuplicateProduct => 400
    case BlankItemCode => 400
    case ItemCodeExists => 400
    case NoProductWithCode => 404
    case ProductMissing => 404
    case ValidationFailed => 500
  }
}

=== FILE: creation.dfy ===
/** createTransaction (backend/controllers/transactionController.js:7-167):
    validation in a fixed order, the per-line price snapshot, the transfer's
    pre-provisioning of destination rows, and the new record with the
    poNumber the save hook gives it. */
module Creation {
  import opened Common
  import opened Text
  import opened TransactionModel
  import opened Catalog
  import opened StockEffects
  import opened LedgerState

  /** One requested line. `unitPrice` and `discountPercent` are already
      numbers, 0 when absent or falsy; `customPrice` is present when it is a
      number. */
  datatype LineRequest = LineRequest(
    product: ProductId,
    quantity: int,
    receivedQuantity: int,
    unitPrice: real,
    discountPercent: real,
    customPrice: Option<real>)

  datatype CreateRequest = CreateRequest(
    txType: string,
    lines: seq<LineRequest>,
    fromLocation: Option<LocationId>,
    toLocation: Option<LocationId>,
    company: Option<CompanyId>,
    linkedTransaction: Option<TxId>,
    deliverTo: string,
    deliveryDate: Option<Time>,
    status: Option<string>)

  /** The company and locations a type needs are given and exist. */
  predicate Admissible(dir: Directory, t: TxType, req: CreateRequest) {
    (NeedsCompany(t) ==> req.company.Some? && req.company.value in dir.companies)
    && (NeedsFrom(t) ==> req.fromLocation.Some? && req.fromLocation.value < dir.locationCount)
    && (NeedsTo(t) ==> req.toLocation.Some? && req.toLocation.value < dir.locationCount)
  }

  /** The guards in the order the handler runs them: type, company (sale and
      purchase), source (sale, outbound, transfer), destination (inbound,
      transfer, purchase). */
  function ValidateCreate(dir: Directory, req: CreateRequest): (r: Result<TxType, Error>)
    ensures r.Ok? <==> ParseType(req.txType).Some? && Admissible(dir, ParseType(req.txType).value, req)
    ensures r.Ok? ==> r.value == ParseType(req.txType).value
    ensures r == Err(InvalidType) <==> ParseType(req.txType).None?
    ensures r == Err(CompanyRequired) <==>
            ParseType(req.txType).Some? && NeedsCompany(ParseType(req.txType).value) && req.company.None?
  {
    match ParseType(req.txType)
    case None => Err(InvalidType)
    case Some(t) =>
      if NeedsCompany(t) && req.company.None? then Err(CompanyRequired)
      else if NeedsCompany(t) && req.company.value !in dir.companies then Err(CompanyNotFound)
      else if NeedsFrom(t) && req.fromLocation.None? then Err(FromLocationRequired)
      else if NeedsFrom(t) && req.fromLocation.value >= dir.locationCount then Err(InvalidFromLocation)
      else if NeedsTo(t) && req.toLocation.None? then Err(ToLocationRequired)
      else if NeedsTo(t) && req.toLocation.value >= dir.locationCount then Err(InvalidToLocation)
      else Ok(t)
  }

  /** `price * (1 - discount / 100)`. */
  function Discounted(price: real, discount: real): real {
    price * (1.0 - discount / 100.0)
  }

  /** A discount between 0 and 100 percent never raises the price nor makes
      it negative, and no discount leaves it as it is. */
  lemma DiscountBounds(price: real, discount: real)
    requires price >= 0.0 && 0.0 <= discount <= 100.0
    ensures 0.0 <= Discounted(price, discount) <= price
    ensures discount == 0.0 ==> Discounted(price, discount) == price
    ensures discount == 100.0 ==> Discounted(price, discount) == 0.0
  {
    var f := 1.0 - discount / 100.0;
    assert 0.0 <= f <= 1.0;
    assert price * f <= price * 1.0 by {
      assert price * (1.0 - f) >= 0.0;
    }
  }

  /** The purchase unit price: the requested one, or the product's cost. */
  function PurchaseUnit(req: LineRequest, p: Product): real {
    if req.unitPrice != 0.0 then req.unitPrice else p.costPrice
  }

  /** The sale price: the custom one, or the product's selling price. */
  function SalePrice(req: LineRequest, p: Product): real {
    req.customPrice.GetOr(p.sellingPrice)
  }

  /** The snapshot of one line: the product's cost and selling price are
      frozen into it; a purchase prices it from the request or the cost, a
      sale from the custom or the selling price, both with the discount
      applied; other types carry no price. */
  function SnapshotLine(t: TxType, req: LineRequest, p: Product): (l: Line)
    ensures l.product == req.product && l.quantity == req.quantity
    ensures l.receivedQuantity == Some(req.receivedQuantity) && l.expectedQuantity.None?
    ensures l.costPriceAtTransaction == Some(p.costPrice) && l.sellingPrice == Some(p.sellingPrice)
    ensures t == Purchase ==> l.unitPrice == PurchaseUnit(req, p) && l.transactionSellingPrice == 0.0
    ensures t == Sale ==> l.unitPrice == SalePrice(req, p) && l.transactionSellingPrice == l.unitPrice
    ensures t == Purchase || t == Sale ==>
              l.discountPercent == req.discountPercent && l.discountedPrice == Discounted(l.unitPrice, l.discountPercent)
    ensures t != Purchase && t != Sale ==>
              l.unitPrice == 0.0 && l.transactionSellingPrice == 0.0 && l.discountPercent == 0.0 && l.discountedPrice == 0.0
  {
    var base := Line(req.product, req.quantity, Some(req.receivedQuantity), None,
                     Some(p.costPrice), Some(p.sellingPrice), 0.0, 0.0, 0.0, 0.0);
    if t == Purchase then
      var u := PurchaseUnit(req, p);
      base.(unitPrice := u, discountPercent := req.discountPercent,
            discountedPrice := Discounted(u, req.discountPercent))
    else if t == Sale then
      var a := SalePrice(req, p);
      base.(transactionSellingPrice := a, unitPrice := a, discountPercent := req.discountPercent,
            discountedPrice := Discounted(a, req.discountPercent))
    else base
  }

  /** `Promise.all(products.map(...))`: every requested product must exist;
      `Promise.all` rejects with whichever lookup fails first in time; the
      model picks the first missing product by position. */
  function Snapshots(t: TxType, reqs: seq<LineRequest>, rows: seq<Product>): (r: Result<seq<Line>, Error>)
    ensures r.Ok? <==> forall i :: 0 <= i < |reqs| ==> reqs[i].product < |rows|
    ensures r.Ok? ==> |r.value| == |reqs|
                      && forall i :: 0 <= i < |reqs| ==> r.value[i] == SnapshotLine(t, reqs[i], rows[reqs[i].product])
    ensures r.Err? ==> exists i :: 0 <= i < |reqs| && reqs[i].product >= |rows|
                                   && r.error == ProductNotFound(reqs[i].product)
                                   && forall j :: 0 <= j < i ==> reqs[j].product < |rows|
  {
    if reqs == [] then Ok([])
    else if reqs[0].product >= |rows| then Err(ProductNotFound(reqs[0].product))
    else
      match Snapshots(t, reqs[1..], rows)
      case Err(e) =>
        assert forall i :: 1 <= i < |reqs| ==> reqs[i] == reqs[1..][i - 1];
        Err(e)
      case Ok(ls) => Ok([SnapshotLine(t, reqs[0], rows[reqs[0].product])] + ls)
  }

  /** The record the handler writes: fields the type does not use are left
      unset; the status is `draft` only on request. */
  function NewRecord(t: TxType, req: CreateRequest, lines: seq<Line>, po: Option<string>,
                     user: UserId, now: Time): Transaction
  {
    Transaction(t, po,
                if NeedsCompany(t) then req.company else None,
                if NeedsFrom(t) then req.fromLocation else None,
                if NeedsTo(t) then req.toLocation else None,
                req.linkedTransaction, lines, user, None, InitialStatus(req.status),
                req.deliverTo, req.deliveryDate, "", None, None, None, now)
  }

  /** The poNumber the hook gives a record of type `t` created now. */
  function GeneratedPo(db: Db, t: TxType, year: nat): Option<string> {
    SaveHook(t, None, year, LatestPoWithPrefix(db.txs, PoPrefix(year), db.nextId))
  }

  /** The whole handler on the database: the new state and the new id. The
      destination rows a transfer provisions are, in the source, written
      before the record and would stay if it were refused; here they are
      committed together with it. */
  function CreateEffect(db: Db, dir: Directory, req: CreateRequest, user: UserId, now: Time, year: nat)
    : Result<(Db, TxId), Error>
  {
    match ValidateCreate(dir, req)
    case Err(e) => Err(e)
    case Ok(t) =>
      match Snapshots(t, req.lines, db.rows)
      case Err(e) => Err(e)
      case Ok(lines) =>
        var rows := if t == Transfer then Provision(db.rows, lines, req.toLocation.value).0 else db.rows;
        var po := GeneratedPo(db, t, year);
        if PoTaken(db.txs, po) then Err(DuplicatePoNumber)
        else Ok((Db(db.txs[db.nextId := NewRecord(t, req, lines, po, user, now)], rows, db.nextId + 1), db.nextId))
  }

  /** What a successful create stores: a fresh id, the parsed type, the
      snapshot lines, the requested status, only the fields its type uses,
      a generated poNumber exactly for purchases; stock totals per item code
      are unchanged (a transfer only adds empty destination rows). And it
      fails exactly on a guard, a missing product or a taken poNumber. */
  lemma CreateOutcome(db: Db, dir: Directory, req: CreateRequest, user: UserId, now: Time, year: nat, code: string)
    requires DbValid(db, dir.locationCount)
    ensures var e := CreateEffect(db, dir, req, user, now, year);
      e.Ok? <==> ValidateCreate(dir, req).Ok? && Snapshots(ValidateCreate(dir, req).value, req.lines, db.rows).Ok?
                 && !PoTaken(db.txs, GeneratedPo(db, ValidateCreate(dir, req).value, year))
    ensures var e := CreateEffect(db, dir, req, user, now, year);
      e.Ok? ==>
        var (db2, id) := e.value;
        var t := ParseType(req.txType).value;
        var rec := db2.txs[id];
        id == db.nextId && id !in db.txs && db2.nextId == id + 1
        && db2.txs == db.txs[id := rec]
        && rec.txType == t && TypeName(rec.txType) == req.txType
        && rec.lines == Snapshots(t, req.lines, db.rows).value
        && rec.status == InitialStatus(req.status) && rec.requestedBy == user && rec.approvedBy.None?
        && (rec.company.Some? <==> NeedsCompany(t)) && (rec.fromLocation.Some? <==> NeedsFrom(t))
        && (rec.toLocation.Some? <==> NeedsTo(t))
        && (t == Purchase <==> rec.poNumber.Some?)
        && (NeedsCompany(t) ==> rec.company == req.company)
        && (NeedsFrom(t) ==> rec.fromLocation == req.fromLocation)
        && (NeedsTo(t) ==> rec.toLocation == req.toLocation)
        && rec.linkedTransaction == req.linkedTransaction
        && rec.deliverTo == req.deliverTo && rec.deliveryDate == req.deliveryDate
        && rec.poNumber == GeneratedPo(db, t, year) && rec.createdAt == now
        && (t != Transfer ==> db2.rows == db.rows)
        && SumCode(db2.rows, code) == SumCode(db.rows, code)
  {
    var e := CreateEffect(db, dir, req, user, now, year);
    if e.Ok? {
      var t := ParseType(req.txType).value;
      var lines := Snapshots(t, req.lines, db.rows).value;
      if t == Transfer {
        ProvisionKeepsStock(db.rows, lines, req.toLocation.value, code);
      }
    }
  }

  /** A successful create keeps the stored-data invariant and the products
      table sound. */
  lemma CreateKeepsValid(db: Db, dir: Directory, nCat: nat, req: CreateRequest, user: UserId, now: Time, year: nat)
    requires DbValid(db, dir.locationCount) && Sound(db.rows, dir.locationCount, nCat)
    requires CreateEffect(db, dir, req, user, now, year).Ok?
    ensures DbValid(CreateEffect(db, dir, req, user, now, year).value.0, dir.locationCount)
    ensures Sound(CreateEffect(db, dir, req, user, now, year).value.0.rows, dir.locationCount, nCat)
  {
    var t := ParseType(req.txType).value;
    var lines := Snapshots(t, req.lines, db.rows).value;
    var po := GeneratedPo(db, t, year);
    var rec := NewRecord(t, req, lines, po, user, now);
    assert PoShape(rec);
    InsertKeepsPoUnique(db.txs, db.nextId, rec);
    if t == Transfer {
      ProvisionFacts(db.rows, lines, req.toLocation.value, dir.locationCount, nCat);
    }
  }

  /** Purchases created one after the other in the same year are numbered
      consecutively: the first of a year gets `<year>-00001`, and a purchase
      created right after `<year>-n` gets `<year>-(n+1)`. */
  lemma ConsecutivePurchases(db: Db, dir: Directory, req: CreateRequest,
                             user: UserId, now: Time, year: nat, n: nat)
    requires DbValid(db, dir.locationCount)
    requires ParseType(req.txType) == Some(Purchase)
    requires CreateEffect(db, dir, req, user, now, year).Ok?
    requires CreateEffect(db, dir, req, user, now, year).value.0.txs[db.nextId].poNumber == Some(FormatPo(year, n))
    ensures GeneratedPo(CreateEffect(db, dir, req, user, now, year).value.0, Purchase, year)
            == Some(FormatPo(year, n + 1))
  {
    var db2 := CreateEffect(db, dir, req, user, now, year).value.0;
    var rec := db2.txs[db.nextId];
    assert db2.txs == db.txs[db.nextId := rec] && db2.nextId == db.nextId + 1 && rec.txType == Purchase by {
      CreateOutcome(db, dir, req, user, now, year, []);
    }
    NextAfterInsert(db, db2, rec, year, n);
  }

  /** Two purchases created one after the other in the same year: when the
      first is stored as `<year>-n`, the hook would number the second
      `<year>-(n+1)`. The stored number is the one the hook generated from
      the table before the create. */
  lemma CreateNumbersInOrder(db: Db, dir: Directory, req: CreateRequest,
                             user: UserId, now: Time, year: nat, n: nat)
    requires DbValid(db, dir.locationCount)
    requires ParseType(req.txType) == Some(Purchase)
    requires CreateEffect(db, dir, req, user, now, year).Ok?
    requires GeneratedPo(db, Purchase, year) == Some(FormatPo(year, n))
    ensures CreateEffect(db, dir, req, user, now, year).value.0.txs[db.nextId].poNumber == Some(FormatPo(year, n))
    ensures GeneratedPo(CreateEffect(db, dir, req, user, now, year).value.0, Purchase, year)
            == Some(FormatPo(year, n + 1))
  {
    CreateOutcome(db, dir, req, user, now, year, []);
    ConsecutivePurchases(db, dir, req, user, now, year, n);
  }

  /** Once a purchase numbered `<year>-n` is the newest record, the hook
      numbers the next purchase `<year>-(n+1)`. */
  lemma NextAfterInsert(db: Db, db2: Db, rec: Transaction, year: nat, n: nat)
    requires db2.txs == db.txs[db.nextId := rec] && db2.nextId == db.nextId + 1
    requires rec.txType == Purchase && rec.poNumber == Some(FormatPo(year, n))
    ensures GeneratedPo(db2, Purchase, year) == Some(FormatPo(year, n + 1))
  {
    FormatPoHasPrefix(year, n);
    LatestAfterInsert(db.txs, PoPrefix(year), db.nextId, rec);
    NextAfterGenerated(year, n);
  }

  lemma FormatPoHasPrefix(year: nat, n: nat)
    ensures StartsWith(FormatPo(year, n), PoPrefix(year))
  {
    var po := FormatPo(year, n);
    assert po == PoPrefix(year) + PadStart(NatToString(n), 5, '0');
    assert po[..|PoPrefix(year)|] == PoPrefix(year);
  }

  /** The newest record, when it is a purchase with a matching poNumber, is
      the latest one the hook finds. */
  lemma LatestAfterInsert(txs: map<TxId, Transaction>, prefix: string, hi: nat, t: Transaction)
    requires t.txType == Purchase && t.poNumber.Some? && StartsWith(t.poNumber.value, prefix)
    ensures LatestPoWithPrefix(txs[hi := t], prefix, hi + 1) == t.poNumber
  {
  }

  /** The first purchase of a year, when no purchase has that year's
      prefix yet, is number 1. */
  lemma FirstPurchaseOfYear(db: Db, year: nat)
    requires LatestPoWithPrefix(db.txs, PoPrefix(year), db.nextId).None?
    ensures GeneratedPo(db, Purchase, year) == Some(FormatPo(year, 1))
  {
  }

  /** The handler itself: validate, snapshot, provision a transfer's
      destination rows line by line, then write the record. */
  method CreateStep(db: Db, dir: Directory, req: CreateRequest, user: UserId, now: Time, year: nat)
    returns (r: Result<(Db, TxId), Error>)
    ensures r == CreateEffect(db, dir, req, user, now, year)
  {
    var v := ValidateCreate(dir, req);
    if v.Err? {
      return Err(v.error);
    }
    var t := v.value;
    var s := Snapshots(t, req.lines, db.rows);
    if s.Err? {
      return Err(s.error);
    }
    var rows := db.rows;
    if t == Transfer {
      var inbound;
      rows, inbound := ApplyProvision(db.rows, s.value, req.toLocation.value);
    }
    var po := GeneratedPo(db, t, year);
    if PoTaken(db.txs, po) {
      return Err(DuplicatePoNumber);
    }
    r := Ok((Db(db.txs[db.nextId := NewRecord(t, req, s.value, po, user, now)], rows, db.nextId + 1), db.nextId));
  }
}

=== FILE: csv_import.dfy ===
/** The products tab's CSV import up to the requests it sends
    (frontend/src/components/ProductTab.jsx:110-294): the non-blank lines,
    the header row mapped to columns, a first pass that collects the
    location and category names not yet known, the creation of those
    names, and a second pass that maps each row to a product or skips it. */
module CsvImport {
  import opened Common
  import opened Text
  import opened CsvLine

  /** The product fields a column can feed. */
  datatype Field = ItemCodeCol | ProductNameCol | DescriptionCol | UnitCol | CostCol | PriceCol | StockCol | LocationCol | CategoryCol

  /** The header spellings each field accepts (ProductTab.jsx:136-146). */
  function Variants(f: Field): seq<string> {
    match f
    case ItemCodeCol => ["itemcode", "item code", "code", "sku"]
    case ProductNameCol => ["productname", "product name", "name", "product"]
    case DescriptionCol => ["productdescription", "product description", "description", "desc"]
    case UnitCol => ["unitmeasure", "unit measure", "unit", "uom"]
    case CostCol => ["costprice", "cost price", "cost"]
    case PriceCol => ["sellingprice", "selling price", "price", "sell price"]
    case StockCol => ["stock", "quantity", "qty"]
    case LocationCol => ["location", "locationname", "location name"]
    case CategoryCol => ["category", "categoryname", "category name"]
  }

  /** The fields in the order the mapping visits them. */
  const AllFields: seq<Field> := [ItemCodeCol, ProductNameCol, DescriptionCol, UnitCol, CostCol, PriceCol, StockCol, LocationCol, CategoryCol]

  /** The columns without which the import stops. */
  const Required: seq<Field> := [ItemCodeCol, ProductNameCol, LocationCol, CategoryCol]

  lemma AllFieldsComplete(f: Field)
    ensures f in AllFields
  {
  }

  /** The header row: each parsed cell without quotes, lower-cased. */
  function HeaderOf(line: string): seq<string> {
    var fs := ParseLine(line);
    seq(|fs|, i requires 0 <= i < |fs| => Lower(RemoveQuotes(fs[i])))
  }

  /** A data row: each parsed cell without quotes. */
  function ValuesOf(line: string): seq<string> {
    var fs := ParseLine(line);
    seq(|fs|, i requires 0 <= i < |fs| => RemoveQuotes(fs[i]))
  }

  /** `header.findIndex(h => variants.includes(h))`, searching from `k`. */
  function FirstIndex(header: seq<string>, vs: seq<string>, k: nat): (r: Option<nat>)
    ensures r.Some? ==> k <= r.value < |header| && header[r.value] in vs
    ensures r.Some? ==> forall j :: k <= j < r.value ==> header[j] !in vs
    ensures r.None? ==> forall j :: k <= j < |header| ==> header[j] !in vs
    decreases |header| - k
  {
    if k >= |header| then None
    else if header[k] in vs then Some(k)
    else FirstIndex(header, vs, k + 1)
  }

  /** The column a field reads: the first header cell among its spellings. */
  function ColumnOf(header: seq<string>, f: Field): Option<nat> {
    FirstIndex(header, Variants(f), 0)
  }

  function ColumnsFrom(header: seq<string>, fs: seq<Field>): (m: map<Field, nat>)
    ensures forall f :: f in m <==> f in fs && ColumnOf(header, f).Some?
    ensures forall f :: f in m ==> m[f] == ColumnOf(header, f).value
  {
    if fs == [] then map[]
    else
      var m := ColumnsFrom(header, fs[..|fs| - 1]);
      var f := fs[|fs| - 1];
      assert forall g :: g in fs <==> g in fs[..|fs| - 1] || g == f;
      var c := ColumnOf(header, f);
      if c.Some? then m[f := c.value] else m
  }

  /** `columnIndices`: a field is mapped exactly when one of its spellings
      is in the header, and then to the first such cell. */
  function Columns(header: seq<string>): (m: map<Field, nat>)
    ensures forall f :: f in m <==> ColumnOf(header, f).Some?
    ensures forall f :: f in m ==> m[f] == ColumnOf(header, f).value
  {
    forall f ensures f in AllFields { AllFieldsComplete(f); }
    ColumnsFrom(header, AllFields)
  }

  /** `findIndex`, as a loop. */
  method FindIndex(header: seq<string>, vs: seq<string>) returns (r: Option<nat>)
    ensures r == FirstIndex(header, vs, 0)
  {
    var k := 0;
    while k < |header|
      invariant k <= |header|
      invariant FirstIndex(header, vs, 0) == FirstIndex(header, vs, k)
    {
      if header[k] in vs {
        return Some(k);
      }
      k := k + 1;
    }
    return None;
  }

  /** The loop over the header map that fills `columnIndices`. */
  method MapColumns(header: seq<string>) returns (cols: map<Field, nat>)
    ensures cols == Columns(header)
  {
    cols := map[];
    for i := 0 to |AllFields|
      invariant cols == ColumnsFrom(header, AllFields[..i])
    {
      assert AllFields[..i + 1][..i] == AllFields[..i];
      var f := AllFields[i];
      var index := FindIndex(header, Variants(f));
      if index.Some? {
        cols := cols[f := index.value];
      }
    }
    assert AllFields[..|AllFields|] == AllFields;
  }

  /** `requiredFields.filter(f => columnIndices[f] === undefined)`. */
  function Missing(cols: map<Field, nat>, fs: seq<Field>): (r: seq<Field>)
    ensures forall f :: f in r <==> f in fs && f !in cols
    ensures |r| <= |fs|
  {
    if fs == [] then []
    else
      var rest := Missing(cols, fs[..|fs| - 1]);
      var f := fs[|fs| - 1];
      assert forall g :: g in fs <==> g in fs[..|fs| - 1] || g == f;
      if f !in cols then rest + [f] else rest
  }

  /** `values[columnIndices[f]] || ""`: the cell, or "" when the field is
      unmapped or the row is short. */
  function Cell(values: seq<string>, cols: map<Field, nat>, f: Field): string {
    if f in cols && cols[f] < |values| then values[cols[f]] else ""
  }

  // ---------------------------------------------------------------------
  // First pass: names to create

  predicate NoDup(s: seq<string>) {
    forall i, j :: 0 <= i < j < |s| ==> s[i] != s[j]
  }

  /** A field's cell on each data line. */
  function NamesOf(lines: seq<string>, cols: map<Field, nat>, f: Field): (r: seq<string>)
    ensures |r| == |lines| && forall i :: 0 <= i < |lines| ==> r[i] == Cell(ValuesOf(lines[i]), cols, f)
  {
    seq(|lines|, i requires 0 <= i < |lines| => Cell(ValuesOf(lines[i]), cols, f))
  }

  /** The names a `Set` collects: each non-empty unknown name, once, in
      the order first seen. */
  function Collect(names: seq<string>, known: set<string>): seq<string> {
    if names == [] then []
    else
      var rest := Collect(names[..|names| - 1], known);
      var n := names[|names| - 1];
      if n != "" && n !in known && n !in rest then rest + [n] else rest
  }

  /** The names collected are non-empty, unknown, taken from the rows and
      each collected once. */
  lemma {:induction false} CollectFacts(names: seq<string>, known: set<string>)
    ensures NoDup(Collect(names, known))
    ensures forall x :: x in Collect(names, known) ==> x != "" && x !in known && x in names
  {
    if names != [] {
      var init := names[..|names| - 1];
      CollectFacts(init, known);
      assert forall x :: x in init ==> x in names;
    }
  }

  /** Every non-empty unknown name of a row is among the names collected. */
  lemma {:induction false} CollectComplete(names: seq<string>, known: set<string>)
    ensures forall i :: 0 <= i < |names| && names[i] != "" && names[i] !in known ==> names[i] in Collect(names, known)
  {
    if names != [] {
      var init := names[..|names| - 1];
      CollectComplete(init, known);
      forall i | 0 <= i < |names| - 1
        ensures names[i] == init[i]
      {
      }
    }
  }

  /** The first pass over the data lines. */
  method FirstPass(lines: seq<string>, cols: map<Field, nat>, knownLocations: set<string>, knownCategories: set<string>)
    returns (newLocations: seq<string>, newCategories: seq<string>)
    ensures newLocations == Collect(NamesOf(lines, cols, LocationCol), knownLocations)
    ensures newCategories == Collect(NamesOf(lines, cols, CategoryCol), knownCategories)
  {
    newLocations := [];
    newCategories := [];
    for i := 0 to |lines|
      invariant newLocations == Collect(NamesOf(lines[..i], cols, LocationCol), knownLocations)
      invariant newCategories == Collect(NamesOf(lines[..i], cols, CategoryCol), knownCategories)
    {
      var fields := ParseCsvLine(lines[i]);
      var values := seq(|fields|, k requires 0 <= k < |fields| => RemoveQuotes(fields[k]));
      var locationName := Cell(values, cols, LocationCol);
      var categoryName := Cell(values, cols, CategoryCol);
      if locationName != "" && locationName !in knownLocations && locationName !in newLocations {
        newLocations := newLocations + [locationName];
      }
      if categoryName != "" && categoryName !in knownCategories && categoryName !in newCategories {
        newCategories := newCategories + [categoryName];
      }
      NamesOfPrefix(lines, cols, LocationCol, i);
      NamesOfPrefix(lines, cols, CategoryCol, i);
    }
    assert lines[..|lines|] == lines;
  }

  lemma NamesOfPrefix(lines: seq<string>, cols: map<Field, nat>, f: Field, i: nat)
    requires i < |lines|
    ensures NamesOf(lines[..i + 1], cols, f)[..i] == NamesOf(lines[..i], cols, f)
    ensures NamesOf(lines[..i + 1], cols, f)[i] == Cell(ValuesOf(lines[i]), cols, f)
  {
  }

  // ---------------------------------------------------------------------
  // Creating the missing names

  /** The name map after the creation requests: a name the server created
      with an id is added; a failed request (absent from `created`, or an
      answer without an id) leaves the name unresolved. */
  function Resolve(m: map<string, string>, names: seq<string>, created: map<string, string>): (r: map<string, string>)
    ensures forall n :: n in r <==> n in m || (n in names && n in created && created[n] != "")
    ensures forall n :: n in names && n in created && created[n] != "" ==> r[n] == created[n]
    ensures forall n :: n in m && !(n in names && n in created && created[n] != "") ==> r[n] == m[n]
  {
    if names == [] then m
    else
      var init := names[..|names| - 1];
      var n := names[|names| - 1];
      assert forall x :: x in names <==> x in init || x == n;
      var rest := Resolve(m, init, created);
      if n in created && created[n] != "" then rest[n := created[n]] else rest
  }

  /** The loop that posts each new name and records the id it gets back. */
  method CreateNames(m: map<string, string>, names: seq<string>, created: map<string, string>) returns (r: map<string, string>)
    ensures r == Resolve(m, names, created)
  {
    r := m;
    for i := 0 to |names|
      invariant r == Resolve(m, names[..i], created)
    {
      assert names[..i + 1][..i] == names[..i];
      var n := names[i];
      if n in created && created[n] != "" {
        r := r[n := created[n]];
      }
    }
    assert names[..|names|] == names;
  }

  // ---------------------------------------------------------------------
  // Second pass: rows to products

  /** The product object a row becomes; `unitMeasure` is sent although the
      server's product schema does not keep it. */
  datatype ImportedProduct = ImportedProduct(
    itemCode: string, productName: string, productDescription: string, unitMeasure: string,
    costPrice: real, sellingPrice: real, stock: int,
    locationId: string, categoryId: string)

  /** `map.get(name) || ""` */
  function Lookup(m: map<string, string>, k: string): string {
    if k in m then m[k] else ""
  }

  /** `parseFloat(s) || 0`, `parseFloat` being a parameter (None is NaN).
      A missing or empty cell is always NaN, so it reads as 0. */
  function RealOrZero(parseFloat: string -> Option<real>, s: string): (r: real)
    ensures parseFloat(s).None? ==> r == 0.0
    ensures s == "" ==> r == 0.0
    ensures s != "" && parseFloat(s).Some? ==> r == parseFloat(s).value
  {
    if s == "" then 0.0
    else
      match parseFloat(s)
      case None => 0.0
      case Some(x) => x
  }

  predicate AllEmpty(values: seq<string>) {
    forall i :: 0 <= i < |values| ==> values[i] == ""
  }

  /** The product object the second pass builds from a row's cells. */
  function RowProduct(values: seq<string>, cols: map<Field, nat>, locations: map<string, string>,
                      categories: map<string, string>, parseFloat: string -> Option<real>): ImportedProduct {
    ImportedProduct(
      Cell(values, cols, ItemCodeCol),
      Cell(values, cols, ProductNameCol),
      Cell(values, cols, DescriptionCol),
      Or(Cell(values, cols, UnitCol), "pcs"),
      RealOrZero(parseFloat, Cell(values, cols, CostCol)),
      RealOrZero(parseFloat, Cell(values, cols, PriceCol)),
      ParseIntAuto(Cell(values, cols, StockCol)).GetOr(0),
      Lookup(locations, Cell(values, cols, LocationCol)),
      Lookup(categories, Cell(values, cols, CategoryCol)))
  }

  /** One data row: the product, or None when the row is skipped. */
  function MapRow(values: seq<string>, cols: map<Field, nat>, locations: map<string, string>,
                  categories: map<string, string>, parseFloat: string -> Option<real>): (r: Option<ImportedProduct>)
    ensures r.Some? ==> Complete(r.value)
  {
    if AllEmpty(values) then None
    else
      var p := RowProduct(values, cols, locations, categories, parseFloat);
      if p.itemCode == "" || p.productName == "" then None
      else if p.locationId == "" then None
      else if p.categoryId == "" then None
      else Some(p)
  }

  /** A row is skipped exactly when all its cells are empty, when the item
      code or the name is empty, or when the location or the category does
      not resolve; a row that is kept carries its cells, "pcs" for a
      missing unit, 0 for a price or stock that does not parse or whose
      cell is missing or empty, a price's parsed value otherwise, and the
      value of a stock cell of plain digits. */
  lemma MapRowFacts(values: seq<string>, cols: map<Field, nat>, locations: map<string, string>,
                    categories: map<string, string>, parseFloat: string -> Option<real>)
    ensures var r := MapRow(values, cols, locations, categories, parseFloat);
      r.Some? <==>
        !AllEmpty(values)
        && Cell(values, cols, ItemCodeCol) != "" && Cell(values, cols, ProductNameCol) != ""
        && Lookup(locations, Cell(values, cols, LocationCol)) != ""
        && Lookup(categories, Cell(values, cols, CategoryCol)) != ""
    ensures var r := MapRow(values, cols, locations, categories, parseFloat);
      r.Some? ==>
        var p := r.value;
        p.itemCode == Cell(values, cols, ItemCodeCol) && p.productName == Cell(values, cols, ProductNameCol)
        && p.productDescription == Cell(values, cols, DescriptionCol)
        && p.locationId == locations[Cell(values, cols, LocationCol)]
        && p.categoryId == categories[Cell(values, cols, CategoryCol)]
        && p.unitMeasure == (if Cell(values, cols, UnitCol) == "" then "pcs" else Cell(values, cols, UnitCol))
        && (ParseIntAuto(Cell(values, cols, StockCol)).None? ==> p.stock == 0)
        && (|Cell(values, cols, StockCol)| >= 1 && AllDigits(Cell(values, cols, StockCol)) ==>
              p.stock == DigitsValue(Cell(values, cols, StockCol)))
        && (var c := Cell(values, cols, StockCol);
            |c| >= 3 && c[..2] == "0x" && AllHex(c[2..]) ==> p.stock == HexValue(c[2..]))
        && (parseFloat(Cell(values, cols, CostCol)).None? ==> p.costPrice == 0.0)
        && (parseFloat(Cell(values, cols, PriceCol)).None? ==> p.sellingPrice == 0.0)
        && (Cell(values, cols, CostCol) == "" ==> p.costPrice == 0.0)
        && (Cell(values, cols, PriceCol) == "" ==> p.sellingPrice == 0.0)
        && (var c := Cell(values, cols, CostCol); c != "" && parseFloat(c).Some? ==> p.costPrice == parseFloat(c).value)
        && (var c := Cell(values, cols, PriceCol); c != "" && parseFloat(c).Some? ==> p.sellingPrice == parseFloat(c).value)
  {
    DigitCell(Cell(values, cols, StockCol));
  }

  /** A stock cell of plain digits is read in base 10, one of the form
      `0x` and hexadecimal digits in base 16. */
  lemma DigitCell(s: string)
    ensures |s| >= 1 && AllDigits(s) ==> ParseIntAuto(s) == Some(DigitsValue(s) as int)
    ensures |s| >= 3 && s[..2] == "0x" && AllHex(s[2..]) ==> ParseIntAuto(s) == Some(HexValue(s[2..]) as int)
  {
    if |s| >= 1 && AllDigits(s) {
      ParseDigitsAuto(s);
    }
    if |s| >= 3 && s[..2] == "0x" && AllHex(s[2..]) {
      ParseHex(s);
    }
  }

  /** `a || b` on strings. */
  function Or(a: string, b: string): string {
    if a != "" then a else b
  }

  /** The products the second pass pushes, in row order. */
  function MapRows(lines: seq<string>, cols: map<Field, nat>, locations: map<string, string>,
                   categories: map<string, string>, parseFloat: string -> Option<real>): seq<ImportedProduct> {
    if lines == [] then []
    else
      var rest := MapRows(lines[..|lines| - 1], cols, locations, categories, parseFloat);
      var row := MapRow(ValuesOf(lines[|lines| - 1]), cols, locations, categories, parseFloat);
      if row.Some? then rest + [row.value] else rest
  }

  /** A product with every field the import insists on. */
  predicate Complete(p: ImportedProduct) {
    p.itemCode != "" && p.productName != "" && p.locationId != "" && p.categoryId != "" && p.unitMeasure != ""
  }

  /** At most one product per row, each with its item code, name, unit,
      location and category filled in. */
  lemma {:induction false} MapRowsComplete(lines: seq<string>, cols: map<Field, nat>, locations: map<string, string>,
                                           categories: map<string, string>, parseFloat: string -> Option<real>)
    ensures var ps := MapRows(lines, cols, locations, categories, parseFloat);
      |ps| <= |lines| && forall k :: 0 <= k < |ps| ==> Complete(ps[k])
  {
    if lines != [] {
      MapRowsComplete(lines[..|lines| - 1], cols, locations, categories, parseFloat);
      var row := MapRow(ValuesOf(lines[|lines| - 1]), cols, locations, categories, parseFloat);
      assert row.Some? ==> Complete(row.value);
    }
  }

  /** Each line's mapping, skipped or not, in line order. */
  function Mapped(lines: seq<string>, cols: map<Field, nat>, locations: map<string, string>,
                  categories: map<string, string>, parseFloat: string -> Option<real>): (r: seq<Option<ImportedProduct>>)
    ensures |r| == |lines|
  {
    if lines == [] then []
    else Mapped(lines[..|lines| - 1], cols, locations, categories, parseFloat)
         + [MapRow(ValuesOf(lines[|lines| - 1]), cols, locations, categories, parseFloat)]
  }

  /** Each product is the mapping of one of the rows. */
  lemma {:induction false} MapRowsFromRows(lines: seq<string>, cols: map<Field, nat>, locations: map<string, string>,
                                           categories: map<string, string>, parseFloat: string -> Option<real>)
    ensures forall p :: p in MapRows(lines, cols, locations, categories, parseFloat) ==>
      Some(p) in Mapped(lines, cols, locations, categories, parseFloat)
  {
    if lines != [] {
      var init := lines[..|lines| - 1];
      MapRowsFromRows(init, cols, locations, categories, parseFloat);
      var row := MapRow(ValuesOf(lines[|lines| - 1]), cols, locations, categories, parseFloat);
      var rest := MapRows(init, cols, locations, categories, parseFloat);
      var before := Mapped(init, cols, locations, categories, parseFloat);
      assert Mapped(lines, cols, locations, categories, parseFloat) == before + [row];
      assert MapRows(lines, cols, locations, categories, parseFloat) == if row.Some? then rest + [row.value] else rest;
    }
  }

  /** The second pass over the data lines. */
  method SecondPass(lines: seq<string>, cols: map<Field, nat>, locations: map<string, string>,
                    categories: map<string, string>, parseFloat: string -> Option<real>) returns (products: seq<ImportedProduct>)
    ensures products == MapRows(lines, cols, locations, categories, parseFloat)
  {
    products := [];
    for i := 0 to |lines|
      invariant products == MapRows(lines[..i], cols, locations, categories, parseFloat)
    {
      assert lines[..i + 1][..i] == lines[..i];
      var fields := ParseCsvLine(lines[i]);
      var values := seq(|fields|, k requires 0 <= k < |fields| => RemoveQuotes(fields[k]));
      var row := MapRow(values, cols, locations, categories, parseFloat);
      if row.None? {
        continue;
      }
      products := products + [row.value];
    }
    assert lines[..|lines|] == lines;
  }

  // ---------------------------------------------------------------------
  // The whole import

  datatype ImportError = EmptyFile | MissingColumns(fields: seq<Field>) | NoValidProducts

  /** What the import sends: the names it asks the server to create and
      the products it posts. */
  datatype ImportPlan = ImportPlan(newLocations: seq<string>, newCategories: seq<string>, products: seq<ImportedProduct>)

  /** The lines the import reads. */
  function ImportLines(text: string): seq<string> {
    NonBlank(SplitLines(text))
  }

  /** handleImport up to the product requests. `locations` and
      `categories` map the known names to their ids; `createdLocations`
      and `createdCategories` are the ids the server answers for the
      names it is asked to create. */
  function PlanImport(text: string, locations: map<string, string>, categories: map<string, string>,
                      createdLocations: map<string, string>, createdCategories: map<string, string>,
                      parseFloat: string -> Option<real>): Result<ImportPlan, ImportError> {
    PlanLines(ImportLines(text), locations, categories, createdLocations, createdCategories, parseFloat)
  }

  /** The import on the non-blank lines of the file. */
  function PlanLines(lines: seq<string>, locations: map<string, string>, categories: map<string, string>,
                     createdLocations: map<string, string>, createdCategories: map<string, string>,
                     parseFloat: string -> Option<real>): Result<ImportPlan, ImportError> {
    if |lines| < 2 then Err(EmptyFile)
    else
      var cols := Columns(HeaderOf(lines[0]));
      var missing := Missing(cols, Required);
      if missing != [] then Err(MissingColumns(missing))
      else Proceed(lines[1..], cols, locations, categories, createdLocations, createdCategories, parseFloat)
  }

  /** The import once the header is accepted: both passes and the name
      creation between them; it can only fail for want of a valid row. */
  function Proceed(data: seq<string>, cols: map<Field, nat>, locations: map<string, string>, categories: map<string, string>,
                   createdLocations: map<string, string>, createdCategories: map<string, string>,
                   parseFloat: string -> Option<real>): (r: Result<ImportPlan, ImportError>)
    ensures r.Err? ==> r.error == NoValidProducts
  {
    var newLocations := Collect(NamesOf(data, cols, LocationCol), locations.Keys);
    var newCategories := Collect(NamesOf(data, cols, CategoryCol), categories.Keys);
    var locs := Resolve(locations, newLocations, createdLocations);
    var cats := Resolve(categories, newCategories, createdCategories);
    var products := MapRows(data, cols, locs, cats, parseFloat);
    if products == [] then Err(NoValidProducts)
    else Ok(ImportPlan(newLocations, newCategories, products))
  }

  /** The handler as a sequence of the loops above. */
  method HandleImport(text: string, locations: map<string, string>, categories: map<string, string>,
                      createdLocations: map<string, string>, createdCategories: map<string, string>,
                      parseFloat: string -> Option<real>) returns (r: Result<ImportPlan, ImportError>)
    ensures r == PlanImport(text, locations, categories, createdLocations, createdCategories, parseFloat)
  {
    var lines := ImportLines(text);
    if |lines| < 2 {
      return Err(EmptyFile);
    }
    var fields := ParseCsvLine(lines[0]);
    var header := seq(|fields|, k requires 0 <= k < |fields| => Lower(RemoveQuotes(fields[k])));
    assert header == HeaderOf(lines[0]);
    var cols := MapColumns(header);
    var missing := Missing(cols, Required);
    if missing != [] {
      return Err(MissingColumns(missing));
    }
    r := ImportRows(lines[1..], cols, locations, categories, createdLocations, createdCategories, parseFloat);
  }

  /** The data lines once the header is accepted: the first pass, the
      name creation, the second pass. */
  method ImportRows(data: seq<string>, cols: map<Field, nat>, locations: map<string, string>, categories: map<string, string>,
                    createdLocations: map<string, string>, createdCategories: map<string, string>,
                    parseFloat: string -> Option<real>) returns (r: Result<ImportPlan, ImportError>)
    ensures r == Proceed(data, cols, locations, categories, createdLocations, createdCategories, parseFloat)
  {
    var newLocations, newCategories := FirstPass(data, cols, locations.Keys, categories.Keys);
    var locs := CreateNames(locations, newLocations, createdLocations);
    var cats := CreateNames(categories, newCategories, createdCategories);
    var products := SecondPass(data, cols, locs, cats, parseFloat);
    if products == [] {
      return Err(NoValidProducts);
    }
    r := Ok(ImportPlan(newLocations, newCategories, products));
  }

  /** The import stops on a file with fewer than two non-blank lines. */
  lemma ImportNeedsTwoLines(lines: seq<string>, locations: map<string, string>, categories: map<string, string>,
                            createdLocations: map<string, string>, createdCategories: map<string, string>,
                            parseFloat: string -> Option<real>)
    ensures PlanLines(lines, locations, categories, createdLocations, createdCategories, parseFloat) == Err(EmptyFile)
        <==> |lines| < 2
  {
  }

  /** With a data line below the header, the import stops before any
      request exactly when a required column is not in the header, and it
      names exactly the missing ones. */
  lemma ImportNeedsColumns(lines: seq<string>, locations: map<string, string>, categories: map<string, string>,
                           createdLocations: map<string, string>, createdCategories: map<string, string>,
                           parseFloat: string -> Option<real>)
    requires |lines| >= 2
    ensures var r := PlanLines(lines, locations, categories, createdLocations, createdCategories, parseFloat);
      var header := HeaderOf(lines[0]);
      (r.Err? && r.error.MissingColumns? <==> exists f :: f in Required && ColumnOf(header, f).None?)
      && (r.Err? && r.error.MissingColumns? ==>
            forall f :: f in r.error.fields <==> f in Required && ColumnOf(header, f).None?)
  {
    var header := HeaderOf(lines[0]);
    var cols := Columns(header);
    var missing := Missing(cols, Required);
    MissingIff(cols);
    assert forall f :: f !in cols <==> ColumnOf(header, f).None?;
  }

  lemma MissingIff(cols: map<Field, nat>)
    ensures Missing(cols, Required) != [] <==> exists f :: f in Required && f !in cols
  {
    var m := Missing(cols, Required);
    if m != [] {
      assert m[0] in m;
    }
  }

  /** When the import goes ahead, every required column was found, the
      names it creates are new, distinct and non-empty, and it posts at
      least one and at most one product per data line, each complete. */
  lemma ImportGoesAhead(lines: seq<string>, locations: map<string, string>, categories: map<string, string>,
                        createdLocations: map<string, string>, createdCategories: map<string, string>,
                        parseFloat: string -> Option<real>)
    ensures var r := PlanLines(lines, locations, categories, createdLocations, createdCategories, parseFloat);
      r.Ok? ==>
        var header := HeaderOf(lines[0]);
        var plan := r.value;
        (forall f :: f in Required ==> ColumnOf(header, f).Some?)
        && NoDup(plan.newLocations) && NoDup(plan.newCategories)
        && (forall n :: n in plan.newLocations ==> n != "" && n !in locations)
        && (forall n :: n in plan.newCategories ==> n != "" && n !in categories)
        && 1 <= |plan.products| <= |lines| - 1
        && (forall k :: 0 <= k < |plan.products| ==> Complete(plan.products[k]))
  {
    if |lines| >= 2 {
      var cols := Columns(HeaderOf(lines[0]));
      var data := lines[1..];
      var newLocations := Collect(NamesOf(data, cols, LocationCol), locations.Keys);
      var newCategories := Collect(NamesOf(data, cols, CategoryCol), categories.Keys);
      CollectFacts(NamesOf(data, cols, LocationCol), locations.Keys);
      CollectFacts(NamesOf(data, cols, CategoryCol), categories.Keys);
      var locs := Resolve(locations, newLocations, createdLocations);
      var cats := Resolve(categories, newCategories, createdCategories);
      MapRowsComplete(data, cols, locs, cats, parseFloat);
    }
  }
}

=== FILE: csv_line.dfy ===
/** The products tab's CSV reading (frontend/src/components/ProductTab.jsx):
    the file split into lines, and parseCSVLine (85-107), which walks a
    line once, toggling a quote flag at each `"`, cutting a field at each
    comma outside quotes, and trimming every field. */
module CsvLine {
  import opened Text

  /** `s.replace(/"/g, "")`: the line without its quote characters; every
      other character is kept. */
  function RemoveQuotes(s: string): (r: string)
    ensures '"' !in r
    ensures forall c :: c != '"' ==> (c in r <==> c in s)
    ensures |r| == |s| - QuoteCount(s)
  {
    if s == [] then []
    else RemoveQuotes(s[..|s| - 1]) + (if s[|s| - 1] == '"' then [] else [s[|s| - 1]])
  }

  /** The number of quote characters. */
  function QuoteCount(s: string): nat {
    if s == [] then 0 else QuoteCount(s[..|s| - 1]) + (if s[|s| - 1] == '"' then 1 else 0)
  }

  /** Quote removal works piece by piece: the characters of each part that
      are not quotes are kept, in order. */
  lemma {:induction false} RemoveQuotesAppend(a: string, b: string)
    ensures RemoveQuotes(a + b) == RemoveQuotes(a) + RemoveQuotes(b)
    decreases |b|
  {
    if b == [] {
      assert a + b == a;
    } else {
      var n := |b| - 1;
      assert (a + b)[..|a + b| - 1] == a + b[..n];
      assert (a + b)[|a + b| - 1] == b[n];
      RemoveQuotesAppend(a, b[..n]);
    }
  }

  /** One character: a quote is dropped, anything else kept. */
  lemma RemoveQuotesChar(c: char)
    ensures RemoveQuotes([c]) == if c == '"' then [] else [c]
  {
    assert [c][..0] == [];
  }

  /** The commas that stand after an even number of quotes: the field
      separators. */
  function UnquotedCommas(s: string): nat {
    if s == [] then 0
    else
      var init := s[..|s| - 1];
      UnquotedCommas(init) + (if s[|s| - 1] == ',' && QuoteCount(init) % 2 == 0 then 1 else 0)
  }

  /** Pieces joined with a separator between each two. */
  function Join(fs: seq<string>, sep: char): string {
    if fs == [] then []
    else if |fs| == 1 then fs[0]
    else Join(fs[..|fs| - 1], sep) + [sep] + fs[|fs| - 1]
  }

  /** The parser's state after a prefix of the line: the finished fields
      (not yet trimmed), the field being read, and the quote flag. */
  datatype ScanState = ScanState(done: seq<string>, current: string, inQuotes: bool)

  /** One character of the loop. */
  function Step(st: ScanState, c: char): ScanState {
    if c == '"' then st.(inQuotes := !st.inQuotes)
    else if c == ',' && !st.inQuotes then ScanState(st.done + [st.current], "", st.inQuotes)
    else st.(current := st.current + [c])
  }

  function Scan(s: string): ScanState {
    if s == [] then ScanState([], "", false) else Step(Scan(s[..|s| - 1]), s[|s| - 1])
  }

  /** Every field before trimming: the finished ones and the last. */
  function RawFields(s: string): seq<string> {
    Scan(s).done + [Scan(s).current]
  }

  function TrimAll(fs: seq<string>): (r: seq<string>)
    ensures |r| == |fs| && forall i :: 0 <= i < |fs| ==> r[i] == Trim(fs[i])
  {
    seq(|fs|, i requires 0 <= i < |fs| => Trim(fs[i]))
  }

  /** parseCSVLine's result. */
  function ParseLine(s: string): seq<string> {
    TrimAll(RawFields(s))
  }

  /** The loop as the source writes it. */
  method ParseCsvLine(line: string) returns (result: seq<string>)
    ensures result == ParseLine(line)
  {
    result := [];
    var current := "";
    var inQuotes := false;
    for i := 0 to |line|
      invariant result == TrimAll(Scan(line[..i]).done)
      invariant current == Scan(line[..i]).current && inQuotes == Scan(line[..i]).inQuotes
    {
      var c := line[i];
      ScanStep(line, i);
      if c == '"' {
        inQuotes := !inQuotes;
      } else if c == ',' && !inQuotes {
        TrimAllAppend(result, Scan(line[..i]).done, current);
        result := result + [Trim(current)];
        current := "";
      } else {
        current := current + [c];
      }
    }
    assert line[..|line|] == line;
    TrimAllAppend(result, Scan(line).done, current);
    result := result + [Trim(current)];
  }

  lemma ScanStep(line: string, i: nat)
    requires i < |line|
    ensures Scan(line[..i + 1]) == Step(Scan(line[..i]), line[i])
  {
    assert line[..i + 1][..i] == line[..i];
  }

  lemma TrimAllAppend(r: seq<string>, fs: seq<string>, x: string)
    requires r == TrimAll(fs)
    ensures r + [Trim(x)] == TrimAll(fs + [x])
  {
  }

  lemma JoinAppendChar(fs: seq<string>, x: string, c: char, sep: char)
    ensures Join(fs + [x + [c]], sep) == Join(fs + [x], sep) + [c]
  {
    var a := fs + [x + [c]];
    var b := fs + [x];
    assert a[..|a| - 1] == fs && b[..|b| - 1] == fs;
  }

  lemma JoinAppendEmpty(fs: seq<string>, x: string, sep: char)
    ensures Join(fs + [x] + [""], sep) == Join(fs + [x], sep) + [sep]
  {
    var a := fs + [x] + [""];
    assert a[..|a| - 1] == fs + [x];
  }

  /** What the scan keeps track of: it has cut one field per separator so
      far, and its flag is the parity of the quotes seen. */
  lemma {:induction false} ScanCounts(s: string)
    ensures |Scan(s).done| == UnquotedCommas(s)
    ensures Scan(s).inQuotes <==> QuoteCount(s) % 2 == 1
  {
    if s != [] {
      ScanCounts(s[..|s| - 1]);
    }
  }

  /** No field the scan builds holds a quote. */
  lemma {:induction false} ScanDropsQuotes(s: string)
    ensures '"' !in Scan(s).current && forall k :: 0 <= k < |Scan(s).done| ==> '"' !in Scan(s).done[k]
  {
    if s != [] {
      ScanDropsQuotes(s[..|s| - 1]);
    }
  }

  /** The fields joined back with commas give the line without its quotes,
      so a comma inside quotes stays in its field. */
  lemma {:induction false} ScanJoin(s: string)
    ensures Join(RawFields(s), ',') == RemoveQuotes(s)
  {
    if s != [] {
      var init := s[..|s| - 1];
      var c := s[|s| - 1];
      ScanJoin(init);
      var st := Scan(init);
      if c == '"' {
      } else if c == ',' && !st.inQuotes {
        JoinAppendEmpty(st.done, st.current, ',');
      } else {
        JoinAppendChar(st.done, st.current, c, ',');
      }
    }
  }

  /** A slice of a string holds only characters of that string. */
  lemma TrimInside(x: string, c: char)
    requires c in Trim(x)
    ensures c in x
  {
    var a := TrimStart(x);
    var k :| 0 <= k < |Trim(x)| && Trim(x)[k] == c;
    assert a[k] == c;
    assert x[|x| - |a| + k] == c;
  }

  /** parseCSVLine returns one field more than there are separating
      commas, so never an empty list; no field holds a quote; every field
      is trimmed; and field i is the i-th comma-separated piece of the line
      without its quotes, trimmed. */
  lemma ParseLineFacts(s: string)
    ensures |ParseLine(s)| == UnquotedCommas(s) + 1
    ensures forall i :: 0 <= i < |ParseLine(s)| ==> '"' !in ParseLine(s)[i]
    ensures forall i :: 0 <= i < |ParseLine(s)| ==> Trim(ParseLine(s)[i]) == ParseLine(s)[i]
    ensures forall i :: 0 <= i < |ParseLine(s)| ==> ParseLine(s)[i] == Trim(RawFields(s)[i])
    ensures Join(RawFields(s), ',') == RemoveQuotes(s)
  {
    ScanCounts(s);
    ScanDropsQuotes(s);
    ScanJoin(s);
    var raw := RawFields(s);
    var r := ParseLine(s);
    forall i | 0 <= i < |r|
      ensures '"' !in r[i] && Trim(r[i]) == r[i]
    {
      assert '"' !in raw[i];
      if '"' in r[i] {
        TrimInside(raw[i], '"');
      }
      TrimIdempotent(raw[i]);
    }
  }

  /** A string without quotes is left as it is by the quote removal. */
  lemma {:induction false} RemoveQuotesNoop(s: string)
    requires '"' !in s
    ensures RemoveQuotes(s) == s
  {
    if s != [] {
      RemoveQuotesNoop(s[..|s| - 1]);
      assert s[..|s| - 1] + [s[|s| - 1]] == s;
    }
  }

  /** The `.replace(/"/g, "")` the import applies to each parsed field
      changes nothing, since the parser already dropped every quote. */
  lemma StripAfterParse(s: string, i: nat)
    requires i < |ParseLine(s)|
    ensures RemoveQuotes(ParseLine(s)[i]) == ParseLine(s)[i]
  {
    ParseLineFacts(s);
    RemoveQuotesNoop(ParseLine(s)[i]);
  }

  /** `text.split("\n")`. */
  function SplitLines(s: string): (r: seq<string>)
    ensures |r| >= 1
  {
    if s == [] then [""]
    else
      var p := SplitLines(s[..|s| - 1]);
      var c := s[|s| - 1];
      if c == '\n' then p + [""] else p[..|p| - 1] + [p[|p| - 1] + [c]]
  }

  /** Extending the last piece extends the joined text. */
  lemma JoinExtendLast(p: seq<string>, c: char, sep: char)
    requires |p| >= 1
    ensures Join(p[..|p| - 1] + [p[|p| - 1] + [c]], sep) == Join(p, sep) + [c]
  {
    JoinAppendChar(p[..|p| - 1], p[|p| - 1], c, sep);
    assert p[..|p| - 1] + [p[|p| - 1]] == p;
  }

  /** A new empty piece adds one separator. */
  lemma JoinAddEmpty(p: seq<string>, sep: char)
    requires |p| >= 1
    ensures Join(p + [""], sep) == Join(p, sep) + [sep]
  {
    JoinAppendEmpty(p[..|p| - 1], p[|p| - 1], sep);
    assert p[..|p| - 1] + [p[|p| - 1]] == p;
  }

  /** Splitting and joining back give the text. */
  lemma {:induction false} SplitLinesRoundTrip(s: string)
    ensures Join(SplitLines(s), '\n') == s
  {
    if s != [] {
      var init := s[..|s| - 1];
      var c := s[|s| - 1];
      assert init + [c] == s;
      SplitLinesRoundTrip(init);
      var p := SplitLines(init);
      if c == '\n' {
        JoinAddEmpty(p, '\n');
      } else {
        JoinExtendLast(p, c, '\n');
      }
    }
  }

  /** No piece of the split holds a line break. */
  lemma {:induction false} SplitLinesNoBreak(s: string)
    ensures forall k :: 0 <= k < |SplitLines(s)| ==> '\n' !in SplitLines(s)[k]
  {
    if s != [] {
      var init := s[..|s| - 1];
      var c := s[|s| - 1];
      SplitLinesNoBreak(init);
      var p := SplitLines(init);
      var r := SplitLines(s);
      if c != '\n' {
        forall k | 0 <= k < |r|
          ensures '\n' !in r[k]
        {
          if k < |r| - 1 {
            assert r[k] == p[k];
          } else {
            assert r[k] == p[|p| - 1] + [c];
          }
        }
      }
    }
  }

  /** `lines.filter((line) => line.trim())`: the lines that are not blank,
      every one of them. */
  function NonBlank(lines: seq<string>): (r: seq<string>)
    ensures |r| <= |lines|
    ensures forall k :: 0 <= k < |r| ==> !IsBlank(r[k]) && r[k] in lines
    ensures forall k :: 0 <= k < |lines| && !IsBlank(lines[k]) ==> lines[k] in r
  {
    if lines == [] then []
    else
      var init := lines[..|lines| - 1];
      var rest := NonBlank(init);
      var last := lines[|lines| - 1];
      assert lines == init + [last];
      BlankIffTrimEmpty(last);
      if Trim(last) != [] then rest + [last] else rest
  }

  /** The filter works piece by piece: the non-blank lines of each part
      are kept, in order. */
  lemma {:induction false} NonBlankAppend(a: seq<string>, b: seq<string>)
    ensures NonBlank(a + b) == NonBlank(a) + NonBlank(b)
    decreases |b|
  {
    if b == [] {
      assert a + b == a;
    } else {
      var n := |b| - 1;
      assert (a + b)[..|a + b| - 1] == a + b[..n];
      assert (a + b)[|a + b| - 1] == b[n];
      NonBlankAppend(a, b[..n]);
    }
  }

  /** One line: a blank one is dropped, any other kept. */
  lemma NonBlankLine(x: string)
    ensures NonBlank([x]) == if IsBlank(x) then [] else [x]
  {
    assert [x][..0] == [];
    BlankIffTrimEmpty(x);
  }
}

=== FILE: ledger_state.dfy ===
/** The database the transaction controller works on: the transactions
    collection keyed by id, the products table, and the id the next created
    record gets; plus the stored-data facts every handler relies on. */
module LedgerState {
  import opened Common
  import opened TransactionModel
  import opened Catalog

  datatype Db = Db(txs: map<TxId, Transaction>, rows: seq<Product>, nextId: TxId)

  /** The other collections the controller consults: how many locations
      exist (ids below the count) and which companies. */
  datatype Directory = Directory(locationCount: nat, companies: set<CompanyId>)

  /** Types that name a company (`sale`, `purchase`). */
  predicate NeedsCompany(t: TxType) {
    t == Sale || t == Purchase
  }

  /** Types that take stock out of a source location. */
  predicate NeedsFrom(t: TxType) {
    t == Sale || t == Outbound || t == Transfer
  }

  /** Types that deliver into a destination location. */
  predicate NeedsTo(t: TxType) {
    t == Inbound || t == Transfer || t == Purchase
  }

  /** Every stored record of a type with a destination has one. */
  predicate Routed(txs: map<TxId, Transaction>) {
    forall k :: k in txs && NeedsTo(txs[k].txType) ==> txs[k].toLocation.Some?
  }

  /** What the pre-save hook leaves on a stored record: a purchase carries a
      non-empty poNumber, every other type none. */
  predicate PoShape(t: Transaction) {
    if t.txType == Purchase then t.poNumber.Some? && t.poNumber.value != [] else t.poNumber.None?
  }

  /** The stored-data invariant: ids are below the next id, destinations
      exist, the hook's output is on every record, and the sparse unique
      index on poNumber holds. */
  ghost predicate DbValid(db: Db, locationCount: nat) {
    Routed(db.txs)
    && (forall k :: k in db.txs ==> k < db.nextId)
    && (forall k :: k in db.txs && db.txs[k].toLocation.Some? ==> db.txs[k].toLocation.value < locationCount)
    && (forall k :: k in db.txs ==> PoShape(db.txs[k]))
    && PoUnique(db.txs)
  }

  /** `k` is an inbound record linked to the purchase `id`. */
  predicate LinkedInbound(txs: map<TxId, Transaction>, id: TxId, k: TxId) {
    k in txs && txs[k].txType == Inbound && txs[k].linkedTransaction == Some(id)
  }

  /** `findOne({linkedTransaction: id, type: "inbound"})`: the oldest linked
      inbound among the ids in [k, hi). */
  function FirstLinked(txs: map<TxId, Transaction>, id: TxId, k: nat, hi: nat): (r: Option<TxId>)
    ensures r.Some? ==> k <= r.value < hi && LinkedInbound(txs, id, r.value)
                        && forall j :: k <= j < r.value ==> !LinkedInbound(txs, id, j)
    ensures r.None? ==> forall j :: k <= j < hi ==> !LinkedInbound(txs, id, j)
    decreases hi - k
  {
    if k >= hi then None
    else if LinkedInbound(txs, id, k) then Some(k)
    else FirstLinked(txs, id, k + 1, hi)
  }

  /** Re-running the save hook on a stored record changes nothing, so a
      handler that only edits fields and saves keeps the poNumber. */
  lemma ResaveKeepsPo(t: Transaction, year: nat, latest: Option<string>)
    requires PoShape(t)
    ensures SaveHook(t.txType, t.poNumber, year, latest) == t.poNumber
  {
    if t.txType == Purchase {
      HookKeepsAssigned(t.poNumber.value, year, latest);
    }
  }

  /** A record whose type and poNumber are kept, and whose destination
      is present when its type needs one and exists, can replace a stored
      one without breaking the invariant. */
  lemma ReplaceKeepsValid(db: Db, locationCount: nat, id: TxId, t: Transaction)
    requires DbValid(db, locationCount) && id in db.txs
    requires t.txType == db.txs[id].txType && t.poNumber == db.txs[id].poNumber
    requires NeedsTo(t.txType) ==> t.toLocation.Some?
    requires t.toLocation.Some? ==> t.toLocation.value < locationCount
    ensures DbValid(db.(txs := db.txs[id := t]), locationCount)
  {
    var txs := db.txs[id := t];
    forall a, b | a in txs && b in txs && a != b && txs[a].poNumber.Some?
      ensures txs[a].poNumber != txs[b].poNumber
    {
      assert txs[a].poNumber == db.txs[a].poNumber && txs[b].poNumber == db.txs[b].poNumber;
    }
  }

  /** Deleting a record keeps the invariant. */
  lemma RemoveKeepsValid(db: Db, locationCount: nat, id: TxId)
    requires DbValid(db, locationCount)
    ensures DbValid(db.(txs := db.txs - {id}), locationCount)
  {
    var txs := db.txs - {id};
    forall a, b | a in txs && b in txs && a != b && txs[a].poNumber.Some?
      ensures txs[a].poNumber != txs[b].poNumber
    {
      assert txs[a] == db.txs[a] && txs[b] == db.txs[b];
    }
  }
}

=== FILE: lifecycle.dfy ===
/** The status-only handlers (reject, moveToDraft, resubmit,
    deleteDraft, submitDraft), the two edit handlers (updateInbound,
    updatePurchase) of backend/controllers/transactionController.js, and
    the status diagram they follow together with approve and cancel. */
module Lifecycle {
  import opened Common
  import opened TransactionModel
  import opened Catalog
  import opened LedgerState
  import opened Creation
  import opened Approval

  // ---------------------------------------------------------------
  // Status-only handlers: look up, check the status, change it, save
  // ---------------------------------------------------------------

  /** Set the record's new value when its status is `from`; fail with `e`
      otherwise, and with TransactionNotFound when there is no record. */
  function Guarded(db: Db, id: TxId, from: TxStatus, e: Error, t2: Transaction): Result<Db, Error> {
    if id !in db.txs then Err(TransactionNotFound)
    else if db.txs[id].status != from then Err(e)
    else Ok(db.(txs := db.txs[id := t2]))
  }

  /** rejectTransaction: pending only; the rejecter is stored in approvedBy. */
  function RejectEffect(db: Db, id: TxId, user: UserId, now: Time): Result<Db, Error> {
    if id !in db.txs then Err(TransactionNotFound)
    else Guarded(db, id, Pending, AlreadyProcessed,
                 db.txs[id].(status := Rejected, approvedBy := Some(user), rejectedAt := Some(now)))
  }

  /** submitDraftTransaction: draft to pending. */
  function SubmitDraftEffect(db: Db, id: TxId): Result<Db, Error> {
    if id !in db.txs then Err(TransactionNotFound)
    else Guarded(db, id, Draft, NotDraft, db.txs[id].(status := Pending))
  }

  /** moveToDraft: cancelled to draft. */
  function MoveToDraftEffect(db: Db, id: TxId): Result<Db, Error> {
    if id !in db.txs then Err(TransactionNotFound)
    else Guarded(db, id, Cancelled, NotCancelled, db.txs[id].(status := Draft))
  }

  /** resubmitTransaction: cancelled to pending. */
  function ResubmitEffect(db: Db, id: TxId): Result<Db, Error> {
    if id !in db.txs then Err(TransactionNotFound)
    else Guarded(db, id, Cancelled, NotCancelled, db.txs[id].(status := Pending))
  }

  /** deleteDraftTransaction: only a draft is deleted. */
  function DeleteDraftEffect(db: Db, id: TxId): (r: Result<Db, Error>)
    ensures r.Ok? <==> id in db.txs && db.txs[id].status == Draft
    ensures r.Ok? ==> r.value == db.(txs := db.txs - {id}) && id !in r.value.txs
    ensures id in db.txs && db.txs[id].status != Draft ==> r == Err(NotDraft)
  {
    if id !in db.txs then Err(TransactionNotFound)
    else if db.txs[id].status != Draft then Err(NotDraft)
    else Ok(db.(txs := db.txs - {id}))
  }

  /** A cancelled record reaches pending the same way through draft as by
      resubmitting it. */
  lemma DraftRouteIsResubmit(db: Db, id: TxId)
    requires MoveToDraftEffect(db, id).Ok?
    ensures SubmitDraftEffect(MoveToDraftEffect(db, id).value, id) == ResubmitEffect(db, id)
  {
    var t := db.txs[id];
    assert db.txs[id := t.(status := Draft)][id := t.(status := Draft).(status := Pending)]
        == db.txs[id := t.(status := Pending)];
  }

  // ---------------------------------------------------------------
  // The status diagram
  // ---------------------------------------------------------------

  datatype Command = ApproveCmd | RejectCmd | CancelCmd | SubmitCmd | MoveToDraftCmd | ResubmitCmd

  /** Which command takes which status where: draft -> pending ->
      approved or rejected; an approved purchase -> cancelled -> draft or
      pending. */
  function Next(c: Command, t: TxType, s: TxStatus): Option<TxStatus> {
    match c
    case ApproveCmd => if s == Pending then Some(Approved) else None
    case RejectCmd => if s == Pending then Some(Rejected) else None
    case CancelCmd => if t == Purchase && s == Approved then Some(Cancelled) else None
    case SubmitCmd => if s == Draft then Some(Pending) else None
    case MoveToDraftCmd => if s == Cancelled then Some(Draft) else None
    case ResubmitCmd => if s == Cancelled then Some(Pending) else None
  }

  /** The handler behind each command. */
  function Run(c: Command, db: Db, id: TxId, user: UserId, now: Time): Result<Db, Error>
    requires Routed(db.txs)
  {
    match c
    case ApproveCmd => ApproveEffect(db, id, user, now)
    case RejectCmd => RejectEffect(db, id, user, now)
    case CancelCmd => CancelPurchaseEffect(db, id, now)
    case SubmitCmd => SubmitDraftEffect(db, id)
    case MoveToDraftCmd => MoveToDraftEffect(db, id)
    case ResubmitCmd => ResubmitEffect(db, id)
  }

  /** Every handler follows the diagram: it succeeds only on a move the
      diagram allows, and then the record has the status the diagram gives;
      every allowed move other than approval (which may lack stock)
      succeeds. */
  lemma FollowsDiagram(c: Command, db: Db, id: TxId, user: UserId, now: Time)
    requires Routed(db.txs) && id in db.txs
    ensures var nxt := Next(c, db.txs[id].txType, db.txs[id].status);
      Run(c, db, id, user, now).Ok? ==>
        nxt.Some? && id in Run(c, db, id, user, now).value.txs
        && Run(c, db, id, user, now).value.txs[id].status == nxt.value
    ensures Next(c, db.txs[id].txType, db.txs[id].status).None? ==> Run(c, db, id, user, now).Err?
    ensures c != ApproveCmd && Next(c, db.txs[id].txType, db.txs[id].status).Some? ==> Run(c, db, id, user, now).Ok?
  {
    if c == ApproveCmd {
      ApproveOutcome(db, id, user, now);
    } else if c == CancelCmd {
      CancelOutcome(db, id, now);
    }
  }

  /** Rejected is final: every command on a rejected record fails. */
  lemma RejectedIsFinal(c: Command, db: Db, id: TxId, user: UserId, now: Time)
    requires Routed(db.txs) && id in db.txs && db.txs[id].status == Rejected
    ensures Run(c, db, id, user, now).Err?
  {
    FollowsDiagram(c, db, id, user, now);
  }

  /** The status-only handlers change that one record's status fields and
      nothing else in the database. */
  lemma StatusOnly(c: Command, db: Db, id: TxId, user: UserId, now: Time)
    requires Routed(db.txs) && c in {RejectCmd, SubmitCmd, MoveToDraftCmd, ResubmitCmd}
    requires Run(c, db, id, user, now).Ok?
    ensures var db2 := Run(c, db, id, user, now).value;
      var t := db.txs[id];
      db2.rows == db.rows && db2.nextId == db.nextId
      && db2.txs == db.txs[id := db2.txs[id]]
      && db2.txs[id].(status := t.status, approvedBy := t.approvedBy, rejectedAt := t.rejectedAt) == t
  {
  }

  lemma RunKeepsValid(c: Command, db: Db, nLoc: nat, nCat: nat, id: TxId, user: UserId, now: Time)
    requires DbValid(db, nLoc) && Sound(db.rows, nLoc, nCat)
    requires Run(c, db, id, user, now).Ok?
    ensures DbValid(Run(c, db, id, user, now).value, nLoc)
    ensures Sound(Run(c, db, id, user, now).value.rows, nLoc, nCat)
  {
    match c
    case ApproveCmd => ApproveKeepsValid(db, nLoc, nCat, id, user, now);
    case CancelCmd => CancelKeepsValid(db, nLoc, nCat, id, now);
    case _ =>
      StatusOnly(c, db, id, user, now);
      ReplaceKeepsValid(db, nLoc, id, Run(c, db, id, user, now).value.txs[id]);
  }

  // ---------------------------------------------------------------
  // updateInboundTransaction: received quantities and the note
  // ---------------------------------------------------------------

  /** One requested change; `received` is `Number(...)`, `None` for NaN. */
  datatype ReceivedUpdate = ReceivedUpdate(product: ProductId, received: Option<int>)

  /** `findIndex`: the first line at or after `k` for the product. */
  function FirstLineFrom(lines: seq<Line>, p: ProductId, k: nat): (r: Option<nat>)
    ensures r.Some? ==> k <= r.value < |lines| && lines[r.value].product == p
                        && forall j :: k <= j < r.value ==> lines[j].product != p
    ensures r.None? ==> forall j :: k <= j < |lines| ==> lines[j].product != p
    decreases |lines| - k
  {
    if k >= |lines| then None
    else if lines[k].product == p then Some(k)
    else FirstLineFrom(lines, p, k + 1)
  }

  function FirstLineFor(lines: seq<Line>, p: ProductId): Option<nat> {
    FirstLineFrom(lines, p, 0)
  }

  /** One iteration: the first line for the product gets the number, or 0. */
  function SetReceived(lines: seq<Line>, u: ReceivedUpdate): seq<Line> {
    match FirstLineFor(lines, u.product)
    case None => lines
    case Some(i) => lines[i := lines[i].(receivedQuantity := Some(IntOr0(u.received)))]
  }

  function ApplyReceived(lines: seq<Line>, updates: seq<ReceivedUpdate>): seq<Line>
    decreases |updates|
  {
    if updates == [] then lines else ApplyReceived(SetReceived(lines, updates[0]), updates[1..])
  }

  /** The value the last update for the product carries, if any. */
  function LastUpdateFor(updates: seq<ReceivedUpdate>, p: ProductId): Option<int>
    decreases |updates|
  {
    if updates == [] then None
    else match LastUpdateFor(updates[1..], p)
      case Some(v) => Some(v)
      case None => if updates[0].product == p then Some(IntOr0(updates[0].received)) else None
  }

  /** Lines with the same products have the same first line per product. */
  lemma {:induction false} FirstLineSame(a: seq<Line>, b: seq<Line>, p: ProductId, k: nat)
    requires |a| == |b| && forall j :: 0 <= j < |a| ==> a[j].product == b[j].product
    ensures FirstLineFrom(a, p, k) == FirstLineFrom(b, p, k)
    decreases |a| - k
  {
    if k < |a| {
      FirstLineSame(a, b, p, k + 1);
    }
  }

  /** What the update loop does to the lines: the first line of each
      product with an update gets the value of the last update for it;
      every other line, and every other field, is unchanged. */
  lemma {:induction false} ApplyReceivedEffect(lines: seq<Line>, updates: seq<ReceivedUpdate>)
    ensures var r := ApplyReceived(lines, updates);
      |r| == |lines|
      && forall i :: 0 <= i < |lines| ==>
           r[i] == (if FirstLineFor(lines, lines[i].product) == Some(i) && LastUpdateFor(updates, lines[i].product).Some?
                    then lines[i].(receivedQuantity := Some(LastUpdateFor(updates, lines[i].product).value))
                    else lines[i])
    decreases |updates|
  {
    if updates != [] {
      var u := updates[0];
      var l1 := SetReceived(lines, u);
      assert |l1| == |lines| && forall j :: 0 <= j < |lines| ==> l1[j] == lines[j].(receivedQuantity := l1[j].receivedQuantity);
      forall p: ProductId ensures FirstLineFor(l1, p) == FirstLineFor(lines, p) {
        FirstLineSame(l1, lines, p, 0);
      }
      ApplyReceivedEffect(l1, updates[1..]);
    }
  }

  /** The whole handler: inbound records only, whatever their status. */
  function UpdateInboundEffect(db: Db, id: TxId, updates: Option<seq<ReceivedUpdate>>, note: Option<string>)
    : Result<Db, Error>
  {
    if id !in db.txs then Err(TransactionNotFound)
    else
      var t := db.txs[id];
      if t.txType != Inbound then Err(NotInbound)
      else
        var lines := if updates.Some? then ApplyReceived(t.lines, updates.value) else t.lines;
        Ok(db.(txs := db.txs[id := t.(lines := lines, note := note.GetOr(t.note))]))
  }

  /** Editing an inbound changes only received quantities and the note:
      the lines keep their products, so lines that pointed at destination
      rows still do, and nothing else in the database changes. */
  lemma UpdateInboundOutcome(db: Db, id: TxId, updates: Option<seq<ReceivedUpdate>>, note: Option<string>)
    ensures var e := UpdateInboundEffect(db, id, updates, note);
      e.Ok? <==> id in db.txs && db.txs[id].txType == Inbound
    ensures var e := UpdateInboundEffect(db, id, updates, note);
      e.Ok? ==>
        var t := db.txs[id];
        var t2 := e.value.txs[id];
        e.value.rows == db.rows && e.value.nextId == db.nextId && e.value.txs == db.txs[id := t2]
        && t2.(lines := t.lines, note := t.note) == t && |t2.lines| == |t.lines|
        && (forall j :: 0 <= j < |t.lines| ==>
              t2.lines[j].product == t.lines[j].product && t2.lines[j].quantity == t.lines[j].quantity)
        && (note.Some? ==> t2.note == note.value)
        && (note.None? ==> t2.note == t.note)
        && t2.lines == (if updates.Some? then ApplyReceived(t.lines, updates.value) else t.lines)
  {
    if id in db.txs && db.txs[id].txType == Inbound && updates.Some? {
      ApplyReceivedEffect(db.txs[id].lines, updates.value);
    }
  }

  lemma UpdateInboundKeepsValid(db: Db, nLoc: nat, id: TxId, updates: Option<seq<ReceivedUpdate>>, note: Option<string>)
    requires DbValid(db, nLoc) && UpdateInboundEffect(db, id, updates, note).Ok?
    ensures DbValid(UpdateInboundEffect(db, id, updates, note).value, nLoc)
  {
    ReplaceKeepsValid(db, nLoc, id, UpdateInboundEffect(db, id, updates, note).value.txs[id]);
  }

  /** The handler's loops: for each update, `findIndex`, then assign. */
  method UpdateInboundStep(db: Db, id: TxId, updates: Option<seq<ReceivedUpdate>>, note: Option<string>)
    returns (r: Result<Db, Error>)
    ensures r == UpdateInboundEffect(db, id, updates, note)
  {
    if id !in db.txs {
      return Err(TransactionNotFound);
    }
    var t := db.txs[id];
    if t.txType != Inbound {
      return Err(NotInbound);
    }
    var lines := t.lines;
    if updates.Some? {
      var us := updates.value;
      for n := 0 to |us|
        invariant ApplyReceived(t.lines, us) == ApplyReceived(lines, us[n..])
      {
        assert us[n..][0] == us[n] && us[n..][1..] == us[n + 1..];
        var idx := FindIndex(lines, us[n].product);
        if idx < |lines| {
          lines := lines[idx := lines[idx].(receivedQuantity := Some(IntOr0(us[n].received)))];
        }
      }
      assert us[|us|..] == [];
    }
    r := Ok(db.(txs := db.txs[id := t.(lines := lines, note := note.GetOr(t.note))]));
  }

  /** `findIndex` as a loop: the first index for the product, or |lines|. */
  method FindIndex(lines: seq<Line>, p: ProductId) returns (idx: nat)
    ensures idx <= |lines|
    ensures idx < |lines| <==> FirstLineFor(lines, p).Some?
    ensures idx < |lines| ==> FirstLineFor(lines, p) == Some(idx)
  {
    idx := 0;
    while idx < |lines| && lines[idx].product != p
      invariant idx <= |lines|
      invariant FirstLineFor(lines, p) == FirstLineFrom(lines, p, idx)
    {
      idx := idx + 1;
    }
  }

  // ---------------------------------------------------------------
  // updatePurchaseTransaction
  // ---------------------------------------------------------------

  /** The optional parts of the request. `deliveryDate` is present when
      given, possibly as null. */
  datatype PurchaseEdit = PurchaseEdit(
    lines: Option<seq<LineRequest>>,
    toLocation: Option<LocationId>,
    company: Option<CompanyId>,
    deliverTo: Option<string>,
    deliveryDate: Option<Option<Time>>)

  /** A purchase that is pending or a draft: new lines are priced like a
      new purchase's (an empty list keeps the old ones), a new destination
      or company must exist, and nothing is saved unless every check
      passes. */
  function UpdatePurchaseEffect(db: Db, dir: Directory, id: TxId, edit: PurchaseEdit): Result<Db, Error> {
    if id !in db.txs then Err(TransactionNotFound)
    else
      var t := db.txs[id];
      if t.txType != Purchase then Err(NotPurchase)
      else if t.status != Pending && t.status != Draft then Err(NotEditable)
      else
        var priced := if edit.lines.Some? && |edit.lines.value| > 0
                      then Snapshots(Purchase, edit.lines.value, db.rows) else Ok(t.lines);
        if priced.Err? then Err(priced.error)
        else if edit.toLocation.Some? && edit.toLocation.value >= dir.locationCount then Err(InvalidToLocation)
        else if edit.company.Some? && edit.company.value !in dir.companies then Err(CompanyNotFound)
        else
          var t2 := t.(lines := priced.value,
                       toLocation := if edit.toLocation.Some? then edit.toLocation else t.toLocation,
                       company := if edit.company.Some? then edit.company else t.company,
                       deliverTo := edit.deliverTo.GetOr(t.deliverTo),
                       deliveryDate := edit.deliveryDate.GetOr(t.deliveryDate));
          Ok(db.(txs := db.txs[id := t2]))
  }

  /** An edit succeeds exactly when the record is an editable purchase,
      every new line's product exists and the new destination and company
      exist; then only that record changes: its lines, destination,
      company, delivery address and delivery date take what was given, and
      every other field stays. */
  lemma UpdatePurchaseOutcome(db: Db, dir: Directory, id: TxId, edit: PurchaseEdit)
    ensures var e := UpdatePurchaseEffect(db, dir, id, edit);
      e.Ok? <==>
        id in db.txs && db.txs[id].txType == Purchase && db.txs[id].status in {Pending, Draft}
        && (edit.lines.Some? ==> forall i :: 0 <= i < |edit.lines.value| ==> edit.lines.value[i].product < |db.rows|)
        && (edit.toLocation.Some? ==> edit.toLocation.value < dir.locationCount)
        && (edit.company.Some? ==> edit.company.value in dir.companies)
    ensures var e := UpdatePurchaseEffect(db, dir, id, edit);
      e.Ok? ==>
        var t := db.txs[id];
        var t2 := e.value.txs[id];
        e.value.rows == db.rows && e.value.nextId == db.nextId && e.value.txs == db.txs[id := t2]
        && t2.txType == t.txType && t2.status == t.status && t2.poNumber == t.poNumber
        && t2.requestedBy == t.requestedBy && (t.toLocation.Some? ==> t2.toLocation.Some?)
        && (edit.lines.Some? && |edit.lines.value| > 0 ==>
              t2.lines == Snapshots(Purchase, edit.lines.value, db.rows).value)
        && ((edit.lines.None? || |edit.lines.value| == 0) ==> t2.lines == t.lines)
    ensures var e := UpdatePurchaseEffect(db, dir, id, edit);
      e.Ok? ==>
        var t := db.txs[id];
        var t2 := e.value.txs[id];
        t2.(lines := t.lines, toLocation := t.toLocation, company := t.company,
            deliverTo := t.deliverTo, deliveryDate := t.deliveryDate) == t
        && (edit.toLocation.Some? ==> t2.toLocation == edit.toLocation)
        && (edit.toLocation.None? ==> t2.toLocation == t.toLocation)
        && (edit.company.Some? ==> t2.company == edit.company)
        && (edit.company.None? ==> t2.company == t.company)
        && t2.deliverTo == edit.deliverTo.GetOr(t.deliverTo)
        && t2.deliveryDate == edit.deliveryDate.GetOr(t.deliveryDate)
  {
  }

  lemma UpdatePurchaseKeepsValid(db: Db, dir: Directory, id: TxId, edit: PurchaseEdit)
    requires DbValid(db, dir.locationCount) && UpdatePurchaseEffect(db, dir, id, edit).Ok?
    ensures DbValid(UpdatePurchaseEffect(db, dir, id, edit).value, dir.locationCount)
  {
    var db2 := UpdatePurchaseEffect(db, dir, id, edit).value;
    var t2 := db2.txs[id];
    assert db2 == db.(txs := db.txs[id := t2]);
    ReplaceKeepsValid(db, dir.locationCount, id, t2);
  }
}

=== FILE: listing.dfy ===
/** getTransactions (backend/controllers/transactionController.js:170-206):
    the filter built from the caller and the query, newest first, and the
    margin fields blanked on every line for a caller who is not an admin. */
module Listing {
  import opened Common
  import opened TransactionModel
  import opened LedgerState

  /** The query string; an empty `status` or `type` means no filter, and the
      date range applies only when both ends are given. */
  datatype ListQuery = ListQuery(status: string, txType: string, fromDate: Option<Time>, toDate: Option<Time>)

  /** The filter: a non-admin sees only what they requested. */
  predicate Matches(t: Transaction, viewer: Principal, q: ListQuery) {
    (viewer.role != Admin ==> t.requestedBy == viewer.id)
    && (q.status != "" ==> StatusName(t.status) == q.status)
    && (q.txType != "" ==> TypeName(t.txType) == q.txType)
    && (q.fromDate.Some? && q.toDate.Some? ==> q.fromDate.value <= t.createdAt <= q.toDate.value)
  }

  /** The matching records among the ids below `hi`, newest (highest id) first. */
  function ListBelow(txs: map<TxId, Transaction>, viewer: Principal, q: ListQuery, hi: nat): (r: seq<(TxId, Transaction)>)
    ensures forall i :: 0 <= i < |r| ==> r[i].0 < hi && r[i].0 in txs && r[i].1 == txs[r[i].0] && Matches(r[i].1, viewer, q)
    ensures forall i, j :: 0 <= i < j < |r| ==> r[i].0 > r[j].0
  {
    if hi == 0 then []
    else
      var k := hi - 1;
      var rest := ListBelow(txs, viewer, q, k);
      if k in txs && Matches(txs[k], viewer, q) then
        var r := [(k, txs[k])] + rest;
        assert forall i :: 1 <= i < |r| ==> r[i] == rest[i - 1];
        r
      else rest
  }

  /** Nothing that matches is left out. */
  lemma {:induction false} ListBelowComplete(txs: map<TxId, Transaction>, viewer: Principal, q: ListQuery, hi: nat, k: TxId)
    requires k in txs && k < hi && Matches(txs[k], viewer, q)
    ensures (k, txs[k]) in ListBelow(txs, viewer, q, hi)
  {
    if k < hi - 1 {
      ListBelowComplete(txs, viewer, q, hi - 1, k);
    }
  }

  /** A line without its cost and selling-price snapshot. */
  function HideLine(l: Line): Line {
    l.(costPriceAtTransaction := None, sellingPrice := None)
  }

  function Redact(t: Transaction): (r: Transaction)
    ensures |r.lines| == |t.lines|
  {
    t.(lines := seq(|t.lines|, j requires 0 <= j < |t.lines| => HideLine(t.lines[j])))
  }

  /** What the caller receives. */
  function ListTransactions(db: Db, viewer: Principal, q: ListQuery): seq<(TxId, Transaction)> {
    var found := ListBelow(db.txs, viewer, q, db.nextId);
    if viewer.role == Admin then found
    else seq(|found|, i requires 0 <= i < |found| => (found[i].0, Redact(found[i].1)))
  }

  /** The listing holds exactly the matching records, newest first; a
      non-admin therefore sees only their own. */
  lemma ListingFacts(db: Db, viewer: Principal, q: ListQuery)
    requires forall k :: k in db.txs ==> k < db.nextId
    ensures var r := ListTransactions(db, viewer, q);
      (forall i :: 0 <= i < |r| ==> r[i].0 in db.txs && Matches(db.txs[r[i].0], viewer, q))
      && (forall k :: k in db.txs && Matches(db.txs[k], viewer, q) ==> exists i :: 0 <= i < |r| && r[i].0 == k)
      && (forall i, j :: 0 <= i < j < |r| ==> r[i].0 > r[j].0)
  {
    var found := ListBelow(db.txs, viewer, q, db.nextId);
    var r := ListTransactions(db, viewer, q);
    assert |r| == |found| && forall i :: 0 <= i < |r| ==> r[i].0 == found[i].0;
    forall k | k in db.txs && Matches(db.txs[k], viewer, q)
      ensures exists i :: 0 <= i < |r| && r[i].0 == k
    {
      ListBelowComplete(db.txs, viewer, q, db.nextId, k);
      var i :| 0 <= i < |found| && found[i] == (k, db.txs[k]);
      assert r[i].0 == k;
    }
  }

  /** An admin sees each record as stored; anyone else sees every line
      with its margin fields blank and all other fields as stored. */
  lemma ListingRedacts(db: Db, viewer: Principal, q: ListQuery)
    ensures var r := ListTransactions(db, viewer, q);
      forall i :: 0 <= i < |r| ==>
        r[i].0 in db.txs &&
        var t := db.txs[r[i].0];
        if viewer.role == Admin then r[i].1 == t
        else t.requestedBy == viewer.id && r[i].1.(lines := t.lines) == t && |r[i].1.lines| == |t.lines|
             && forall j :: 0 <= j < |t.lines| ==>
                  r[i].1.lines[j] == t.lines[j].(costPriceAtTransaction := None, sellingPrice := None)
  {
  }

  /** When creation times grow with ids, the listing is newest first by
      creation time as well, which is the order the query asks for. */
  lemma NewestFirst(db: Db, viewer: Principal, q: ListQuery)
    requires forall a, b :: a in db.txs && b in db.txs && a < b ==> db.txs[a].createdAt <= db.txs[b].createdAt
    ensures var r := ListTransactions(db, viewer, q);
      forall i, j :: 0 <= i < j < |r| ==> r[i].1.createdAt >= r[j].1.createdAt
  {
    var found := ListBelow(db.txs, viewer, q, db.nextId);
    var r := ListTransactions(db, viewer, q);
    assert forall i :: 0 <= i < |r| ==> r[i].1.createdAt == found[i].1.createdAt;
  }

  /** The handler: the query, then, for a non-admin, the two nested loops
      that blank the margin fields on the fetched records. */
  method GetTransactions(db: Db, viewer: Principal, q: ListQuery) returns (r: seq<(TxId, Transaction)>)
    ensures r == ListTransactions(db, viewer, q)
  {
    var found := ListBelow(db.txs, viewer, q, db.nextId);
    if viewer.role == Admin {
      return found;
    }
    r := [];
    for i := 0 to |found|
      invariant |r| == i
      invariant forall k :: 0 <= k < i ==> r[k] == (found[k].0, Redact(found[k].1))
    {
      var t := found[i].1;
      var lines := t.lines;
      for j := 0 to |lines|
        invariant |lines| == |t.lines|
        invariant forall m :: 0 <= m < j ==> lines[m] == HideLine(t.lines[m])
        invariant forall m :: j <= m < |lines| ==> lines[m] == t.lines[m]
      {
        lines := lines[j := HideLine(lines[j])];
      }
      assert lines == Redact(t).lines;
      r := r + [(found[i].0, t.(lines := lines))];
    }
  }
}

=== FILE: pending_stock.dfy ===
/** The client-side stock calculator: the pending adjustment a product's
    stock at one location gets from the transactions the page has loaded,
    and the available stock shown beside it. Two pages carry a version
    each: the products page (frontend/src/pages/Products.jsx:60-116) and
    the products tab (frontend/src/components/ProductTab.jsx:348-410); they
    share the sign rule and differ in how they read locations, how they
    match a line to the product and which quantity fields they consult. */
module PendingStock {
  import opened Common
  import opened Text

  /** A reference as the client receives it: absent, a bare id string, or
      a populated document with its `_id` (and, for a product, its
      `itemCode`). An absent field and an empty string are both falsy. */
  datatype Ref = Absent | Bare(id: string) | Doc(docId: string, itemCode: string)

  /** A transaction line as loaded; `legacyId` is the `product_id` field,
      and a numeric field that is absent reads as 0. */
  datatype Item = Item(product: Ref, productId: Ref, legacyId: string, quantity: int, qty: int, amount: int)

  /** A transaction as loaded: its type text ("" when absent), the six
      location fields the pages look at, and the three item lists. */
  datatype ClientTx = ClientTx(
    txType: string,
    fromLocation: Ref, fromLocationId: Ref,
    toLocation: Ref, toLocationId: Ref,
    locationId: Ref, location: Ref,
    products: Option<seq<Item>>, items: Option<seq<Item>>, lineItems: Option<seq<Item>>)

  /** A product row as loaded; its `_id` is always present. */
  datatype ClientProduct = ClientProduct(id: string, itemCode: string, stock: int)

  /** The three locations a transaction names; "" is absent. */
  datatype Places = Places(from: string, to: string, single: string)

  /** `a || b` on strings. */
  function Or(a: string, b: string): string {
    if a != "" then a else b
  }

  /** `a || b` on numbers. */
  function OrNum(a: int, b: int): int {
    if a != 0 then a else b
  }

  /** `r?._id` */
  function DocId(r: Ref): string {
    if r.Doc? then r.docId else ""
  }

  /** `typeof r === "object" ? r._id : r`: the id in either form. */
  function RefId(r: Ref): string {
    match r
    case Absent => ""
    case Bare(s) => s
    case Doc(i, _) => i
  }

  /** The field used as a string: a document prints as "[object Object]". */
  function AsString(r: Ref): string {
    match r
    case Absent => ""
    case Bare(s) => s
    case Doc(_, _) => "[object Object]"
  }

  /** `typeof r === "string" ? r : undefined` */
  function BareOnly(r: Ref): string {
    if r.Bare? then r.id else ""
  }

  /** The item code of a populated product reference. */
  function DocCode(r: Ref): string {
    if r.Doc? then r.itemCode else ""
  }

  /** getTxItems: the first item list that is present, even when empty. */
  function TxItems(tx: ClientTx): seq<Item> {
    if tx.products.Some? then tx.products.value
    else if tx.items.Some? then tx.items.value
    else if tx.lineItems.Some? then tx.lineItems.value
    else []
  }

  /** The lower-cased type, "" when absent. */
  function Kind(tx: ClientTx): string {
    Lower(tx.txType)
  }

  /** The product id a line names (`product`, `productId`, `product_id`). */
  function ItemId(it: Item): string {
    Or(RefId(it.product), Or(RefId(it.productId), it.legacyId))
  }

  predicate IsOutgoing(kind: string) {
    kind in ["sale", "sales", "outbound"]
  }

  /** The sign rule both pages use: a sale or outbound takes the quantity
      away at its single-or-source location, an inbound adds it at its
      single-or-destination location, a transfer takes it away at the
      source and adds it at the destination, and any other type (a
      purchase among them) counts for nothing. */
  function Signed(kind: string, p: Places, loc: string, q: int): (r: int)
    ensures IsOutgoing(kind) ==> r == (if Or(p.single, p.from) == loc && loc != "" then -q else 0)
    ensures kind == "inbound" ==> r == (if Or(p.single, p.to) == loc && loc != "" then q else 0)
    ensures kind == "transfer" && p.from == p.to ==> r == 0
    ensures kind == "transfer" && loc != "" ==>
      r == (if p.from == loc then -q else 0) + (if p.to == loc then q else 0)
    ensures !IsOutgoing(kind) && kind != "inbound" && kind != "transfer" ==> r == 0
  {
    if IsOutgoing(kind) then
      var l := Or(p.single, p.from);
      if l != "" && l == loc then -q else 0
    else if kind == "inbound" then
      var l := Or(p.single, p.to);
      if l != "" && l == loc then q else 0
    else if kind == "transfer" then
      (if p.from != "" && p.from == loc then -q else 0) + (if p.to != "" && p.to == loc then q else 0)
    else 0
  }

  // ---------------------------------------------------------------------
  // The products page (frontend/src/pages/Products.jsx)

  /** getTxLocationIds on the products page: each location may come from
      a populated document, an `...Id` field in either form, or a bare
      string. */
  function PagePlaces(tx: ClientTx): Places {
    Places(
      Or(DocId(tx.fromLocation), Or(DocId(tx.fromLocationId), Or(AsString(tx.fromLocationId), BareOnly(tx.fromLocation)))),
      Or(DocId(tx.toLocation), Or(DocId(tx.toLocationId), Or(AsString(tx.toLocationId), BareOnly(tx.toLocation)))),
      Or(DocId(tx.locationId), Or(AsString(tx.locationId), Or(DocId(tx.location), AsString(tx.location)))))
  }

  function PageQty(it: Item): int {
    OrNum(it.quantity, it.qty)
  }

  /** One line's contribution: only a line naming the product's id counts. */
  function PageItemDelta(tx: ClientTx, it: Item, pid: string, loc: string): (r: int)
    ensures ItemId(it) == "" || ItemId(it) != pid ==> r == 0
  {
    var id := ItemId(it);
    if id == "" || id != pid then 0 else Signed(Kind(tx), PagePlaces(tx), loc, PageQty(it))
  }

  function PageTxDelta(tx: ClientTx, items: seq<Item>, pid: string, loc: string): int {
    if items == [] then 0
    else PageTxDelta(tx, items[..|items| - 1], pid, loc) + PageItemDelta(tx, items[|items| - 1], pid, loc)
  }

  function PageOver(txs: seq<ClientTx>, pid: string, loc: string): int {
    if txs == [] then 0
    else PageOver(txs[..|txs| - 1], pid, loc) + PageTxDelta(txs[|txs| - 1], TxItems(txs[|txs| - 1]), pid, loc)
  }

  /** getPendingAdjustment on the products page. */
  function PagePending(txs: seq<ClientTx>, product: Option<ClientProduct>, loc: string): (r: int)
    ensures product.None? || loc == "" ==> r == 0
  {
    if product.None? || loc == "" then 0 else PageOver(txs, product.value.id, loc)
  }

  /** getAvailableStock on the products page. */
  function PageAvailable(txs: seq<ClientTx>, product: ClientProduct, loc: string): int {
    product.stock + PagePending(txs, Some(product), loc)
  }

  /** The handler: two nested loops accumulating `pending`. */
  method PagePendingAdjustment(txs: seq<ClientTx>, product: Option<ClientProduct>, loc: string) returns (pending: int)
    ensures pending == PagePending(txs, product, loc)
  {
    if product.None? || loc == "" {
      return 0;
    }
    var pid := product.value.id;
    pending := 0;
    for i := 0 to |txs|
      invariant pending == PageOver(txs[..i], pid, loc)
    {
      assert txs[..i + 1][..i] == txs[..i];
      var txPending := PageTxPending(txs[i], pid, loc);
      pending := pending + txPending;
    }
    assert txs[..|txs|] == txs;
  }

  /** The inner loop: one transaction's lines. */
  method PageTxPending(tx: ClientTx, pid: string, loc: string) returns (txPending: int)
    ensures txPending == PageTxDelta(tx, TxItems(tx), pid, loc)
  {
    var items := TxItems(tx);
    var places := PagePlaces(tx);
    var kind := Kind(tx);
    txPending := 0;
    for j := 0 to |items|
      invariant txPending == PageTxDelta(tx, items[..j], pid, loc)
    {
      assert items[..j + 1][..j] == items[..j];
      var it := items[j];
      assert PageTxDelta(tx, items[..j + 1], pid, loc) == PageTxDelta(tx, items[..j], pid, loc) + PageItemDelta(tx, it, pid, loc);
      var id := ItemId(it);
      if id != "" && id == pid {
        txPending := txPending + Signed(kind, places, loc, PageQty(it));
      }
    }
    assert items[..|items|] == items;
  }

  /** The available stock. */
  method PageAvailableStock(txs: seq<ClientTx>, product: ClientProduct, loc: string) returns (r: int)
    ensures r == PageAvailable(txs, product, loc)
  {
    var pending := PagePendingAdjustment(txs, Some(product), loc);
    r := product.stock + pending;
  }

  // ---------------------------------------------------------------------
  // The products tab (frontend/src/components/ProductTab.jsx)

  /** getTxLocationIds on the products tab: only populated documents. */
  function TabPlaces(tx: ClientTx): Places {
    Places(DocId(tx.fromLocation), DocId(tx.toLocation), DocId(tx.locationId))
  }

  function TabQty(it: Item): int {
    OrNum(it.quantity, OrNum(it.qty, it.amount))
  }

  /** The item code a line's populated product carries. */
  function ItemCode(it: Item): string {
    Or(DocCode(it.product), DocCode(it.productId))
  }

  /** A transfer line is matched by item code when both codes are known
      (the line may name the destination row, which has another id);
      every other line by product id. */
  predicate TabMatches(kind: string, it: Item, p: ClientProduct) {
    if kind == "transfer" && p.itemCode != "" && ItemCode(it) != "" then ItemCode(it) == p.itemCode
    else ItemId(it) != "" && ItemId(it) == p.id
  }

  function TabItemDelta(tx: ClientTx, it: Item, p: ClientProduct, loc: string): int {
    if TabMatches(Kind(tx), it, p) then Signed(Kind(tx), TabPlaces(tx), loc, TabQty(it)) else 0
  }

  function TabTxDelta(tx: ClientTx, items: seq<Item>, p: ClientProduct, loc: string): int {
    if items == [] then 0
    else TabTxDelta(tx, items[..|items| - 1], p, loc) + TabItemDelta(tx, items[|items| - 1], p, loc)
  }

  function TabOver(txs: seq<ClientTx>, p: ClientProduct, loc: string): int {
    if txs == [] then 0
    else TabOver(txs[..|txs| - 1], p, loc) + TabTxDelta(txs[|txs| - 1], TxItems(txs[|txs| - 1]), p, loc)
  }

  /** getPendingAdjustment on the products tab. */
  function TabPending(txs: seq<ClientTx>, product: Option<ClientProduct>, loc: string): (r: int)
    ensures product.None? || loc == "" ==> r == 0
  {
    if product.None? || loc == "" then 0 else TabOver(txs, product.value, loc)
  }

  /** getAvailableStock on the products tab. */
  function TabAvailable(txs: seq<ClientTx>, product: ClientProduct, loc: string): int {
    product.stock + TabPending(txs, Some(product), loc)
  }

  method TabPendingAdjustment(txs: seq<ClientTx>, product: Option<ClientProduct>, loc: string) returns (pending: int)
    ensures pending == TabPending(txs, product, loc)
  {
    if product.None? || loc == "" {
      return 0;
    }
    var p := product.value;
    pending := 0;
    for i := 0 to |txs|
      invariant pending == TabOver(txs[..i], p, loc)
    {
      assert txs[..i + 1][..i] == txs[..i];
      var txPending := TabTxPending(txs[i], p, loc);
      pending := pending + txPending;
    }
    assert txs[..|txs|] == txs;
  }

  method TabTxPending(tx: ClientTx, p: ClientProduct, loc: string) returns (txPending: int)
    ensures txPending == TabTxDelta(tx, TxItems(tx), p, loc)
  {
    var items := TxItems(tx);
    var places := TabPlaces(tx);
    var kind := Kind(tx);
    txPending := 0;
    for j := 0 to |items|
      invariant txPending == TabTxDelta(tx, items[..j], p, loc)
    {
      assert items[..j + 1][..j] == items[..j];
      var it := items[j];
      assert TabTxDelta(tx, items[..j + 1], p, loc) == TabTxDelta(tx, items[..j], p, loc) + TabItemDelta(tx, it, p, loc);
      var code := ItemCode(it);
      var isMatch;
      if kind == "transfer" && p.itemCode != "" && code != "" {
        isMatch := code == p.itemCode;
      } else {
        var id := ItemId(it);
        isMatch := id != "" && id == p.id;
      }
      if isMatch {
        txPending := txPending + Signed(kind, places, loc, TabQty(it));
      }
    }
    assert items[..|items|] == items;
  }

  method TabAvailableStock(txs: seq<ClientTx>, product: ClientProduct, loc: string) returns (r: int)
    ensures r == TabAvailable(txs, product, loc)
  {
    var pending := TabPendingAdjustment(txs, Some(product), loc);
    r := product.stock + pending;
  }

  // ---------------------------------------------------------------------
  // Properties

  /** The adjustment adds up over the loaded list: loading more
      transactions adds their contributions and changes nothing else. */
  lemma {:induction false} PageOverAppend(a: seq<ClientTx>, b: seq<ClientTx>, pid: string, loc: string)
    ensures PageOver(a + b, pid, loc) == PageOver(a, pid, loc) + PageOver(b, pid, loc)
    decreases |b|
  {
    if b == [] {
      assert a + b == a;
    } else {
      var b0 := b[..|b| - 1];
      assert (a + b)[..|a + b| - 1] == a + b0;
      assert (a + b)[|a + b| - 1] == b[|b| - 1];
      PageOverAppend(a, b0, pid, loc);
    }
  }

  lemma {:induction false} TabOverAppend(a: seq<ClientTx>, b: seq<ClientTx>, p: ClientProduct, loc: string)
    ensures TabOver(a + b, p, loc) == TabOver(a, p, loc) + TabOver(b, p, loc)
    decreases |b|
  {
    if b == [] {
      assert a + b == a;
    } else {
      var b0 := b[..|b| - 1];
      assert (a + b)[..|a + b| - 1] == a + b0;
      assert (a + b)[|a + b| - 1] == b[|b| - 1];
      TabOverAppend(a, b0, p, loc);
    }
  }

  /** Available stock is the stock plus the adjustment, and loading one
      more transaction moves it by exactly that transaction's lines. */
  lemma AvailableAfterLoading(txs: seq<ClientTx>, tx: ClientTx, product: ClientProduct, loc: string)
    requires loc != ""
    ensures PageAvailable(txs + [tx], product, loc)
         == PageAvailable(txs, product, loc) + PageTxDelta(tx, TxItems(tx), product.id, loc)
    ensures TabAvailable(txs + [tx], product, loc)
         == TabAvailable(txs, product, loc) + TabTxDelta(tx, TxItems(tx), product, loc)
  {
    assert (txs + [tx])[..|txs|] == txs;
  }

  /** A transfer whose two ends are the same location nets zero. */
  lemma {:induction false} PageTransferNetsZero(tx: ClientTx, items: seq<Item>, pid: string, loc: string)
    requires Kind(tx) == "transfer" && PagePlaces(tx).from == PagePlaces(tx).to
    ensures PageTxDelta(tx, items, pid, loc) == 0
  {
    if items != [] {
      PageTransferNetsZero(tx, items[..|items| - 1], pid, loc);
    }
  }

  lemma {:induction false} TabTransferNetsZero(tx: ClientTx, items: seq<Item>, p: ClientProduct, loc: string)
    requires Kind(tx) == "transfer" && TabPlaces(tx).from == TabPlaces(tx).to
    ensures TabTxDelta(tx, items, p, loc) == 0
  {
    if items != [] {
      TabTransferNetsZero(tx, items[..|items| - 1], p, loc);
    }
  }

  /** A purchase, or any type outside the four the rule knows, adds nothing. */
  lemma {:induction false} PageOtherTypeNothing(tx: ClientTx, items: seq<Item>, pid: string, loc: string)
    requires !IsOutgoing(Kind(tx)) && Kind(tx) != "inbound" && Kind(tx) != "transfer"
    ensures PageTxDelta(tx, items, pid, loc) == 0
  {
    if items != [] {
      PageOtherTypeNothing(tx, items[..|items| - 1], pid, loc);
    }
  }

  /** Lines that name another product contribute nothing. */
  lemma {:induction false} PageOtherProductNothing(tx: ClientTx, items: seq<Item>, pid: string, loc: string)
    requires forall j :: 0 <= j < |items| ==> ItemId(items[j]) != pid
    ensures PageTxDelta(tx, items, pid, loc) == 0
  {
    if items != [] {
      PageOtherProductNothing(tx, items[..|items| - 1], pid, loc);
    }
  }

  /** With only sales and outbounds loaded, with non-negative quantities,
      the page never shows more than the stock. */
  lemma {:induction false} PageOutgoingLowers(txs: seq<ClientTx>, product: ClientProduct, loc: string)
    requires forall i :: 0 <= i < |txs| ==> IsOutgoing(Kind(txs[i]))
    requires forall i, j :: 0 <= i < |txs| && 0 <= j < |TxItems(txs[i])| ==> PageQty(TxItems(txs[i])[j]) >= 0
    ensures PageAvailable(txs, product, loc) <= product.stock
  {
    if loc != "" {
      OverOutgoingLowers(txs, product.id, loc);
    }
  }

  lemma {:induction false} OverOutgoingLowers(txs: seq<ClientTx>, pid: string, loc: string)
    requires forall i :: 0 <= i < |txs| ==> IsOutgoing(Kind(txs[i]))
    requires forall i, j :: 0 <= i < |txs| && 0 <= j < |TxItems(txs[i])| ==> PageQty(TxItems(txs[i])[j]) >= 0
    ensures PageOver(txs, pid, loc) <= 0
  {
    if txs != [] {
      var last := txs[|txs| - 1];
      OverOutgoingLowers(txs[..|txs| - 1], pid, loc);
      TxOutgoingLowers(last, TxItems(last), pid, loc);
    }
  }

  lemma {:induction false} TxOutgoingLowers(tx: ClientTx, items: seq<Item>, pid: string, loc: string)
    requires IsOutgoing(Kind(tx))
    requires forall j :: 0 <= j < |items| ==> PageQty(items[j]) >= 0
    ensures PageTxDelta(tx, items, pid, loc) <= 0
  {
    if items != [] {
      TxOutgoingLowers(tx, items[..|items| - 1], pid, loc);
    }
  }

  /** The transactions both pages read alike: locations only as populated
      documents with an id, in `fromLocation`, `toLocation` and
      `locationId`, and no line carrying an `amount`. */
  predicate Plain(tx: ClientTx) {
    (tx.fromLocation.Absent? || (tx.fromLocation.Doc? && tx.fromLocation.docId != ""))
    && (tx.toLocation.Absent? || (tx.toLocation.Doc? && tx.toLocation.docId != ""))
    && (tx.locationId.Absent? || (tx.locationId.Doc? && tx.locationId.docId != ""))
    && tx.fromLocationId.Absent? && tx.toLocationId.Absent? && tx.location.Absent?
    && forall j :: 0 <= j < |TxItems(tx)| ==> TxItems(tx)[j].amount == 0
  }

  /** For a product without an item code and plainly shaped transactions,
      the two pages show the same adjustment. */
  lemma {:induction false} PagesAgree(txs: seq<ClientTx>, product: ClientProduct, loc: string)
    requires product.itemCode == ""
    requires forall i :: 0 <= i < |txs| ==> Plain(txs[i])
    ensures TabPending(txs, Some(product), loc) == PagePending(txs, Some(product), loc)
  {
    if loc != "" && txs != [] {
      var last := txs[|txs| - 1];
      PagesAgree(txs[..|txs| - 1], product, loc);
      assert PagePlaces(last) == TabPlaces(last);
      TxAgree(last, TxItems(last), product, loc);
    }
  }

  lemma {:induction false} TxAgree(tx: ClientTx, items: seq<Item>, p: ClientProduct, loc: string)
    requires p.itemCode == "" && PagePlaces(tx) == TabPlaces(tx)
    requires forall j :: 0 <= j < |items| ==> items[j].amount == 0
    ensures TabTxDelta(tx, items, p, loc) == PageTxDelta(tx, items, p.id, loc)
  {
    if items != [] {
      TxAgree(tx, items[..|items| - 1], p, loc);
    }
  }

  /** Where the two pages part: a transfer line that names the destination
      row (another id, same item code) lowers the tab's figure at the
      source and leaves the products page's figure alone. */
  lemma TransferByCode(tx: ClientTx, product: ClientProduct, loc: string, other: string, q: int)
    requires Kind(tx) == "transfer" && product.itemCode != "" && other != product.id && loc != ""
    requires tx.fromLocation == Doc(loc, "") && tx.toLocation.Doc? && tx.toLocation.docId != loc
    requires tx.fromLocationId.Absent? && tx.toLocationId.Absent?
    requires tx.products == Some([Item(Doc(other, product.itemCode), Absent, "", q, 0, 0)])
    ensures TabPending([tx], Some(product), loc) == -q
    ensures PagePending([tx], Some(product), loc) == 0
  {
    var it := Item(Doc(other, product.itemCode), Absent, "", q, 0, 0);
    assert TxItems(tx) == [it] && [it][..0] == [] && [tx][..0] == [];
    assert ItemCode(it) == product.itemCode && TabMatches("transfer", it, product);
    assert TabPlaces(tx).from == loc && TabPlaces(tx).to != loc;
    assert TabItemDelta(tx, it, product, loc) == -q;
    assert TabTxDelta(tx, [it], product, loc) == -q;
    assert ItemId(it) == other;
    assert PageTxDelta(tx, [it], product.id, loc) == 0;
    assert TabOver([tx], product, loc) == TabOver([], product, loc) + TabTxDelta(tx, [it], product, loc);
    assert PageOver([tx], product.id, loc) == PageOver([], product.id, loc) + PageTxDelta(tx, [it], product.id, loc);
  }
}

=== FILE: stock_effects.dfy ===
/** The stock effects of approving and cancelling a transaction
    (backend/controllers/transactionController.js): each is a pass over the
    transaction's lines that reads and writes product rows one after the
    other, so a later line sees what an earlier one wrote. A line whose
    product row is missing is passed over here; the source would fail on the
    null the populate step leaves, and the lemmas about single rows assume
    that every line names an existing row (`LinesExist`). */
module StockEffects {
  import opened Common
  import opened TransactionModel
  import opened Catalog

  // ---------------------------------------------------------------
  // Sale and outbound: every line takes its quantity off its row
  // ---------------------------------------------------------------

  /** The sale/outbound pass: `Err` is the "Not enough stock" throw. */
  function SaleFold(rows: seq<Product>, lines: seq<Line>): (r: Result<seq<Product>, Error>)
    ensures r.Err? ==> r.error.InsufficientStock? && References(lines, r.error.product)
    decreases |lines|
  {
    if lines == [] then Ok(rows)
    else
      var l := lines[0];
      if l.product >= |rows| then SaleFold(rows, lines[1..])
      else if rows[l.product].stock < l.quantity then Err(InsufficientStock(l.product))
      else SaleFold(SetStock(rows, l.product, rows[l.product].stock - l.quantity), lines[1..])
  }

  /** The total quantity the lines take from row `k`. */
  function Demand(lines: seq<Line>, k: ProductId): int {
    if lines == [] then 0
    else (if lines[0].product == k then lines[0].quantity else 0) + Demand(lines[1..], k)
  }

  predicate References(lines: seq<Line>, k: ProductId) {
    exists j :: 0 <= j < |lines| && lines[j].product == k
  }

  lemma {:induction false} DemandUnreferenced(lines: seq<Line>, k: ProductId)
    requires !References(lines, k)
    ensures Demand(lines, k) == 0
  {
    if lines != [] {
      assert lines[0].product != k;
      assert !References(lines[1..], k) by {
        forall j | 0 <= j < |lines[1..]| ensures lines[1..][j].product != k {
          assert lines[1..][j] == lines[j + 1];
        }
      }
      DemandUnreferenced(lines[1..], k);
    }
  }

  /** A successful sale/outbound approval takes from every row exactly the
      quantity its lines ask for, and changes nothing else. */
  lemma {:induction false} SaleEffect(rows: seq<Product>, lines: seq<Line>)
    requires SaleFold(rows, lines).Ok?
    ensures |SaleFold(rows, lines).value| == |rows|
    ensures forall k :: 0 <= k < |rows| ==>
      SaleFold(rows, lines).value[k] == rows[k].(stock := rows[k].stock - Demand(lines, k))
    decreases |lines|
  {
    if lines != [] {
      var l := lines[0];
      if l.product >= |rows| {
        SaleEffect(rows, lines[1..]);
      } else {
        var r1 := SetStock(rows, l.product, rows[l.product].stock - l.quantity);
        SaleEffect(r1, lines[1..]);
      }
    }
  }

  /** After a successful sale/outbound approval no row a line refers to is
      negative: each take is checked against what is left at that moment. */
  lemma {:induction false} SaleNeverNegative(rows: seq<Product>, lines: seq<Line>)
    requires SaleFold(rows, lines).Ok?
    ensures |SaleFold(rows, lines).value| == |rows|
    ensures forall j :: 0 <= j < |lines| && lines[j].product < |rows| ==>
      SaleFold(rows, lines).value[lines[j].product].stock >= 0
    decreases |lines|
  {
    if lines != [] {
      var l := lines[0];
      var r1 := if l.product >= |rows| then rows else SetStock(rows, l.product, rows[l.product].stock - l.quantity);
      assert SaleFold(rows, lines) == SaleFold(r1, lines[1..]);
      SaleNeverNegative(r1, lines[1..]);
      SaleEffect(r1, lines[1..]);
      SaleEffect(rows, lines);
      var r := SaleFold(rows, lines).value;
      forall j | 0 <= j < |lines| && lines[j].product < |rows|
        ensures r[lines[j].product].stock >= 0
      {
        if j > 0 {
          assert lines[1..][j - 1] == lines[j];
        } else if References(lines[1..], l.product) {
          var j' :| 0 <= j' < |lines[1..]| && lines[1..][j'].product == l.product;
        } else {
          DemandUnreferenced(lines[1..], l.product);
        }
      }
    }
  }

  /** Every row a line refers to holds at least what all the lines
      together take from it. */
  predicate Covers(rows: seq<Product>, lines: seq<Line>) {
    forall j :: 0 <= j < |lines| && lines[j].product < |rows| ==>
      rows[lines[j].product].stock >= Demand(lines, lines[j].product)
  }

  /** With non-negative quantities the pass succeeds exactly when every row a
      line refers to holds at least what all lines together take from it. */
  lemma {:induction false} SaleOkIff(rows: seq<Product>, lines: seq<Line>)
    requires forall j :: 0 <= j < |lines| ==> lines[j].quantity >= 0
    ensures SaleFold(rows, lines).Ok? <==> Covers(rows, lines)
    decreases |lines|
  {
    if lines != [] {
      var l := lines[0];
      if l.product >= |rows| {
        SaleOkIff(rows, lines[1..]);
        SaleOkIffSkip(rows, lines);
      } else {
        var r1 := SetStock(rows, l.product, rows[l.product].stock - l.quantity);
        SaleOkIff(r1, lines[1..]);
        SaleOkIffTake(rows, lines);
      }
    }
  }

  lemma SaleOkIffSkip(rows: seq<Product>, lines: seq<Line>)
    requires lines != [] && lines[0].product >= |rows|
    ensures Covers(rows, lines) <==> Covers(rows, lines[1..])
  {
    assert forall j :: 0 <= j < |lines[1..]| ==> lines[1..][j] == lines[j + 1];
    forall k: nat | k < |rows| ensures Demand(lines, k) == Demand(lines[1..], k) { }
  }

  lemma SaleOkIffTake(rows: seq<Product>, lines: seq<Line>)
    requires lines != [] && lines[0].product < |rows| && lines[0].quantity >= 0
    requires forall j :: 0 <= j < |lines| ==> lines[j].quantity >= 0
    ensures var l := lines[0];
      (rows[l.product].stock >= l.quantity
       && Covers(SetStock(rows, l.product, rows[l.product].stock - l.quantity), lines[1..]))
      <==> Covers(rows, lines)
  {
    var l := lines[0];
    var r1 := SetStock(rows, l.product, rows[l.product].stock - l.quantity);
    var tail := lines[1..];
    assert forall j :: 0 <= j < |tail| ==> tail[j] == lines[j + 1];
    DemandNonNeg(tail, l.product);
    forall k: nat | k < |rows| ensures Demand(lines, k) == (if k == l.product then l.quantity else 0) + Demand(tail, k) { }
    if !References(tail, l.product) {
      DemandUnreferenced(tail, l.product);
    } else {
      var j' :| 0 <= j' < |tail| && tail[j'].product == l.product;
      assert lines[j' + 1].product == l.product;
    }
  }

  lemma {:induction false} DemandNonNeg(lines: seq<Line>, k: ProductId)
    requires forall j :: 0 <= j < |lines| ==> lines[j].quantity >= 0
    ensures Demand(lines, k) >= 0
  {
    if lines != [] {
      assert forall j :: 0 <= j < |lines[1..]| ==> lines[1..][j] == lines[j + 1];
      DemandNonNeg(lines[1..], k);
    }
  }

  /** The sale/outbound loop of approveTransaction, on a working copy. */
  method ApplySale(rows: seq<Product>, lines: seq<Line>) returns (r: Result<seq<Product>, Error>)
    ensures r == SaleFold(rows, lines)
  {
    var work := rows;
    var i := 0;
    while i < |lines|
      invariant 0 <= i <= |lines|
      invariant SaleFold(rows, lines) == SaleFold(work, lines[i..])
    {
      assert lines[i..][0] == lines[i] && lines[i..][1..] == lines[i + 1..];
      var p := lines[i].product;
      if p < |work| {
        if work[p].stock < lines[i].quantity {
          return Err(InsufficientStock(p));
        }
        work := SetStock(work, p, work[p].stock - lines[i].quantity);
      }
      i := i + 1;
    }
    r := Ok(work);
  }

  // ---------------------------------------------------------------
  // Adding stock at a destination (transfer, inbound)
  // ---------------------------------------------------------------

  /** Add `q` to the row with `p`'s item code at location `to`, or create
      that row from `p` with stock `q`. */
  function AddAt(rows: seq<Product>, p: Product, q: int, to: LocationId): (r: seq<Product>)
    ensures FindAt(rows, p.itemCode, to).Some? ==>
      var t := FindAt(rows, p.itemCode, to).value;
      |r| == |rows| && r[t] == rows[t].(stock := rows[t].stock + q)
      && forall k :: 0 <= k < |rows| && k != t ==> r[k] == rows[k]
    ensures FindAt(rows, p.itemCode, to).None? ==> r == rows + [p.(stock := q, locationId := to)]
  {
    match FindAt(rows, p.itemCode, to)
    case Some(t) => SetStock(rows, t, rows[t].stock + q)
    case None => rows + [p.(stock := q, locationId := to)]
  }

  lemma AddAtSum(rows: seq<Product>, p: Product, q: int, to: LocationId, code: string)
    ensures SumCode(AddAt(rows, p, q, to), code) == SumCode(rows, code) + (if p.itemCode == code then q else 0)
  {
    match FindAt(rows, p.itemCode, to)
    case Some(t) => SumCodeSetStock(rows, t, rows[t].stock + q, code);
    case None => SumCodeAppend(rows, p.(stock := q, locationId := to), code);
  }

  lemma AddAtKeepsSound(rows: seq<Product>, p: Product, q: int, to: LocationId, nLoc: nat, nCat: nat)
    requires Sound(rows, nLoc, nCat) && to < nLoc && p.categoryId < nCat
    ensures Sound(AddAt(rows, p, q, to), nLoc, nCat)
  {
    AddAtKeepsUnique(rows, p, q, to);
  }

  lemma AddAtKeepsUnique(rows: seq<Product>, p: Product, q: int, to: LocationId)
    requires UniqueCodeLoc(rows)
    ensures UniqueCodeLoc(AddAt(rows, p, q, to))
  {
    match FindAt(rows, p.itemCode, to)
    case Some(t) => SetStockKeepsUnique(rows, t, rows[t].stock + q);
    case None => AppendFreshKeepsUnique(rows, p.(stock := q, locationId := to));
  }

  /** Adding at a destination, slot by slot: the slot of `p`'s item code at
      `to` holds `q` more afterwards (its row is created when it was empty),
      every other slot keeps its stock, and no slot that was filled empties. */
  lemma AddAtSlot(rows: seq<Product>, p: Product, q: int, to: LocationId, code: string, loc: LocationId)
    ensures FindAt(AddAt(rows, p, q, to), p.itemCode, to).Some?
    ensures FindAt(rows, code, loc).Some? ==> FindAt(AddAt(rows, p, q, to), code, loc) == FindAt(rows, code, loc)
    ensures SlotStock(AddAt(rows, p, q, to), code, loc)
         == SlotStock(rows, code, loc) + (if code == p.itemCode && loc == to then q else 0)
  {
    match FindAt(rows, p.itemCode, to)
    case Some(t) =>
      SetStockSlot(rows, t, rows[t].stock + q, code, loc);
      SetStockSlot(rows, t, rows[t].stock + q, p.itemCode, to);
    case None =>
      FindAtAppend(rows, p.(stock := q, locationId := to), code, loc);
      FindAtAppend(rows, p.(stock := q, locationId := to), p.itemCode, to);
  }

  /** A row is its own slot's first match when the index is unique. */
  lemma FindSelf(rows: seq<Product>, k: ProductId)
    requires UniqueCodeLoc(rows) && k < |rows|
    ensures FindAt(rows, rows[k].itemCode, rows[k].locationId) == Some(k)
  {
    var f := FindAt(rows, rows[k].itemCode, rows[k].locationId);
    if f != Some(k) {
      assert f.Some? ==> SameSlot(rows[f.value], rows[k]);
    }
  }

  // ---------------------------------------------------------------
  // Transfer: off the source row, onto the same item code at `to`
  // ---------------------------------------------------------------

  /** One transfer line: row `src` loses `q`, and the row of its item code
      at `to` gains `q`, or is created, as a copy of `src` holding `q`. */
  function MoveStock(rows: seq<Product>, src: ProductId, q: int, to: LocationId): (r: seq<Product>)
    requires src < |rows|
    ensures Moved(rows, src, q, to, r)
  {
    var r1 := SetStock(rows, src, rows[src].stock - q);
    SetStockSlot(rows, src, rows[src].stock - q, rows[src].itemCode, to);
    AddAt(r1, r1[src], q, to)
  }

  /** `r` is `rows` after one transfer line: when the item code of `src`
      has a row `d` at `to`, `src` loses `q` and `d` gains it; otherwise
      `src` loses `q` and a copy of it at `to` holding `q` is appended. */
  ghost predicate Moved(rows: seq<Product>, src: ProductId, q: int, to: LocationId, r: seq<Product>)
    requires src < |rows|
  {
    var d := FindAt(rows, rows[src].itemCode, to);
    if d.Some? then
      |r| == |rows| && forall k :: 0 <= k < |rows| ==>
        r[k] == rows[k].(stock := rows[k].stock - (if k == src then q else 0) + (if k == d.value then q else 0))
    else
      |r| == |rows| + 1 && r[|rows|] == rows[src].(stock := q, locationId := to)
      && forall k :: 0 <= k < |rows| ==> r[k] == rows[k].(stock := rows[k].stock - (if k == src then q else 0))
  }

  /** One transfer line, slot by slot: under the unique index the source
      row's slot loses `q` and the slot of its item code at `to` gains `q`;
      every other slot keeps its stock. */
  lemma MoveSlot(rows: seq<Product>, src: ProductId, q: int, to: LocationId, code: string, loc: LocationId)
    requires src < |rows| && UniqueCodeLoc(rows)
    ensures SlotStock(MoveStock(rows, src, q, to), code, loc)
         == SlotStock(rows, code, loc) - (if At(rows[src], code, loc) then q else 0)
            + (if code == rows[src].itemCode && loc == to then q else 0)
    ensures FindAt(rows, code, loc).Some? ==> FindAt(MoveStock(rows, src, q, to), code, loc).Some?
    ensures FindAt(MoveStock(rows, src, q, to), rows[src].itemCode, to).Some?
  {
    var r1 := SetStock(rows, src, rows[src].stock - q);
    FindSelf(rows, src);
    SetStockSlot(rows, src, rows[src].stock - q, code, loc);
    AddAtSlot(r1, r1[src], q, to, code, loc);
  }

  lemma MoveKeepsUnique(rows: seq<Product>, src: ProductId, q: int, to: LocationId)
    requires src < |rows| && UniqueCodeLoc(rows)
    ensures UniqueCodeLoc(MoveStock(rows, src, q, to))
  {
    var r1 := SetStock(rows, src, rows[src].stock - q);
    SetStockKeepsUnique(rows, src, rows[src].stock - q);
    AddAtKeepsUnique(r1, r1[src], q, to);
  }

  function TransferFold(rows: seq<Product>, lines: seq<Line>, to: LocationId): (r: Result<seq<Product>, Error>)
    ensures r.Err? ==> r.error.InsufficientStock? && References(lines, r.error.product)
    decreases |lines|
  {
    if lines == [] then Ok(rows)
    else
      var l := lines[0];
      if l.product >= |rows| then TransferFold(rows, lines[1..], to)
      else if rows[l.product].stock < l.quantity then Err(InsufficientStock(l.product))
      else TransferFold(MoveStock(rows, l.product, l.quantity, to), lines[1..], to)
  }

  lemma MoveConserves(rows: seq<Product>, src: ProductId, q: int, to: LocationId, code: string)
    requires src < |rows|
    ensures SumCode(MoveStock(rows, src, q, to), code) == SumCode(rows, code)
  {
    var r1 := SetStock(rows, src, rows[src].stock - q);
    SumCodeSetStock(rows, src, rows[src].stock - q, code);
    AddAtSum(r1, r1[src], q, to, code);
  }

  /** A successful transfer approval conserves the total stock of every item
      code: what leaves a source row arrives at the destination row. */
  lemma {:induction false} TransferConserves(rows: seq<Product>, lines: seq<Line>, to: LocationId, code: string)
    requires TransferFold(rows, lines, to).Ok?
    ensures SumCode(TransferFold(rows, lines, to).value, code) == SumCode(rows, code)
    decreases |lines|
  {
    if lines != [] {
      var l := lines[0];
      if l.product >= |rows| {
        TransferConserves(rows, lines[1..], to, code);
      } else {
        MoveConserves(rows, l.product, l.quantity, to, code);
        TransferConserves(MoveStock(rows, l.product, l.quantity, to), lines[1..], to, code);
      }
    }
  }

  ghost predicate AllNonNegative(rows: seq<Product>) {
    forall k :: 0 <= k < |rows| ==> rows[k].stock >= 0
  }

  /** With non-negative quantities a successful transfer leaves no row
      negative when none was before. */
  lemma {:induction false} TransferNeverNegative(rows: seq<Product>, lines: seq<Line>, to: LocationId)
    requires TransferFold(rows, lines, to).Ok? && AllNonNegative(rows)
    requires forall j :: 0 <= j < |lines| ==> lines[j].quantity >= 0
    ensures AllNonNegative(TransferFold(rows, lines, to).value)
    decreases |lines|
  {
    if lines != [] {
      var l := lines[0];
      assert forall j :: 0 <= j < |lines[1..]| ==> lines[1..][j] == lines[j + 1];
      if l.product >= |rows| {
        TransferNeverNegative(rows, lines[1..], to);
      } else {
        var r1 := SetStock(rows, l.product, rows[l.product].stock - l.quantity);
        assert AllNonNegative(r1);
        var r2 := MoveStock(rows, l.product, l.quantity, to);
        assert AllNonNegative(r2);
        TransferNeverNegative(r2, lines[1..], to);
      }
    }
  }

  lemma {:induction false} TransferKeepsSound(rows: seq<Product>, lines: seq<Line>, to: LocationId, nLoc: nat, nCat: nat)
    requires TransferFold(rows, lines, to).Ok? && Sound(rows, nLoc, nCat) && to < nLoc
    ensures Sound(TransferFold(rows, lines, to).value, nLoc, nCat)
    decreases |lines|
  {
    if lines != [] {
      var l := lines[0];
      if l.product >= |rows| {
        TransferKeepsSound(rows, lines[1..], to, nLoc, nCat);
      } else {
        MoveKeepsSound(rows, l.product, l.quantity, to, nLoc, nCat);
        TransferKeepsSound(MoveStock(rows, l.product, l.quantity, to), lines[1..], to, nLoc, nCat);
      }
    }
  }

  lemma MoveKeepsSound(rows: seq<Product>, src: ProductId, q: int, to: LocationId, nLoc: nat, nCat: nat)
    requires src < |rows| && Sound(rows, nLoc, nCat) && to < nLoc
    ensures Sound(MoveStock(rows, src, q, to), nLoc, nCat)
  {
    var r1 := SetStock(rows, src, rows[src].stock - q);
    SetStockKeepsUnique(rows, src, rows[src].stock - q);
    assert RowsRefs(r1, nLoc, nCat);
    AddAtKeepsSound(r1, r1[src], q, to, nLoc, nCat);
  }

  // ---------------------------------------------------------------
  // What a transfer does, row by row
  // ---------------------------------------------------------------

  /** Every line names an existing row. */
  predicate LinesExist(rows: seq<Product>, lines: seq<Line>) {
    forall j :: 0 <= j < |lines| ==> lines[j].product < |rows|
  }

  /** `r` is `rows` with only stocks changed, followed by new rows at `to`. */
  ghost predicate GrownAt(rows: seq<Product>, r: seq<Product>, to: LocationId) {
    |r| >= |rows|
    && (forall k :: 0 <= k < |rows| ==> r[k] == rows[k].(stock := r[k].stock))
    && (forall k :: |rows| <= k < |r| ==> r[k].locationId == to)
  }

  lemma GrownAtTrans(a: seq<Product>, b: seq<Product>, c: seq<Product>, to: LocationId)
    requires GrownAt(a, b, to) && GrownAt(b, c, to)
    ensures GrownAt(a, c, to)
  {
    forall k | 0 <= k < |a| ensures c[k] == a[k].(stock := c[k].stock) {
      assert c[k] == b[k].(stock := c[k].stock);
    }
  }

  /** What the lines take out of the slot (`code`, `loc`). */
  function Outflow(rows: seq<Product>, lines: seq<Line>, code: string, loc: LocationId): int {
    if lines == [] then 0
    else (if lines[0].product < |rows| && At(rows[lines[0].product], code, loc) then lines[0].quantity else 0)
         + Outflow(rows, lines[1..], code, loc)
  }

  /** What the lines deliver under item code `code`. */
  function Inflow(rows: seq<Product>, lines: seq<Line>, code: string): int {
    if lines == [] then 0
    else (if lines[0].product < |rows| && rows[lines[0].product].itemCode == code then lines[0].quantity else 0)
         + Inflow(rows, lines[1..], code)
  }

  /** What an inbound's lines book under item code `code`. */
  function BookedCode(rows: seq<Product>, lines: seq<Line>, code: string): int {
    if lines == [] then 0
    else (if lines[0].product < |rows| && rows[lines[0].product].itemCode == code then Booked(lines[0]) else 0)
         + BookedCode(rows, lines[1..], code)
  }

  lemma TailExist(rows: seq<Product>, lines: seq<Line>)
    requires lines != [] && LinesExist(rows, lines)
    ensures LinesExist(rows, lines[1..])
  {
    assert forall j :: 0 <= j < |lines[1..]| ==> lines[1..][j] == lines[j + 1];
  }

  /** Stock-only changes and appended rows leave what the lines move unchanged. */
  lemma {:induction false} FlowsGrown(rows: seq<Product>, r: seq<Product>, to: LocationId, lines: seq<Line>,
                                      code: string, loc: LocationId)
    requires GrownAt(rows, r, to) && LinesExist(rows, lines)
    ensures LinesExist(r, lines)
    ensures Outflow(r, lines, code, loc) == Outflow(rows, lines, code, loc)
    ensures Inflow(r, lines, code) == Inflow(rows, lines, code)
    ensures BookedCode(r, lines, code) == BookedCode(rows, lines, code)
    decreases |lines|
  {
    if lines != [] {
      TailExist(rows, lines);
      FlowsGrown(rows, r, to, lines[1..], code, loc);
      assert r[lines[0].product] == rows[lines[0].product].(stock := r[lines[0].product].stock);
    }
  }

  /** Under the unique index, what the lines take from row `k` is what they
      take out of its slot. */
  lemma {:induction false} DemandIsOutflow(rows: seq<Product>, lines: seq<Line>, k: ProductId)
    requires UniqueCodeLoc(rows) && LinesExist(rows, lines) && k < |rows|
    ensures Demand(lines, k) == Outflow(rows, lines, rows[k].itemCode, rows[k].locationId)
    decreases |lines|
  {
    if lines != [] {
      TailExist(rows, lines);
      DemandIsOutflow(rows, lines[1..], k);
      var p := lines[0].product;
      assert At(rows[p], rows[k].itemCode, rows[k].locationId) <==> p == k by {
        if p != k {
          assert !SameSlot(rows[p], rows[k]);
        }
      }
    }
  }

  /** Nothing is taken out of a slot no row sits in. */
  lemma {:induction false} OutflowEmpty(rows: seq<Product>, lines: seq<Line>, code: string, loc: LocationId)
    requires FindAt(rows, code, loc).None?
    ensures Outflow(rows, lines, code, loc) == 0
    decreases |lines|
  {
    if lines != [] {
      OutflowEmpty(rows, lines[1..], code, loc);
    }
  }

  /** A successful transfer, slot by slot: every slot loses what the lines
      take out of it, the slots at `to` gain what arrives under their item
      code, a filled slot stays filled, and only stocks change or rows at
      `to` are added. */
  lemma {:induction false} TransferSlots(rows: seq<Product>, lines: seq<Line>, to: LocationId, code: string, loc: LocationId)
    requires UniqueCodeLoc(rows) && LinesExist(rows, lines) && TransferFold(rows, lines, to).Ok?
    ensures var r := TransferFold(rows, lines, to).value;
      GrownAt(rows, r, to) && UniqueCodeLoc(r)
      && SlotStock(r, code, loc)
         == SlotStock(rows, code, loc) - Outflow(rows, lines, code, loc) + (if loc == to then Inflow(rows, lines, code) else 0)
      && (FindAt(rows, code, loc).Some? ==> FindAt(r, code, loc).Some?)
    decreases |lines|
  {
    if lines != [] {
      var l := lines[0];
      TailExist(rows, lines);
      var r1 := MoveStock(rows, l.product, l.quantity, to);
      MoveSlot(rows, l.product, l.quantity, to, code, loc);
      MoveKeepsUnique(rows, l.product, l.quantity, to);
      assert GrownAt(rows, r1, to);
      FlowsGrown(rows, r1, to, lines[1..], code, loc);
      TransferSlots(r1, lines[1..], to, code, loc);
      GrownAtTrans(rows, r1, TransferFold(r1, lines[1..], to).value, to);
    } else {
      assert GrownAt(rows, rows, to);
    }
  }

  /** An item code some line carries. */
  predicate CodeArrives(rows: seq<Product>, lines: seq<Line>, code: string) {
    exists j :: 0 <= j < |lines| && lines[j].product < |rows| && rows[lines[j].product].itemCode == code
  }

  /** After a successful transfer, every item code a line carries has a row
      at `to`: the one it had, or the one created for it. */
  lemma {:induction false} TransferOpensSlots(rows: seq<Product>, lines: seq<Line>, to: LocationId, code: string)
    requires UniqueCodeLoc(rows) && LinesExist(rows, lines) && TransferFold(rows, lines, to).Ok?
    requires FindAt(rows, code, to).Some? || CodeArrives(rows, lines, code)
    ensures FindAt(TransferFold(rows, lines, to).value, code, to).Some?
    decreases |lines|
  {
    if lines != [] {
      var l := lines[0];
      TailExist(rows, lines);
      var r1 := MoveStock(rows, l.product, l.quantity, to);
      MoveSlot(rows, l.product, l.quantity, to, code, to);
      MoveKeepsUnique(rows, l.product, l.quantity, to);
      assert GrownAt(rows, r1, to);
      if !(FindAt(r1, code, to).Some?) {
        var j :| 0 <= j < |lines| && lines[j].product < |rows| && rows[lines[j].product].itemCode == code;
        assert j != 0;
        assert lines[1..][j - 1] == lines[j];
        assert r1[lines[j].product].itemCode == code;
      }
      TransferOpensSlots(r1, lines[1..], to, code);
    }
  }

  /** A successful transfer, row by row: every existing row loses what the
      lines take from it and, when it sits at `to`, gains what arrives under
      its item code; the rows added are at `to`, in slots that were empty,
      each holding what arrived under its item code. */
  lemma TransferRows(rows: seq<Product>, lines: seq<Line>, to: LocationId)
    requires UniqueCodeLoc(rows) && LinesExist(rows, lines) && TransferFold(rows, lines, to).Ok?
    ensures var r := TransferFold(rows, lines, to).value;
      |r| >= |rows|
      && (forall k :: 0 <= k < |rows| ==>
            r[k] == rows[k].(stock := rows[k].stock - Demand(lines, k)
                                      + (if rows[k].locationId == to then Inflow(rows, lines, rows[k].itemCode) else 0)))
      && (forall k :: |rows| <= k < |r| ==>
            r[k].locationId == to && FindAt(rows, r[k].itemCode, to).None?
            && r[k].stock == Inflow(rows, lines, r[k].itemCode))
  {
    var r := TransferFold(rows, lines, to).value;
    TransferSlots(rows, lines, to, "", to);
    forall k | 0 <= k < |rows|
      ensures r[k] == rows[k].(stock := rows[k].stock - Demand(lines, k)
                                        + (if rows[k].locationId == to then Inflow(rows, lines, rows[k].itemCode) else 0))
    {
      TransferSlots(rows, lines, to, rows[k].itemCode, rows[k].locationId);
      FindSelf(rows, k);
      FindSelf(r, k);
      DemandIsOutflow(rows, lines, k);
    }
    forall k | |rows| <= k < |r|
      ensures r[k].locationId == to && FindAt(rows, r[k].itemCode, to).None?
      ensures r[k].stock == Inflow(rows, lines, r[k].itemCode)
    {
      var c := r[k].itemCode;
      TransferSlots(rows, lines, to, c, to);
      FindSelf(r, k);
      forall i | 0 <= i < |rows| ensures !At(rows[i], c, to) {
        assert r[i] == rows[i].(stock := r[i].stock);
        assert !SameSlot(r[i], r[k]);
      }
      OutflowEmpty(rows, lines, c, to);
    }
  }

  /** Running the transfer pass over `a + b` is running it over `a`, then
      over `b` from where `a` left off. */
  lemma {:induction false} TransferFoldAppend(rows: seq<Product>, a: seq<Line>, b: seq<Line>, to: LocationId)
    ensures TransferFold(rows, a + b, to)
         == match TransferFold(rows, a, to)
            case Err(e) => Err(e)
            case Ok(s) => TransferFold(s, b, to)
    decreases |a|
  {
    if a == [] {
      assert a + b == b;
    } else {
      assert (a + b)[0] == a[0] && (a + b)[1..] == a[1..] + b;
      var l := a[0];
      if l.product >= |rows| {
        TransferFoldAppend(rows, a[1..], b, to);
      } else if rows[l.product].stock >= l.quantity {
        TransferFoldAppend(MoveStock(rows, l.product, l.quantity, to), a[1..], b, to);
      }
    }
  }

  /** Line `j` is the first one whose row, after the lines before it went
      through, holds less than the line asks for. */
  ghost predicate ShortAt(rows: seq<Product>, lines: seq<Line>, to: LocationId, j: int) {
    0 <= j < |lines|
    && TransferFold(rows, lines[..j], to).Ok?
    && lines[j].product < |TransferFold(rows, lines[..j], to).value|
    && TransferFold(rows, lines[..j], to).value[lines[j].product].stock < lines[j].quantity
  }

  /** A short line aborts the whole transfer with its product's error. */
  lemma ShortFails(rows: seq<Product>, lines: seq<Line>, to: LocationId, j: int)
    requires ShortAt(rows, lines, to, j)
    ensures TransferFold(rows, lines, to) == Err(InsufficientStock(lines[j].product))
  {
    assert lines == lines[..j] + lines[j..];
    TransferFoldAppend(rows, lines[..j], lines[j..], to);
    assert lines[j..][0] == lines[j];
  }

  lemma {:induction false} FailsAtShort(rows: seq<Product>, lines: seq<Line>, to: LocationId)
    requires TransferFold(rows, lines, to).Err?
    ensures exists j :: ShortAt(rows, lines, to, j)
    decreases |lines|
  {
    var l := lines[0];
    assert lines[..0] == [];
    if l.product < |rows| && rows[l.product].stock < l.quantity {
      assert ShortAt(rows, lines, to, 0);
    } else {
      var r1 := if l.product >= |rows| then rows else MoveStock(rows, l.product, l.quantity, to);
      assert TransferFold(rows, lines, to) == TransferFold(r1, lines[1..], to);
      FailsAtShort(r1, lines[1..], to);
      var j :| ShortAt(r1, lines[1..], to, j);
      assert lines[..j + 1][0] == l && lines[..j + 1][1..] == lines[1..][..j];
      assert TransferFold(rows, lines[..j + 1], to) == TransferFold(r1, lines[1..][..j], to);
      assert lines[1..][j] == lines[j + 1];
      assert ShortAt(rows, lines, to, j + 1);
    }
  }

  /** A transfer fails exactly when some line finds its row short, and then
      with the first short line's product. */
  lemma TransferFailsIff(rows: seq<Product>, lines: seq<Line>, to: LocationId)
    ensures TransferFold(rows, lines, to).Err? <==> exists j :: ShortAt(rows, lines, to, j)
    ensures forall j :: ShortAt(rows, lines, to, j) ==>
      TransferFold(rows, lines, to) == Err(InsufficientStock(lines[j].product))
  {
    if TransferFold(rows, lines, to).Err? {
      FailsAtShort(rows, lines, to);
    }
    forall j | ShortAt(rows, lines, to, j)
      ensures TransferFold(rows, lines, to) == Err(InsufficientStock(lines[j].product))
    {
      ShortFails(rows, lines, to, j);
    }
  }

  /** Every line names an existing row away from `to`. */
  ghost predicate AwayFrom(rows: seq<Product>, lines: seq<Line>, to: LocationId) {
    forall j :: 0 <= j < |lines| ==> lines[j].product < |rows| && rows[lines[j].product].locationId != to
  }

  /** Away from `to`, a transfer checks the source rows as a sale would:
      the rows at `to` it adds to are never the ones it takes from. */
  lemma {:induction false} TransferLikeSale(rt: seq<Product>, rs: seq<Product>, lines: seq<Line>, to: LocationId)
    requires AwayFrom(rs, lines, to) && AgreeAway(rt, rs, to)
    ensures TransferFold(rt, lines, to).Ok? == SaleFold(rs, lines).Ok?
    decreases |lines|
  {
    if lines != [] {
      var p, q := lines[0].product, lines[0].quantity;
      AwayFirst(rt, rs, lines, to);
      FoldsStep(rt, rs, lines, to);
      if rs[p].stock >= q {
        PairedTail(rt, rs, lines, to);
        TransferLikeSale(MoveStock(rt, p, q, to), SetStock(rs, p, rs[p].stock - q), lines[1..], to);
      }
    }
  }

  /** After the first line, the two tables and the remaining lines are
      again paired as `TransferLikeSale` needs. */
  lemma PairedTail(rt: seq<Product>, rs: seq<Product>, lines: seq<Line>, to: LocationId)
    requires lines != [] && AwayFrom(rs, lines, to) && AgreeAway(rt, rs, to)
    ensures var p, q := lines[0].product, lines[0].quantity;
      p < |rs| && AwayFrom(SetStock(rs, p, rs[p].stock - q), lines[1..], to)
      && AgreeAway(MoveStock(rt, p, q, to), SetStock(rs, p, rs[p].stock - q), to)
  {
    var p, q := lines[0].product, lines[0].quantity;
    AwayFirst(rt, rs, lines, to);
    MoveLikeTake(rt, rs, p, q, to);
    AwayTail(rs, p, rs[p].stock - q, lines, to);
  }

  /** The first line's row is away from `to` and the same in both tables. */
  lemma AwayFirst(rt: seq<Product>, rs: seq<Product>, lines: seq<Line>, to: LocationId)
    requires lines != [] && AwayFrom(rs, lines, to) && AgreeAway(rt, rs, to)
    ensures lines[0].product < |rs| <= |rt| && rs[lines[0].product].locationId != to
    ensures rt[lines[0].product] == rs[lines[0].product]
  {
  }

  /** The first step of both passes, when the first line's row is the same
      in both tables. */
  lemma FoldsStep(rt: seq<Product>, rs: seq<Product>, lines: seq<Line>, to: LocationId)
    requires lines != [] && lines[0].product < |rs| <= |rt| && rt[lines[0].product] == rs[lines[0].product]
    ensures var p, q := lines[0].product, lines[0].quantity;
      TransferFold(rt, lines, to).Ok? == (rs[p].stock >= q && TransferFold(MoveStock(rt, p, q, to), lines[1..], to).Ok?)
    ensures var p, q := lines[0].product, lines[0].quantity;
      SaleFold(rs, lines).Ok? == (rs[p].stock >= q && SaleFold(SetStock(rs, p, rs[p].stock - q), lines[1..]).Ok?)
  {
  }

  /** The rows of `rs` away from `to` sit unchanged in `rt`. */
  ghost predicate AgreeAway(rt: seq<Product>, rs: seq<Product>, to: LocationId) {
    |rt| >= |rs| && forall k :: 0 <= k < |rs| && rs[k].locationId != to ==> rt[k] == rs[k]
  }

  lemma AwayTail(rs: seq<Product>, p: ProductId, v: int, lines: seq<Line>, to: LocationId)
    requires lines != [] && p < |rs| && AwayFrom(rs, lines, to)
    ensures AwayFrom(SetStock(rs, p, v), lines[1..], to)
  {
    assert forall j :: 0 <= j < |lines[1..]| ==> lines[1..][j] == lines[j + 1];
  }

  /** One transfer line away from `to` changes the rows away from `to` as
      one sale line does. */
  lemma MoveLikeTake(rt: seq<Product>, rs: seq<Product>, p: ProductId, q: int, to: LocationId)
    requires p < |rs| && rs[p].locationId != to && AgreeAway(rt, rs, to)
    ensures AgreeAway(MoveStock(rt, p, q, to), SetStock(rs, p, rs[p].stock - q), to)
  {
    var t1 := MoveStock(rt, p, q, to);
    var s1 := SetStock(rs, p, rs[p].stock - q);
    var d := FindAt(rt, rt[p].itemCode, to);
    assert d.Some? ==> rt[d.value].locationId == to;
    forall k | 0 <= k < |s1| && s1[k].locationId != to
      ensures t1[k] == s1[k]
    {
      assert rs[k].locationId != to;
    }
  }

  /** With every line's row away from `to` and non-negative quantities, a
      transfer goes through exactly when every source row holds what all
      the lines together take from it. */
  lemma TransferOkIff(rows: seq<Product>, lines: seq<Line>, to: LocationId)
    requires AwayFrom(rows, lines, to)
    requires forall j :: 0 <= j < |lines| ==> lines[j].quantity >= 0
    ensures TransferFold(rows, lines, to).Ok? <==> Covers(rows, lines)
  {
    assert AgreeAway(rows, rows, to);
    TransferLikeSale(rows, rows, lines, to);
    SaleOkIff(rows, lines);
  }

  /** The transfer loop of approveTransaction, on a working copy. */
  method ApplyTransfer(rows: seq<Product>, lines: seq<Line>, to: LocationId) returns (r: Result<seq<Product>, Error>)
    ensures r == TransferFold(rows, lines, to)
  {
    var work := rows;
    var i := 0;
    while i < |lines|
      invariant 0 <= i <= |lines|
      invariant TransferFold(rows, lines, to) == TransferFold(work, lines[i..], to)
    {
      assert lines[i..][0] == lines[i] && lines[i..][1..] == lines[i + 1..];
      var p := lines[i].product;
      if p < |work| {
        var q := lines[i].quantity;
        if work[p].stock < q {
          return Err(InsufficientStock(p));
        }
        work := MoveOne(work, p, q, to);
      }
      i := i + 1;
    }
    r := Ok(work);
  }

  /** One transfer line: the source row loses the quantity, the row of the
      same item code at the destination gains it, or is created with it. */
  method MoveOne(rows: seq<Product>, src: ProductId, q: int, to: LocationId) returns (work: seq<Product>)
    requires src < |rows|
    ensures work == MoveStock(rows, src, q, to)
  {
    work := SetStock(rows, src, rows[src].stock - q);
    work := AddStock(work, work[src], q, to);
  }

  /** Add `q` to the row for `source`'s code at `to`, creating that row
      when there is none. */
  method AddStock(rows: seq<Product>, source: Product, q: int, to: LocationId) returns (r: seq<Product>)
    ensures r == AddAt(rows, source, q, to)
  {
    var target := FindAt(rows, source.itemCode, to);
    if target.Some? {
      r := SetStock(rows, target.value, rows[target.value].stock + q);
    } else {
      r := rows + [source.(stock := q, locationId := to)];
    }
  }

  // ---------------------------------------------------------------
  // Inbound approval and its reversal on cancel
  // ---------------------------------------------------------------

  /** `receivedQuantity` when it is set, the ordered quantity otherwise. */
  function ReceivedQty(l: Line): int {
    match l.receivedQuantity
    case Some(v) => v
    case None => l.quantity
  }

  /** Only a positive received quantity is booked. */
  function Booked(l: Line): int {
    if ReceivedQty(l) > 0 then ReceivedQty(l) else 0
  }

  function InboundFold(rows: seq<Product>, lines: seq<Line>, to: LocationId): seq<Product>
    decreases |lines|
  {
    if lines == [] then rows
    else
      var l := lines[0];
      if l.product >= |rows| || ReceivedQty(l) <= 0 then InboundFold(rows, lines[1..], to)
      else InboundFold(AddAt(rows, rows[l.product], ReceivedQty(l), to), lines[1..], to)
  }

  /** The cancel pass over an approved inbound: subtract, without any
      check, from the destination row when there is one. */
  function CancelFold(rows: seq<Product>, lines: seq<Line>, to: LocationId): seq<Product>
    decreases |lines|
  {
    if lines == [] then rows
    else
      var l := lines[0];
      if l.product >= |rows| || ReceivedQty(l) <= 0 then CancelFold(rows, lines[1..], to)
      else match FindAt(rows, rows[l.product].itemCode, to)
        case Some(t) => CancelFold(SetStock(rows, t, rows[t].stock - ReceivedQty(l)), lines[1..], to)
        case None => CancelFold(rows, lines[1..], to)
  }

  /** What the lines book onto row `k`. */
  function BookedAt(lines: seq<Line>, k: ProductId): int {
    if lines == [] then 0
    else (if lines[0].product == k then Booked(lines[0]) else 0) + BookedAt(lines[1..], k)
  }

  /** The lines point at existing rows that sit at the destination, as the
      lines of an inbound generated by a purchase approval do. */
  ghost predicate AtDestination(rows: seq<Product>, lines: seq<Line>, to: LocationId) {
    forall j :: 0 <= j < |lines| ==> lines[j].product < |rows| && rows[lines[j].product].locationId == to
  }

  lemma SetStockAtDestination(rows: seq<Product>, i: nat, s: int, lines: seq<Line>, to: LocationId)
    requires i < |rows| && AtDestination(rows, lines, to)
    ensures AtDestination(SetStock(rows, i, s), lines, to)
  {
  }

  lemma TailAtDestination(rows: seq<Product>, lines: seq<Line>, to: LocationId)
    requires lines != [] && AtDestination(rows, lines, to)
    ensures AtDestination(rows, lines[1..], to)
  {
    assert forall j :: 0 <= j < |lines[1..]| ==> lines[1..][j] == lines[j + 1];
  }

  /** Approving such an inbound adds to every row exactly what its lines book. */
  lemma {:induction false} InboundEffect(rows: seq<Product>, lines: seq<Line>, to: LocationId)
    requires UniqueCodeLoc(rows) && AtDestination(rows, lines, to)
    ensures |InboundFold(rows, lines, to)| == |rows|
    ensures forall k :: 0 <= k < |rows| ==>
      InboundFold(rows, lines, to)[k] == rows[k].(stock := rows[k].stock + BookedAt(lines, k))
    decreases |lines|
  {
    if lines != [] {
      var l := lines[0];
      TailAtDestination(rows, lines, to);
      if ReceivedQty(l) <= 0 {
        InboundEffect(rows, lines[1..], to);
      } else {
        FindSelf(rows, l.product);
        var r1 := SetStock(rows, l.product, rows[l.product].stock + ReceivedQty(l));
        assert AddAt(rows, rows[l.product], ReceivedQty(l), to) == r1;
        SetStockKeepsUnique(rows, l.product, rows[l.product].stock + ReceivedQty(l));
        SetStockAtDestination(rows, l.product, rows[l.product].stock + ReceivedQty(l), lines[1..], to);
        InboundEffect(r1, lines[1..], to);
      }
    }
  }

  /** Cancelling takes off every row exactly what the lines book. */
  lemma {:induction false} CancelEffect(rows: seq<Product>, lines: seq<Line>, to: LocationId)
    requires UniqueCodeLoc(rows) && AtDestination(rows, lines, to)
    ensures |CancelFold(rows, lines, to)| == |rows|
    ensures forall k :: 0 <= k < |rows| ==>
      CancelFold(rows, lines, to)[k] == rows[k].(stock := rows[k].stock - BookedAt(lines, k))
    decreases |lines|
  {
    if lines != [] {
      var l := lines[0];
      TailAtDestination(rows, lines, to);
      if ReceivedQty(l) <= 0 {
        CancelEffect(rows, lines[1..], to);
      } else {
        FindSelf(rows, l.product);
        var r1 := SetStock(rows, l.product, rows[l.product].stock - ReceivedQty(l));
        SetStockKeepsUnique(rows, l.product, rows[l.product].stock - ReceivedQty(l));
        SetStockAtDestination(rows, l.product, rows[l.product].stock - ReceivedQty(l), lines[1..], to);
        CancelEffect(r1, lines[1..], to);
      }
    }
  }

  /** A stock change leaves what the lines book under each item code as it is. */
  lemma {:induction false} BookedSetStock(rows: seq<Product>, i: ProductId, s: int, lines: seq<Line>, code: string)
    requires i < |rows|
    ensures BookedCode(SetStock(rows, i, s), lines, code) == BookedCode(rows, lines, code)
    decreases |lines|
  {
    if lines != [] {
      BookedSetStock(rows, i, s, lines[1..], code);
    }
  }

  /** `r` is `rows` with every row at `to` lowered by what the lines book
      under its item code, every other row as it was, and no row added. */
  ghost predicate Reversed(rows: seq<Product>, lines: seq<Line>, to: LocationId, r: seq<Product>) {
    |r| == |rows|
    && forall k :: 0 <= k < |rows| ==>
         r[k] == rows[k].(stock := rows[k].stock
                                   - (if rows[k].locationId == to then BookedCode(rows, lines, rows[k].itemCode) else 0))
  }

  /** Cancelling, row by row, wherever the lines point: a row at the
      destination loses what the lines book under its item code, every
      other row keeps its stock, and no row is added. */
  lemma {:induction false} CancelRows(rows: seq<Product>, lines: seq<Line>, to: LocationId)
    requires UniqueCodeLoc(rows)
    ensures Reversed(rows, lines, to, CancelFold(rows, lines, to))
    decreases |lines|
  {
    if lines != [] {
      var l := lines[0];
      if l.product >= |rows| || ReceivedQty(l) <= 0 {
        CancelRows(rows, lines[1..], to);
      } else {
        match FindAt(rows, rows[l.product].itemCode, to)
        case Some(t) =>
          var r1 := SetStock(rows, t, rows[t].stock - ReceivedQty(l));
          SetStockKeepsUnique(rows, t, rows[t].stock - ReceivedQty(l));
          CancelRows(r1, lines[1..], to);
          CancelHit(rows, lines, to, t, CancelFold(r1, lines[1..], to));
        case None =>
          CancelRows(rows, lines[1..], to);
      }
    }
  }

  /** The step of `CancelRows` when the first line finds its destination row `t`. */
  lemma CancelHit(rows: seq<Product>, lines: seq<Line>, to: LocationId, t: ProductId, r: seq<Product>)
    requires UniqueCodeLoc(rows) && lines != [] && lines[0].product < |rows| && ReceivedQty(lines[0]) > 0
    requires FindAt(rows, rows[lines[0].product].itemCode, to) == Some(t)
    requires Reversed(SetStock(rows, t, rows[t].stock - ReceivedQty(lines[0])), lines[1..], to, r)
    ensures Reversed(rows, lines, to, r)
  {
    var r1 := SetStock(rows, t, rows[t].stock - ReceivedQty(lines[0]));
    var c := rows[lines[0].product].itemCode;
    forall k | 0 <= k < |rows|
      ensures r[k] == rows[k].(stock := rows[k].stock
                                        - (if rows[k].locationId == to then BookedCode(rows, lines, rows[k].itemCode) else 0))
    {
      BookedSetStock(rows, t, rows[t].stock - ReceivedQty(lines[0]), lines[1..], rows[k].itemCode);
      if k != t && rows[k].locationId == to {
        assert !SameSlot(rows[k], rows[t]);
      }
    }
  }

  /** Cancel is the exact inverse of inbound approval: the reversal takes off
      each destination row precisely what the approval put on it. */
  lemma CancelUndoesInbound(rows: seq<Product>, lines: seq<Line>, to: LocationId)
    requires UniqueCodeLoc(rows) && AtDestination(rows, lines, to)
    ensures CancelFold(InboundFold(rows, lines, to), lines, to) == rows
  {
    InboundEffect(rows, lines, to);
    var mid := InboundFold(rows, lines, to);
    StockOnlyChange(rows, mid, lines, to);
    CancelEffect(mid, lines, to);
    var back := CancelFold(mid, lines, to);
    assert forall k :: 0 <= k < |rows| ==> back[k] == rows[k];
  }

  /** Rows that differ from the originals only in their stock keep the
      unique index and the lines' destination. */
  lemma StockOnlyChange(rows: seq<Product>, mid: seq<Product>, lines: seq<Line>, to: LocationId)
    requires UniqueCodeLoc(rows) && AtDestination(rows, lines, to)
    requires |mid| == |rows| && forall k :: 0 <= k < |rows| ==> mid[k] == rows[k].(stock := mid[k].stock)
    ensures UniqueCodeLoc(mid) && AtDestination(mid, lines, to)
  {
    forall a, b | 0 <= a < |mid| && 0 <= b < |mid| && a != b ensures !SameSlot(mid[a], mid[b]) {
      assert SameSlot(mid[a], mid[b]) == SameSlot(rows[a], rows[b]);
    }
    forall j | 0 <= j < |lines| ensures lines[j].product < |mid| && mid[lines[j].product].locationId == to {
      assert mid[lines[j].product].locationId == rows[lines[j].product].locationId;
    }
  }

  lemma {:induction false} InboundKeepsSound(rows: seq<Product>, lines: seq<Line>, to: LocationId, nLoc: nat, nCat: nat)
    requires Sound(rows, nLoc, nCat) && to < nLoc
    ensures Sound(InboundFold(rows, lines, to), nLoc, nCat)
    decreases |lines|
  {
    if lines != [] {
      var l := lines[0];
      if l.product >= |rows| || ReceivedQty(l) <= 0 {
        InboundKeepsSound(rows, lines[1..], to, nLoc, nCat);
      } else {
        AddAtKeepsSound(rows, rows[l.product], ReceivedQty(l), to, nLoc, nCat);
        InboundKeepsSound(AddAt(rows, rows[l.product], ReceivedQty(l), to), lines[1..], to, nLoc, nCat);
      }
    }
  }

  lemma {:induction false} CancelKeepsSound(rows: seq<Product>, lines: seq<Line>, to: LocationId, nLoc: nat, nCat: nat)
    requires Sound(rows, nLoc, nCat)
    ensures Sound(CancelFold(rows, lines, to), nLoc, nCat) && |CancelFold(rows, lines, to)| == |rows|
    decreases |lines|
  {
    if lines != [] {
      var l := lines[0];
      if l.product >= |rows| || ReceivedQty(l) <= 0 {
        CancelKeepsSound(rows, lines[1..], to, nLoc, nCat);
      } else {
        match FindAt(rows, rows[l.product].itemCode, to)
        case Some(t) =>
          SetStockKeepsUnique(rows, t, rows[t].stock - ReceivedQty(l));
          CancelKeepsSound(SetStock(rows, t, rows[t].stock - ReceivedQty(l)), lines[1..], to, nLoc, nCat);
        case None =>
          CancelKeepsSound(rows, lines[1..], to, nLoc, nCat);
      }
    }
  }

  /** An inbound approval, slot by slot: the slots at `to` gain what the
      lines book under their item code, every other slot keeps its stock,
      and only stocks change or rows at `to` are added. */
  lemma {:induction false} InboundSlots(rows: seq<Product>, lines: seq<Line>, to: LocationId, code: string, loc: LocationId)
    requires UniqueCodeLoc(rows) && LinesExist(rows, lines)
    ensures var r := InboundFold(rows, lines, to);
      GrownAt(rows, r, to) && UniqueCodeLoc(r)
      && SlotStock(r, code, loc) == SlotStock(rows, code, loc) + (if loc == to then BookedCode(rows, lines, code) else 0)
    decreases |lines|
  {
    if lines != [] {
      var l := lines[0];
      TailExist(rows, lines);
      if ReceivedQty(l) <= 0 {
        InboundSlots(rows, lines[1..], to, code, loc);
      } else {
        var r1 := AddAt(rows, rows[l.product], ReceivedQty(l), to);
        AddAtSlot(rows, rows[l.product], ReceivedQty(l), to, code, loc);
        AddAtKeepsUnique(rows, rows[l.product], ReceivedQty(l), to);
        assert GrownAt(rows, r1, to);
        FlowsGrown(rows, r1, to, lines[1..], code, loc);
        InboundSlots(r1, lines[1..], to, code, loc);
        GrownAtTrans(rows, r1, InboundFold(r1, lines[1..], to), to);
      }
    } else {
      assert GrownAt(rows, rows, to);
    }
  }

  /** An inbound approval, row by row: an existing row at `to` gains what
      the lines book under its item code, every other existing row keeps
      its stock; the rows added are at `to`, in slots that were empty, each
      holding what was booked under its item code. */
  lemma InboundRows(rows: seq<Product>, lines: seq<Line>, to: LocationId)
    requires UniqueCodeLoc(rows) && LinesExist(rows, lines)
    ensures var r := InboundFold(rows, lines, to);
      |r| >= |rows|
      && (forall k :: 0 <= k < |rows| ==>
            r[k] == rows[k].(stock := rows[k].stock
                                      + (if rows[k].locationId == to then BookedCode(rows, lines, rows[k].itemCode) else 0)))
      && (forall k :: |rows| <= k < |r| ==>
            r[k].locationId == to && FindAt(rows, r[k].itemCode, to).None?
            && r[k].stock == BookedCode(rows, lines, r[k].itemCode))
  {
    var r := InboundFold(rows, lines, to);
    InboundSlots(rows, lines, to, "", to);
    forall k | 0 <= k < |rows|
      ensures r[k] == rows[k].(stock := rows[k].stock
                                        + (if rows[k].locationId == to then BookedCode(rows, lines, rows[k].itemCode) else 0))
    {
      InboundSlots(rows, lines, to, rows[k].itemCode, rows[k].locationId);
      FindSelf(rows, k);
      FindSelf(r, k);
    }
    forall k | |rows| <= k < |r|
      ensures r[k].locationId == to && FindAt(rows, r[k].itemCode, to).None?
      ensures r[k].stock == BookedCode(rows, lines, r[k].itemCode)
    {
      var c := r[k].itemCode;
      InboundSlots(rows, lines, to, c, to);
      FindSelf(r, k);
      forall i | 0 <= i < |rows| ensures !At(rows[i], c, to) {
        assert r[i] == rows[i].(stock := r[i].stock);
        assert !SameSlot(r[i], r[k]);
      }
    }
  }

  /** The inbound loop of approveTransaction. */
  method ApplyInbound(rows: seq<Product>, lines: seq<Line>, to: LocationId) returns (r: seq<Product>)
    ensures r == InboundFold(rows, lines, to)
  {
    r := rows;
    var i := 0;
    while i < |lines|
      invariant 0 <= i <= |lines|
      invariant InboundFold(rows, lines, to) == InboundFold(r, lines[i..], to)
    {
      assert lines[i..][0] == lines[i] && lines[i..][1..] == lines[i + 1..];
      var p := lines[i].product;
      var q := ReceivedQty(lines[i]);
      if p < |r| && q > 0 {
        r := AddStock(r, r[p], q, to);
      }
      i := i + 1;
    }
  }

  /** The reversal loop of cancelTransaction. */
  method ApplyCancel(rows: seq<Product>, lines: seq<Line>, to: LocationId) returns (r: seq<Product>)
    ensures r == CancelFold(rows, lines, to)
  {
    r := rows;
    var i := 0;
    while i < |lines|
      invariant 0 <= i <= |lines|
      invariant CancelFold(rows, lines, to) == CancelFold(r, lines[i..], to)
    {
      assert lines[i..][0] == lines[i] && lines[i..][1..] == lines[i + 1..];
      var p := lines[i].product;
      var q := ReceivedQty(lines[i]);
      if p < |r| && q > 0 {
        var target := FindAt(r, r[p].itemCode, to);
        if target.Some? {
          r := SetStock(r, target.value, r[target.value].stock - q);
        }
      }
      i := i + 1;
    }
  }

  // ---------------------------------------------------------------
  // Purchase approval: destination rows and the inbound's lines
  // ---------------------------------------------------------------

  /** An inbound line for a purchase line, pointing at row `target`. */
  function InboundLine(l: Line, target: ProductId): (r: Line)
    ensures r.product == target && r.quantity == l.quantity
    ensures r.expectedQuantity == Some(l.quantity) && r.receivedQuantity == Some(0)
  {
    Line(target, l.quantity, Some(0), Some(l.quantity), l.costPriceAtTransaction, l.sellingPrice,
         l.unitPrice, 0.0, l.discountPercent, l.discountedPrice)
  }

  /** The purchase-approval pass (also the transfer pre-provisioning at
      creation): for every line with a row, find or create, with stock 0, the
      row with its item code at `to`, and emit an inbound line pointing there. */
  function Provision(rows: seq<Product>, lines: seq<Line>, to: LocationId): (seq<Product>, seq<Line>)
    decreases |lines|
  {
    if lines == [] then (rows, [])
    else
      var l := lines[0];
      if l.product >= |rows| then Provision(rows, lines[1..], to)
      else
        var p := rows[l.product];
        match FindAt(rows, p.itemCode, to)
        case Some(t) =>
          var rest := Provision(rows, lines[1..], to);
          (rest.0, [InboundLine(l, t)] + rest.1)
        case None =>
          var rest := Provision(rows + [p.(stock := 0, locationId := to)], lines[1..], to);
          (rest.0, [InboundLine(l, |rows|)] + rest.1)
  }

  /** Provisioning changes no existing row and adds only empty rows at `to`,
      keeps the index unique, and every inbound line it emits points at a row
      at `to` and asks for the quantity of a purchase line. */
  lemma {:induction false} ProvisionFacts(rows: seq<Product>, lines: seq<Line>, to: LocationId, nLoc: nat, nCat: nat)
    requires Sound(rows, nLoc, nCat) && to < nLoc
    ensures var (r, ls) := Provision(rows, lines, to);
      |r| >= |rows| && Sound(r, nLoc, nCat)
      && (forall k :: 0 <= k < |rows| ==> r[k] == rows[k])
      && (forall k :: |rows| <= k < |r| ==> r[k].stock == 0 && r[k].locationId == to)
      && AtDestination(r, ls, to)
      && (forall j :: 0 <= j < |ls| ==> ls[j].receivedQuantity == Some(0) && ls[j].expectedQuantity == Some(ls[j].quantity))
    decreases |lines|
  {
    if lines != [] {
      var l := lines[0];
      if l.product >= |rows| {
        ProvisionFacts(rows, lines[1..], to, nLoc, nCat);
      } else {
        var p := rows[l.product];
        match FindAt(rows, p.itemCode, to)
        case Some(t) =>
          ProvisionFacts(rows, lines[1..], to, nLoc, nCat);
        case None =>
          var np := p.(stock := 0, locationId := to);
          AppendFreshKeepsUnique(rows, np);
          ProvisionFacts(rows + [np], lines[1..], to, nLoc, nCat);
          var rest := Provision(rows + [np], lines[1..], to);
          assert rest.0[|rows|] == np;
      }
    }
  }

  /** When every purchase line names an existing row, the inbound gets one
      line per purchase line, in order: the same line re-pointed at a row
      of the same item code at `to`, expecting its quantity, receiving 0. */
  lemma {:induction false} ProvisionLines(rows: seq<Product>, lines: seq<Line>, to: LocationId)
    requires LinesExist(rows, lines)
    ensures var (r, ls) := Provision(rows, lines, to);
      |ls| == |lines|
      && forall j :: 0 <= j < |ls| ==>
           ls[j] == InboundLine(lines[j], ls[j].product)
           && ls[j].product < |r| && At(r[ls[j].product], rows[lines[j].product].itemCode, to)
    decreases |lines|
  {
    if lines != [] {
      var l := lines[0];
      var p := rows[l.product];
      TailExist(rows, lines);
      var rows' := if FindAt(rows, p.itemCode, to).Some? then rows else rows + [p.(stock := 0, locationId := to)];
      assert LinesExist(rows', lines[1..]);
      assert forall x :: 0 <= x < |rows| ==> rows'[x] == rows[x];
      ProvisionLines(rows', lines[1..], to);
      ProvisionPrefix(rows', lines[1..], to);
      var (r, ls) := Provision(rows, lines, to);
      assert Provision(rows, lines, to) == (Provision(rows', lines[1..], to).0,
                                            [InboundLine(l, if FindAt(rows, p.itemCode, to).Some? then FindAt(rows, p.itemCode, to).value else |rows|)]
                                            + Provision(rows', lines[1..], to).1);
      forall j | 0 <= j < |ls|
        ensures ls[j] == InboundLine(lines[j], ls[j].product)
        ensures ls[j].product < |r| && At(r[ls[j].product], rows[lines[j].product].itemCode, to)
      {
        if j > 0 {
          assert lines[1..][j - 1] == lines[j];
          assert ls[j] == Provision(rows', lines[1..], to).1[j - 1];
        } else if FindAt(rows, p.itemCode, to).None? {
          assert rows'[|rows|] == p.(stock := 0, locationId := to);
        }
      }
    }
  }

  /** Approving a purchase moves no stock: every item code's total is the same. */
  lemma ProvisionKeepsStock(rows: seq<Product>, lines: seq<Line>, to: LocationId, code: string)
    ensures SumCode(Provision(rows, lines, to).0, code) == SumCode(rows, code)
  {
    ProvisionPrefix(rows, lines, to);
    ZeroTailSum(rows, Provision(rows, lines, to).0, code);
  }

  /** Provisioning only appends rows, each with stock 0 at `to`. */
  lemma {:induction false} ProvisionPrefix(rows: seq<Product>, lines: seq<Line>, to: LocationId)
    ensures var r := Provision(rows, lines, to).0;
      |r| >= |rows| && (forall k :: 0 <= k < |rows| ==> r[k] == rows[k])
      && (forall k :: |rows| <= k < |r| ==> r[k].stock == 0 && r[k].locationId == to)
    decreases |lines|
  {
    if lines != [] {
      var l := lines[0];
      if l.product >= |rows| {
        ProvisionPrefix(rows, lines[1..], to);
      } else {
        var p := rows[l.product];
        match FindAt(rows, p.itemCode, to)
        case Some(t) =>
          ProvisionPrefix(rows, lines[1..], to);
        case None =>
          var np := p.(stock := 0, locationId := to);
          ProvisionPrefix(rows + [np], lines[1..], to);
          assert Provision(rows + [np], lines[1..], to).0[|rows|] == np;
      }
    }
  }

  /** Rows added with stock 0 do not change any total. */
  lemma {:induction false} ZeroTailSum(rows: seq<Product>, r: seq<Product>, code: string)
    requires |r| >= |rows| && (forall k :: 0 <= k < |rows| ==> r[k] == rows[k])
    requires forall k :: |rows| <= k < |r| ==> r[k].stock == 0
    ensures SumCode(r, code) == SumCode(rows, code)
    decreases |r|
  {
    if |r| == |rows| {
      assert r == rows;
    } else {
      var n := |r| - 1;
      ZeroTailSum(rows, r[..n], code);
    }
  }

  /** The purchase-approval loop: rows provisioned and the inbound lines collected. */
  method ApplyProvision(rows: seq<Product>, lines: seq<Line>, to: LocationId) returns (r: seq<Product>, inbound: seq<Line>)
    ensures r == Provision(rows, lines, to).0 && inbound == Provision(rows, lines, to).1
  {
    r, inbound := rows, [];
    var i := 0;
    assert lines[0..] == lines && [] + Provision(rows, lines, to).1 == Provision(rows, lines, to).1;
    while i < |lines|
      invariant 0 <= i <= |lines|
      invariant Provision(rows, lines, to).0 == Provision(r, lines[i..], to).0
      invariant Provision(rows, lines, to).1 == inbound + Provision(r, lines[i..], to).1
    {
      ProvisionUnfold(r, lines, i, to);
      var r2, emitted := ProvisionLine(r, lines[i], to);
      LinesAssoc(inbound, emitted, Provision(r2, lines[i + 1..], to).1);
      r, inbound := r2, inbound + emitted;
      i := i + 1;
    }
    assert lines[i..] == [] && inbound + [] == inbound;
  }

  lemma LinesAssoc(a: seq<Line>, b: seq<Line>, c: seq<Line>)
    ensures a + (b + c) == (a + b) + c
  {
  }

  /** One purchase line of the provisioning pass: the rows after it, and
      the inbound line it emits (none for a line whose product is unknown). */
  function ProvisionHead(rows: seq<Product>, l: Line, to: LocationId): (seq<Product>, seq<Line>) {
    if l.product >= |rows| then (rows, [])
    else
      var p := rows[l.product];
      match FindAt(rows, p.itemCode, to)
      case Some(t) => (rows, [InboundLine(l, t)])
      case None => (rows + [p.(stock := 0, locationId := to)], [InboundLine(l, |rows|)])
  }

  /** The loop body of the provisioning pass. */
  method ProvisionLine(rows: seq<Product>, l: Line, to: LocationId) returns (r: seq<Product>, emitted: seq<Line>)
    ensures r == ProvisionHead(rows, l, to).0 && emitted == ProvisionHead(rows, l, to).1
  {
    r, emitted := rows, [];
    if l.product < |rows| {
      var p := rows[l.product];
      var target := FindAt(rows, p.itemCode, to);
      if target.Some? {
        emitted := [InboundLine(l, target.value)];
      } else {
        emitted := [InboundLine(l, |rows|)];
        r := rows + [p.(stock := 0, locationId := to)];
      }
    }
  }

  /** One iteration of the provisioning loop, at line `i`. */
  lemma ProvisionUnfold(rows: seq<Product>, lines: seq<Line>, i: nat, to: LocationId)
    requires i < |lines|
    ensures var h := ProvisionHead(rows, lines[i], to);
      var rest := Provision(h.0, lines[i + 1..], to);
      Provision(rows, lines[i..], to) == (rest.0, h.1 + rest.1)
  {
    assert lines[i..][0] == lines[i] && lines[i..][1..] == lines[i + 1..];
    if lines[i].product >= |rows| {
      var rest := Provision(rows, lines[i + 1..], to);
      assert [] + rest.1 == rest.1;
    }
  }
}

=== FILE: store.dfy ===
/** The transaction controller's handlers on the live database: the
    transactions collection and the products table are fields that each
    handler updates in place. A handler computes its result on the current
    state, and commits it only when it succeeds, so a failed call leaves
    everything as it was. */
module TransactionStore {
  import opened Common
  import opened TransactionModel
  import opened Catalog
  import opened LedgerState
  import opened Creation
  import opened Approval
  import opened Lifecycle
  import opened Listing

  class Store {
    var txs: map<TxId, Transaction>
    var nextId: TxId
    const catalog: ProductTable
    const companies: set<CompanyId>

    function State(): Db
      reads this, catalog
    {
      Db(txs, catalog.rows, nextId)
    }

    function Dir(): Directory
      reads catalog
    {
      Directory(|catalog.locationNames|, companies)
    }

    ghost predicate Valid()
      reads this, catalog
    {
      catalog.Valid() && DbValid(State(), |catalog.locationNames|)
    }

    constructor (products: ProductTable, companyIds: set<CompanyId>)
      requires products.Valid()
      ensures Valid() && txs == map[] && nextId == 0
      ensures catalog == products && companies == companyIds && catalog.rows == old(products.rows)
    {
      txs := map[];
      nextId := 0;
      catalog := products;
      companies := companyIds;
    }

    /** Write a database state back: records, products, next id. */
    method Commit(d: Db)
      modifies this, catalog`rows
      ensures State() == d
    {
      txs := d.txs;
      nextId := d.nextId;
      catalog.rows := d.rows;
    }

    method CreateTransaction(req: CreateRequest, user: UserId, now: Time, year: nat) returns (r: Result<TxId, Error>)
      requires Valid()
      modifies this, catalog`rows
      ensures Valid()
      ensures var e := CreateEffect(old(State()), Dir(), req, user, now, year);
        (e.Ok? ==> r == Ok(e.value.1) && State() == e.value.0)
        && (e.Err? ==> r == Err(e.error) && State() == old(State()))
    {
      var e := CreateStep(State(), Dir(), req, user, now, year);
      if e.Err? {
        return Err(e.error);
      }
      CreateKeepsValid(State(), Dir(), |catalog.categoryNames|, req, user, now, year);
      Commit(e.value.0);
      r := Ok(e.value.1);
    }

    method ApproveTransaction(id: TxId, user: UserId, now: Time) returns (r: Result<Transaction, Error>)
      requires Valid()
      modifies this, catalog`rows
      ensures Valid()
      ensures var e := ApproveEffect(old(State()), id, user, now);
        (e.Ok? ==> State() == e.value && id in txs && r == Ok(txs[id]))
        && (e.Err? ==> r == Err(e.error) && State() == old(State()))
    {
      var e := ApproveStep(State(), id, user, now);
      if e.Err? {
        return Err(e.error);
      }
      ApproveKeepsValid(State(), |catalog.locationNames|, |catalog.categoryNames|, id, user, now);
      ApproveOutcome(State(), id, user, now);
      Commit(e.value);
      r := Ok(txs[id]);
    }

    method CancelTransaction(id: TxId, now: Time) returns (r: Result<Transaction, Error>)
      requires Valid()
      modifies this, catalog`rows
      ensures Valid()
      ensures var e := CancelPurchaseEffect(old(State()), id, now);
        (e.Ok? ==> State() == e.value && id in txs && r == Ok(txs[id]))
        && (e.Err? ==> r == Err(e.error) && State() == old(State()))
    {
      var e := CancelStep(State(), id, now);
      if e.Err? {
        return Err(e.error);
      }
      CancelKeepsValid(State(), |catalog.locationNames|, |catalog.categoryNames|, id, now);
      CancelOutcome(State(), id, now);
      Commit(e.value);
      r := Ok(txs[id]);
    }

    /** reject, submitDraft, moveToDraft and resubmit: a status change on
        one record. */
    method ChangeStatus(c: Command, id: TxId, user: UserId, now: Time) returns (r: Result<Transaction, Error>)
      requires Valid() && c in {RejectCmd, SubmitCmd, MoveToDraftCmd, ResubmitCmd}
      modifies this
      ensures Valid()
      ensures var e := Run(c, old(State()), id, user, now);
        (e.Ok? ==> State() == e.value && id in txs && r == Ok(txs[id]))
        && (e.Err? ==> r == Err(e.error) && State() == old(State()))
    {
      var e := Run(c, State(), id, user, now);
      if e.Err? {
        return Err(e.error);
      }
      RunKeepsValid(c, State(), |catalog.locationNames|, |catalog.categoryNames|, id, user, now);
      StatusOnly(c, State(), id, user, now);
      txs := e.value.txs;
      r := Ok(txs[id]);
    }

    method DeleteDraftTransaction(id: TxId) returns (r: Result<TxId, Error>)
      requires Valid()
      modifies this
      ensures Valid()
      ensures var e := DeleteDraftEffect(old(State()), id);
        (e.Ok? ==> State() == e.value && r == Ok(id))
        && (e.Err? ==> r == Err(e.error) && State() == old(State()))
    {
      var e := DeleteDraftEffect(State(), id);
      if e.Err? {
        return Err(e.error);
      }
      RemoveKeepsValid(State(), |catalog.locationNames|, id);
      txs := e.value.txs;
      r := Ok(id);
    }

    method UpdateInboundTransaction(id: TxId, updates: Option<seq<ReceivedUpdate>>, note: Option<string>)
      returns (r: Result<Transaction, Error>)
      requires Valid()
      modifies this
      ensures Valid()
      ensures var e := UpdateInboundEffect(old(State()), id, updates, note);
        (e.Ok? ==> State() == e.value && id in txs && r == Ok(txs[id]))
        && (e.Err? ==> r == Err(e.error) && State() == old(State()))
    {
      var e := UpdateInboundStep(State(), id, updates, note);
      if e.Err? {
        return Err(e.error);
      }
      UpdateInboundKeepsValid(State(), |catalog.locationNames|, id, updates, note);
      UpdateInboundOutcome(State(), id, updates, note);
      txs := e.value.txs;
      r := Ok(txs[id]);
    }

    method UpdatePurchaseTransaction(id: TxId, edit: PurchaseEdit) returns (r: Result<Transaction, Error>)
      requires Valid()
      modifies this
      ensures Valid()
      ensures var e := UpdatePurchaseEffect(old(State()), Dir(), id, edit);
        (e.Ok? ==> State() == e.value && id in txs && r == Ok(txs[id]))
        && (e.Err? ==> r == Err(e.error) && State() == old(State()))
    {
      var e := UpdatePurchaseEffect(State(), Dir(), id, edit);
      if e.Err? {
        return Err(e.error);
      }
      UpdatePurchaseKeepsValid(State(), Dir(), id, edit);
      UpdatePurchaseOutcome(State(), Dir(), id, edit);
      txs := e.value.txs;
      r := Ok(txs[id]);
    }

    method ListTransactionsFor(viewer: Principal, q: ListQuery) returns (r: seq<(TxId, Transaction)>)
      requires Valid()
      ensures r == ListTransactions(State(), viewer, q)
    {
      r := GetTransactions(State(), viewer, q);
    }
  }
}

=== FILE: text.dfy ===
/** The string primitives the JavaScript code leans on: `trim`,
    `toLowerCase`, `String(n)`, `padStart`, `parseInt(s, 10)` and
    `parseInt(s)` with no radix. */
module Text {
  import opened Common

  /** The characters `String.prototype.trim` and `parseInt` skip:
      ECMAScript's WhiteSpace (tab, vertical tab, form feed, space, no-break
      space, the byte order mark and the other space separators) and its
      LineTerminator (line feed, carriage return, line and paragraph
      separators). */
  predicate IsSpace(c: char) {
    ('\t' <= c <= '\r') || c == ' ' || c == '\U{00A0}' || c == '\U{1680}'
    || ('\U{2000}' <= c <= '\U{200A}') || ('\U{2028}' <= c <= '\U{2029}')
    || c == '\U{202F}' || c == '\U{205F}' || c == '\U{3000}' || c == '\U{FEFF}'
  }

  predicate IsDigit(c: char) {
    '0' <= c <= '9'
  }

  predicate AllDigits(s: string) {
    forall i :: 0 <= i < |s| ==> IsDigit(s[i])
  }

  function TrimStart(s: string): (r: string)
    ensures |r| <= |s| && r == s[|s| - |r|..]
    ensures r == [] || !IsSpace(r[0])
    ensures forall i :: 0 <= i < |s| - |r| ==> IsSpace(s[i])
  {
    if |s| > 0 && IsSpace(s[0]) then TrimStart(s[1..]) else s
  }

  function TrimEnd(s: string): (r: string)
    ensures |r| <= |s| && r == s[..|r|]
    ensures r == [] || !IsSpace(r[|r| - 1])
    ensures forall i :: |r| <= i < |s| ==> IsSpace(s[i])
  {
    if |s| > 0 && IsSpace(s[|s| - 1]) then TrimEnd(s[..|s| - 1]) else s
  }

  /** `r` is `s` with only whitespace cut off at its two ends. */
  ghost predicate SpaceCut(s: string, r: string) {
    exists a, b :: 0 <= a <= b <= |s| && r == s[a..b]
                   && (forall i :: 0 <= i < a ==> IsSpace(s[i]))
                   && (forall i :: b <= i < |s| ==> IsSpace(s[i]))
  }

  /** `s.trim()`: the input with the whitespace at both of its ends cut
      off, so that what is left starts and ends with a non-space. */
  function Trim(s: string): (r: string)
    ensures |r| <= |s|
    ensures r == [] || (!IsSpace(r[0]) && !IsSpace(r[|r| - 1]))
  {
    TrimEnds(s);
    TrimEnd(TrimStart(s))
  }

  /** `trim` cuts only whitespace off, and only at the two ends. */
  lemma TrimCuts(s: string)
    ensures SpaceCut(s, Trim(s))
  {
    CutBoth(s, TrimStart(s), TrimEnd(TrimStart(s)));
  }

  /** Cutting whitespace off the front of `s` gives `t`, and off the back
      of `t` gives `r`: then `r` is a piece of `s` with only whitespace
      around it. */
  lemma CutBoth(s: string, t: string, r: string)
    requires |t| <= |s| && t == s[|s| - |t|..] && forall i :: 0 <= i < |s| - |t| ==> IsSpace(s[i])
    requires |r| <= |t| && r == t[..|r|] && forall i :: |r| <= i < |t| ==> IsSpace(t[i])
    ensures SpaceCut(s, r)
  {
    var a := |s| - |t|;
    TrimTail(s, a, t, r);
    assert 0 <= a <= a + |r| <= |s| && r == s[a..a + |r|]
           && (forall i :: 0 <= i < a ==> IsSpace(s[i]))
           && (forall i :: a + |r| <= i < |s| ==> IsSpace(s[i]));
  }

  /** What `trim` keeps starts and ends with a non-space. */
  lemma TrimEnds(s: string)
    ensures var r := TrimEnd(TrimStart(s));
      |r| <= |s| && (r == [] || (!IsSpace(r[0]) && !IsSpace(r[|r| - 1])))
  {
    var t := TrimStart(s);
    var r := TrimEnd(t);
    assert r != [] ==> r[0] == t[0];
  }

  /** What `trimEnd` cuts off the back of `s[a..]` is whitespace at the
      back of `s`. */
  lemma TrimTail(s: string, a: nat, t: string, r: string)
    requires a <= |s| && t == s[a..] && |r| <= |t| && r == t[..|r|]
    requires forall i :: |r| <= i < |t| ==> IsSpace(t[i])
    ensures r == s[a..a + |r|]
    ensures forall i :: a + |r| <= i < |s| ==> IsSpace(s[i])
  {
    forall i | a + |r| <= i < |s| ensures IsSpace(s[i]) {
      assert s[i] == t[i - a];
    }
  }

  /** A blank string: `!s.trim()` in the source. */
  predicate IsBlank(s: string) {
    forall i :: 0 <= i < |s| ==> IsSpace(s[i])
  }

  lemma TrimStartOfTrimmed(s: string)
    requires s == [] || !IsSpace(s[0])
    ensures TrimStart(s) == s
  {
  }

  lemma TrimEndOfTrimmed(s: string)
    requires s == [] || !IsSpace(s[|s| - 1])
    ensures TrimEnd(s) == s
  {
  }

  /** Trimming twice is trimming once, so a trimmed field stays as it is. */
  lemma TrimIdempotent(s: string)
    ensures Trim(Trim(s)) == Trim(s)
  {
    var t := Trim(s);
    TrimStartOfTrimmed(t);
    TrimEndOfTrimmed(t);
  }

  /** `!s.trim()` holds exactly when every character is whitespace. */
  lemma {:induction false} BlankIffTrimEmpty(s: string)
    ensures IsBlank(s) <==> Trim(s) == []
  {
    if IsBlank(s) {
      BlankTrimStart(s);
    } else {
      var i :| 0 <= i < |s| && !IsSpace(s[i]);
      TrimStartKeeps(s, i);
      TrimEndNonBlank(TrimStart(s));
    }
  }

  lemma TrimStartKeeps(s: string, i: nat)
    requires i < |s| && !IsSpace(s[i])
    ensures !IsBlank(TrimStart(s))
  {
    var a := TrimStart(s);
    var d := |s| - |a|;
    assert i >= d;
    assert a[i - d] == s[i];
  }

  lemma TrimEndNonBlank(a: string)
    requires !IsBlank(a)
    ensures TrimEnd(a) != []
  {
  }

  lemma {:induction false} BlankTrimStart(s: string)
    requires IsBlank(s)
    ensures TrimStart(s) == []
  {
    if |s| > 0 {
      assert IsSpace(s[0]);
      BlankTrimStart(s[1..]);
    }
  }

  /** `toLowerCase()` on ASCII letters; other characters are kept. */
  function Lower(s: string): (r: string)
    ensures |r| == |s|
    ensures forall i :: 0 <= i < |s| ==> ('A' <= s[i] <= 'Z' ==> r[i] == (s[i] as int + 32) as char)
    ensures forall i :: 0 <= i < |s| ==> (!('A' <= s[i] <= 'Z') ==> r[i] == s[i])
  {
    seq(|s|, i requires 0 <= i < |s| => if 'A' <= s[i] <= 'Z' then (s[i] as int + 32) as char else s[i])
  }

  function DigitChar(d: nat): char
    requires d < 10
  {
    ('0' as int + d) as char
  }

  function DigitValue(c: char): nat
    requires IsDigit(c)
  {
    c as int - '0' as int
  }

  /** `String(n)` for a non-negative integer: decimal, no leading zeros. */
  function NatToString(n: nat): (r: string)
    ensures |r| >= 1 && AllDigits(r)
    decreases n
  {
    if n < 10 then [DigitChar(n)] else NatToString(n / 10) + [DigitChar(n % 10)]
  }

  /** The value of a string of decimal digits. */
  function DigitsValue(s: string): nat
    requires AllDigits(s)
  {
    if s == [] then 0 else DigitsValue(s[..|s| - 1]) * 10 + DigitValue(s[|s| - 1])
  }

  /** `s.padStart(width, fill)`. */
  function PadStart(s: string, width: nat, fill: char): (r: string)
    ensures |r| == if |s| >= width then |s| else width
    ensures r[|r| - |s|..] == s
    ensures forall i :: 0 <= i < |r| - |s| ==> r[i] == fill
  {
    if |s| >= width then s else seq(width - |s|, _ => fill) + s
  }

  /** The longest prefix of decimal digits. */
  function LeadingDigits(s: string): (r: string)
    ensures AllDigits(r) && |r| <= |s| && r == s[..|r|]
    ensures |r| < |s| ==> !IsDigit(s[|r|])
  {
    if |s| > 0 && IsDigit(s[0]) then [s[0]] + LeadingDigits(s[1..]) else []
  }

  /** `parseInt(s, 10)`: skip leading whitespace, an optional sign, then
      the leading digits; `None` stands for `NaN` (no digit there). */
  function ParseIntPrefix(s: string): (r: Option<int>)
    ensures r.Some? && (forall i :: 0 <= i < |s| ==> s[i] != '-') ==> r.value >= 0
  {
    var t := TrimStart(s);
    if |t| > 0 && (t[0] == '-' || t[0] == '+') then
      var ds := LeadingDigits(t[1..]);
      if ds == [] then None
      else if t[0] == '-' then Some(-(DigitsValue(ds) as int))
      else Some(DigitsValue(ds))
    else
      var ds := LeadingDigits(t);
      if ds == [] then None else Some(DigitsValue(ds))
  }

  predicate IsHexDigit(c: char) {
    IsDigit(c) || 'a' <= c <= 'f' || 'A' <= c <= 'F'
  }

  predicate AllHex(s: string) {
    forall i :: 0 <= i < |s| ==> IsHexDigit(s[i])
  }

  function HexDigitValue(c: char): (v: nat)
    requires IsHexDigit(c)
    ensures v < 16
  {
    if IsDigit(c) then DigitValue(c)
    else if 'a' <= c <= 'f' then c as int - 'a' as int + 10
    else c as int - 'A' as int + 10
  }

  /** The value of a string of hexadecimal digits. */
  function HexValue(s: string): nat
    requires AllHex(s)
  {
    if s == [] then 0 else HexValue(s[..|s| - 1]) * 16 + HexDigitValue(s[|s| - 1])
  }

  /** The longest prefix of hexadecimal digits. */
  function LeadingHex(s: string): (r: string)
    ensures AllHex(r) && |r| <= |s| && r == s[..|r|]
    ensures |r| < |s| ==> !IsHexDigit(s[|r|])
  {
    if |s| > 0 && IsHexDigit(s[0]) then [s[0]] + LeadingHex(s[1..]) else []
  }

  /** A digit string, after the sign, that `parseInt` with no radix reads in
      base 16: it starts with `0x` or `0X`. */
  predicate HexPrefixed(u: string) {
    |u| >= 2 && u[0] == '0' && (u[1] == 'x' || u[1] == 'X')
  }

  /** What follows the leading whitespace and the sign. */
  function Unsigned(s: string): string {
    var t := TrimStart(s);
    if |t| > 0 && (t[0] == '-' || t[0] == '+') then t[1..] else t
  }

  /** `parseInt(s)` with no radix: as `parseInt(s, 10)`, except that after
      the sign a `0x` or `0X` switches to base 16. */
  function ParseIntAuto(s: string): (r: Option<int>)
    ensures !HexPrefixed(Unsigned(s)) ==> r == ParseIntPrefix(s)
    ensures r.Some? && (forall i :: 0 <= i < |s| ==> s[i] != '-') ==> r.value >= 0
  {
    var t := TrimStart(s);
    var u := Unsigned(s);
    if HexPrefixed(u) then
      var ds := LeadingHex(u[2..]);
      if ds == [] then None
      else if t[0] == '-' then Some(-(HexValue(ds) as int))
      else Some(HexValue(ds))
    else ParseIntPrefix(s)
  }

  lemma {:induction false} LeadingHexOfHex(s: string)
    requires AllHex(s)
    ensures LeadingHex(s) == s
  {
    if |s| > 0 {
      LeadingHexOfHex(s[1..]);
      assert [s[0]] + s[1..] == s;
    }
  }

  /** `parseInt` of `0x` followed by hexadecimal digits is their
      hexadecimal value. */
  lemma ParseHex(s: string)
    requires |s| >= 3 && s[..2] == "0x" && AllHex(s[2..])
    ensures ParseIntAuto(s) == Some(HexValue(s[2..]) as int)
  {
    assert s[0] == s[..2][0] == '0' && s[1] == s[..2][1] == 'x';
    TrimStartOfTrimmed(s);
    assert Unsigned(s) == s;
    LeadingHexOfHex(s[2..]);
  }

  /** `parseInt` with and without a radix agree on a digit string. */
  lemma ParseDigitsAuto(s: string)
    requires AllDigits(s) && |s| >= 1
    ensures ParseIntAuto(s) == Some(DigitsValue(s) as int)
  {
    assert IsDigit(s[0]) && !IsSpace(s[0]);
    assert TrimStart(s) == s;
    assert |s| >= 2 ==> IsDigit(s[1]);
    ParseDigits(s);
  }

  lemma {:induction false} DigitsValueAppend(s: string, c: char)
    requires AllDigits(s) && IsDigit(c)
    ensures AllDigits(s + [c]) && DigitsValue(s + [c]) == DigitsValue(s) * 10 + DigitValue(c)
  {
    assert (s + [c])[..|s + [c]| - 1] == s;
  }

  /** `String(n)` reads back as `n`. */
  lemma {:induction false} NatToStringValue(n: nat)
    ensures DigitsValue(NatToString(n)) == n
    decreases n
  {
    if n < 10 {
      assert NatToString(n)[..0] == [];
    } else {
      NatToStringValue(n / 10);
      DigitsValueAppend(NatToString(n / 10), DigitChar(n % 10));
    }
  }

  /** Leading zeros do not change the value of a digit string. */
  lemma {:induction false} ZeroPrefixValue(k: nat, s: string)
    requires AllDigits(s)
    ensures AllDigits(seq(k, _ => '0') + s)
    ensures DigitsValue(seq(k, _ => '0') + s) == DigitsValue(s)
    decreases |s|
  {
    var z := seq(k, _ => '0');
    if s == [] {
      assert z + s == z;
      ZerosValue(k);
    } else {
      var init := s[..|s| - 1];
      assert (z + s)[..|z + s| - 1] == z + init;
      ZeroPrefixValue(k, init);
    }
  }

  lemma {:induction false} ZerosValue(k: nat)
    ensures AllDigits(seq(k, _ => '0')) && DigitsValue(seq(k, _ => '0')) == 0
  {
    if k > 0 {
      assert seq(k, _ => '0')[..k - 1] == seq(k - 1, _ => '0');
      ZerosValue(k - 1);
    }
  }

  /** `parseInt` of a digit string is its value. */
  lemma ParseDigits(s: string)
    requires AllDigits(s) && |s| >= 1
    ensures ParseIntPrefix(s) == Some(DigitsValue(s) as int)
  {
    assert IsDigit(s[0]) && !IsSpace(s[0]);
    assert TrimStart(s) == s;
    assert s[0] != '-' && s[0] != '+';
    LeadingDigitsOfDigits(s);
  }

  lemma {:induction false} LeadingDigitsOfDigits(s: string)
    requires AllDigits(s)
    ensures LeadingDigits(s) == s
  {
    if |s| > 0 {
      LeadingDigitsOfDigits(s[1..]);
      assert [s[0]] + s[1..] == s;
    }
  }

  /** `parseInt(String(n).padStart(w, "0"))` is `n`: the round trip of a zero-padded number. */
  lemma PaddedRoundTrip(n: nat, width: nat)
    ensures AllDigits(PadStart(NatToString(n), width, '0'))
    ensures ParseIntPrefix(PadStart(NatToString(n), width, '0')) == Some(n as int)
  {
    var s := NatToString(n);
    var p := PadStart(s, width, '0');
    var k := |p| - |s|;
    assert p == seq(k, _ => '0') + s;
    ZeroPrefixValue(k, s);
    NatToStringValue(n);
    ParseDigits(p);
  }

  function Pow10(k: nat): nat {
    if k == 0 then 1 else 10 * Pow10(k - 1)
  }

  /** `String(n)` has k digits exactly when 10^(k-1) <= n < 10^k. */
  lemma {:induction false} NatToStringLength(n: nat, k: nat)
    requires k >= 1 && n < Pow10(k)
    ensures |NatToString(n)| <= k
    ensures n >= Pow10(k - 1) ==> |NatToString(n)| == k
    decreases k
  {
    if n >= 10 {
      assert Pow10(1) == 10;
      assert k >= 2;
      NatToStringLength(n / 10, k - 1);
      if n >= Pow10(k - 1) {
        assert n / 10 >= Pow10(k - 2);
      }
    } else if n >= Pow10(k - 1) {
      if k > 1 {
        assert Pow10(k - 1) >= 10 by { Pow10AtLeast(k - 1); }
      }
    }
  }

  lemma {:induction false} Pow10AtLeast(k: nat)
    requires k >= 1
    ensures Pow10(k) >= 10
  {
    if k > 1 { Pow10AtLeast(k - 1); }
  }
}

=== FILE: transaction_model.dfy ===
/** The transaction record (backend/models/Transaction.js): the type and
    status enumerations, the line items with their price snapshot, the
    sparse-unique poNumber and the pre-save hook that clears, keeps or
    generates it. */
module TransactionModel {
  import opened Common
  import opened Text

  datatype TxType = Purchase | Sale | Inbound | Outbound | Transfer

  datatype TxStatus = Draft | Pending | Approved | Rejected | Cancelled

  function TypeName(t: TxType): string {
    match t
    case Purchase => "purchase"
    case Sale => "sale"
    case Inbound => "inbound"
    case Outbound => "outbound"
    case Transfer => "transfer"
  }

  function StatusName(s: TxStatus): string {
    match s
    case Draft => "draft"
    case Pending => "pending"
    case Approved => "approved"
    case Rejected => "rejected"
    case Cancelled => "cancelled"
  }

  /** The type enumeration: a request's type string is accepted exactly
      when it is the name of one of the five types. */
  function ParseType(s: string): (r: Option<TxType>)
    ensures r.Some? ==> TypeName(r.value) == s
    ensures forall t :: TypeName(t) == s ==> r == Some(t)
  {
    if s == "purchase" then Some(Purchase)
    else if s == "sale" then Some(Sale)
    else if s == "inbound" then Some(Inbound)
    else if s == "outbound" then Some(Outbound)
    else if s == "transfer" then Some(Transfer)
    else None
  }

  /** The status a new record gets: `draft` only when draft is requested,
      `pending` (the schema default) otherwise. */
  function InitialStatus(requested: Option<string>): (r: TxStatus)
    ensures r == Draft || r == Pending
    ensures r == Draft <==> requested == Some("draft")
  {
    if requested == Some("draft") then Draft else Pending
  }

  /** One line item. The two margin fields are optional only so that a
      listing can blank them for non-admin callers; every stored line has them. */
  datatype Line = Line(
    product: ProductId,
    quantity: int,
    receivedQuantity: Option<int>,
    expectedQuantity: Option<int>,
    costPriceAtTransaction: Option<real>,
    sellingPrice: Option<real>,
    unitPrice: real,
    transactionSellingPrice: real,
    discountPercent: real,
    discountedPrice: real)

  datatype Transaction = Transaction(
    txType: TxType,
    poNumber: Option<string>,
    company: Option<CompanyId>,
    fromLocation: Option<LocationId>,
    toLocation: Option<LocationId>,
    linkedTransaction: Option<TxId>,
    lines: seq<Line>,
    requestedBy: UserId,
    approvedBy: Option<UserId>,
    status: TxStatus,
    deliverTo: string,
    deliveryDate: Option<Time>,
    note: string,
    approvedAt: Option<Time>,
    rejectedAt: Option<Time>,
    cancelledAt: Option<Time>,
    createdAt: Time)

  // ---------------------------------------------------------------
  // PO numbers: `<year>-<sequence padded to 5 digits>`
  // ---------------------------------------------------------------

  function PoPrefix(year: nat): string {
    NatToString(year) + "-"
  }

  /** `${currentYear}-${String(nextNumber).padStart(5, "0")}`. */
  function FormatPo(year: nat, seqNo: nat): (po: string)
    ensures |po| >= 1
  {
    PoPrefix(year) + PadStart(NatToString(seqNo), 5, '0')
  }

  predicate NoDash(s: string) {
    forall i :: 0 <= i < |s| ==> s[i] != '-'
  }

  /** The text before the first '-' (all of it when there is none). */
  function UpToDash(s: string): (r: string)
    ensures NoDash(r) && |r| <= |s| && r == s[..|r|]
    ensures |r| < |s| ==> s[|r|] == '-'
  {
    if s == [] || s[0] == '-' then [] else [s[0]] + UpToDash(s[1..])
  }

  /** `s.split("-")[1]`: the piece after the first '-', or undefined. */
  function SecondSegment(s: string): (r: Option<string>)
    ensures r.Some? ==> NoDash(r.value)
  {
    var head := UpToDash(s);
    if |head| == |s| then None else Some(UpToDash(s[|head| + 1..]))
  }

  /** `parseInt(po.split("-")[1], 10)`; `None` is NaN. */
  function PoSequence(po: string): (r: Option<int>)
    ensures r.Some? ==> r.value >= 0
  {
    match SecondSegment(po)
    case None => None
    case Some(seg) => ParseIntPrefix(seg)
  }

  /** The next sequence number given the latest same-year purchase's poNumber:
      its suffix plus one, or 1 when there is none or the suffix is not a number. */
  function NextSequence(latest: Option<string>): (n: nat)
    ensures n >= 1
    ensures latest.Some? && PoSequence(latest.value).Some? ==> n == PoSequence(latest.value).value + 1
  {
    if latest.Some? && latest.value != [] then
      match PoSequence(latest.value)
      case Some(k) => k + 1
      case None => 1
    else 1
  }

  /** The pre-save hook. Inbound and every other non-purchase type lose their
      poNumber; a purchase with a (non-empty) poNumber keeps it; otherwise a
      new one is generated from the year and the latest same-year poNumber. */
  function SaveHook(t: TxType, po: Option<string>, year: nat, latest: Option<string>): (r: Option<string>)
    ensures t != Purchase ==> r == None
    ensures t == Purchase ==> r.Some? && r.value != []
  {
    if t == Inbound then None
    else if t != Purchase then None
    else if po.Some? && po.value != [] then po
    else Some(FormatPo(year, NextSequence(latest)))
  }

  /** Saving twice is saving once: the second run of the hook keeps what the
      first produced, whatever the clock and the table say by then. */
  lemma HookIdempotent(t: TxType, po: Option<string>, year: nat, latest: Option<string>,
                       year2: nat, latest2: Option<string>)
    ensures SaveHook(t, SaveHook(t, po, year, latest), year2, latest2) == SaveHook(t, po, year, latest)
  {
  }

  /** A purchase that already has a poNumber keeps it unchanged. */
  lemma HookKeepsAssigned(po: string, year: nat, latest: Option<string>)
    requires po != []
    ensures SaveHook(Purchase, Some(po), year, latest) == Some(po)
  {
  }

  lemma NatToStringNoDash(n: nat)
    ensures NoDash(NatToString(n))
  {
  }

  /** Reading the sequence back out of a generated poNumber gives the number
      it was generated from, for every year and every sequence number. */
  lemma {:induction false} PoRoundTrip(year: nat, n: nat)
    ensures PoSequence(FormatPo(year, n)) == Some(n as int)
  {
    var pad := PadStart(NatToString(n), 5, '0');
    PaddedRoundTrip(n, 5);
    NatToStringNoDash(year);
    assert NoDash(pad);
    SecondSegmentOf(NatToString(year), pad);
  }

  /** `(a + "-" + b).split("-")[1] == b` when neither part has a '-'. */
  lemma SecondSegmentOf(a: string, b: string)
    requires NoDash(a) && NoDash(b)
    ensures SecondSegment(a + "-" + b) == Some(b)
  {
    var s := a + "-" + b;
    UpToDashOfNoDash(a, "-" + b);
    assert s == a + ("-" + b);
    assert UpToDash(s) == a;
    assert s[|a| + 1..] == b;
    UpToDashOfNoDash(b, []);
    assert b + [] == b;
  }

  lemma {:induction false} UpToDashOfNoDash(a: string, b: string)
    requires NoDash(a)
    requires b == [] || b[0] == '-'
    ensures UpToDash(a + b) == a
  {
    if a == [] {
      assert a + b == b;
    } else {
      assert (a + b)[1..] == a[1..] + b;
      UpToDashOfNoDash(a[1..], b);
      assert [a[0]] + a[1..] == a;
    }
  }

  /** For a four-digit year and a sequence number of at most five digits the
      poNumber matches `^\d{4}-\d{5}$`. */
  lemma PoFormat(year: nat, n: nat)
    requires 1000 <= year <= 9999 && 1 <= n <= 99999
    ensures |FormatPo(year, n)| == 10
    ensures FormatPo(year, n)[4] == '-'
    ensures forall i :: 0 <= i < 10 && i != 4 ==> IsDigit(FormatPo(year, n)[i])
  {
    var y := NatToString(year);
    var pad := PadStart(NatToString(n), 5, '0');
    FourDigitYear(year);
    FiveDigitSequence(n);
    var po := FormatPo(year, n);
    assert po == y + "-" + pad;
    forall i | 0 <= i < 10 && i != 4
      ensures IsDigit(po[i])
    {
      if i < 4 {
        assert po[i] == y[i];
      } else {
        assert po[i] == pad[i - 5];
      }
    }
  }

  lemma FourDigitYear(year: nat)
    requires 1000 <= year <= 9999
    ensures |NatToString(year)| == 4
  {
    assert Pow10(4) == 10000 && Pow10(3) == 1000;
    NatToStringLength(year, 4);
  }

  lemma FiveDigitSequence(n: nat)
    requires n <= 99999
    ensures |PadStart(NatToString(n), 5, '0')| == 5 && AllDigits(PadStart(NatToString(n), 5, '0'))
  {
    assert Pow10(5) == 100000;
    NatToStringLength(n, 5);
    PaddedRoundTrip(n, 5);
  }

  /** The number generated after a purchase numbered `year-k` is `year-(k+1)`. */
  lemma NextAfterGenerated(year: nat, k: nat)
    ensures NextSequence(Some(FormatPo(year, k))) == k + 1
  {
    PoRoundTrip(year, k);
  }

  // ---------------------------------------------------------------
  // The transactions table and its sparse unique index on poNumber
  // ---------------------------------------------------------------

  predicate StartsWith(s: string, prefix: string) {
    |prefix| <= |s| && s[..|prefix|] == prefix
  }

  /** Record `id` is a purchase whose poNumber starts with `prefix`. */
  predicate MatchingPo(txs: map<TxId, Transaction>, prefix: string, id: TxId) {
    id in txs && txs[id].txType == Purchase && txs[id].poNumber.Some? && StartsWith(txs[id].poNumber.value, prefix)
  }

  /** `findOne({type: "purchase", poNumber: /^prefix/}).sort({createdAt: -1})`:
      among the ids below `hi`, the newest purchase whose poNumber starts with
      `prefix` (ids grow with creation time). */
  function LatestPoWithPrefix(txs: map<TxId, Transaction>, prefix: string, hi: nat): (r: Option<string>)
    ensures r.Some? ==> StartsWith(r.value, prefix)
    ensures r.Some? ==> exists id: TxId :: id < hi && MatchingPo(txs, prefix, id) && txs[id].poNumber == r
                                     && forall j: TxId :: id < j < hi ==> !MatchingPo(txs, prefix, j)
    ensures r.None? ==> forall id :: id in txs && id < hi && txs[id].txType == Purchase && txs[id].poNumber.Some?
                                     ==> !StartsWith(txs[id].poNumber.value, prefix)
  {
    if hi == 0 then None
    else
      var id := hi - 1;
      if id in txs && txs[id].txType == Purchase && txs[id].poNumber.Some? && StartsWith(txs[id].poNumber.value, prefix)
      then txs[id].poNumber
      else LatestPoWithPrefix(txs, prefix, hi - 1)
  }

  /** The sparse unique index: present poNumbers are pairwise distinct;
      records without one are exempt. */
  ghost predicate PoUnique(txs: map<TxId, Transaction>) {
    forall a, b :: a in txs && b in txs && a != b && txs[a].poNumber.Some? ==> txs[a].poNumber != txs[b].poNumber
  }

  /** Whether some stored record already holds this poNumber (the index would reject it). */
  predicate PoTaken(txs: map<TxId, Transaction>, po: Option<string>) {
    po.Some? && exists id :: id in txs && txs[id].poNumber == po
  }

  /** Inserting a record whose poNumber the index accepts keeps the index unique. */
  lemma InsertKeepsPoUnique(txs: map<TxId, Transaction>, id: TxId, t: Transaction)
    requires PoUnique(txs) && id !in txs && !PoTaken(txs, t.poNumber)
    ensures PoUnique(txs[id := t])
  {
  }
}
